=== FILE: README.md ===
# Bank management backend: a Dafny model

This project models the domain logic of a Spring bank backend: loans, the EMI schedule and EMI payments, the
account ledger, account numbers with their check digit, KYC, account opening and closing, beneficiaries, OTP
e-mail verification and a handful of admin rules. Every service call is a pure function. It maps an immutable
state (tables as sequences or maps of records) and a request to a `Result`: either the new state or the
exception the Java code throws. The source's `@Transactional` methods roll back when they fail, so an `Err`
carries no new state.

`BigDecimal` is modelled exactly with `real`. `Decimal.RoundHalfUp` is `setScale`/`divide` with HALF_UP, where
ties round away from zero. `Decimal.Pow` is the value of `BigDecimal.pow`; its exponent range and scale checks
are `LoanCalc.PowAccepts`. Random draws, UUIDs, reference numbers,
`System.currentTimeMillis()`, `LocalDate.now()` and `LocalDateTime.now()` are parameters of the operations that
use them. Two unique columns are filled from the millisecond clock: the loan account number and the
transaction id. An insert whose value is already stored fails, and the model returns that error. `LocalDate` is a year/month/day triple, and `Dates.PlusMonths` clamps the day the way `plusMonths` does.

Modules, following the source:

- `Wrappers`, `Seqs`, `Text`: `Option`/`Result`, first-index search and the key lookup every `findByX` shares, and the string helpers the services call
  (`trim().isEmpty()`, `isBlank()`, `contains("..")`, `toUpperCase()`, `equalsIgnoreCase`).
- `Decimal`, `Dates`: HALF_UP rounding at a scale, exact powers, and `plusMonths`/`isBefore`.
- `AccountNumber`: `AccountNumberGenerator`.
- `Users`, `Ledger`, `AccountService`: users and roles, `TransactionServiceImpl`, `AccountServiceImpl`.
- `Kyc`, `Beneficiaries`, `Auth`, `Admin`: the KYC, beneficiary, auth and admin services.
- `Loans`, `LoanCalc`: the `Loan` entity and its state changes, the rate table and the EMI formula.
- `EmiRecords`, `EmiSchedule`, `EmiService`: the EMI table with its queries and duplicate cleanup, schedule
  generation, `payEMI` and `getEMISchedule`.
- `BankState`, `LoanService`: the combined state the loan services work on, and `LoanServiceImpl`.

Source paths below are relative to the repository root.

## Model

| member | source | states |
|---|---|---|
| Text.EqualsIgnoreCaseIsUpperEquality | bmsp/src/main/java/com/bmsp/bmsp/service/admin/AdminServiceImpl.java:314-316 | two strings are equal ignoring case exactly when their upper-case forms are equal |
| Text.EqualsIgnoreCase | bmsp/src/main/java/com/bmsp/bmsp/service/admin/AdminServiceImpl.java:314-316 | equal length, and equal character by character after upper-casing |
| Text.ToUpper | bmsp/src/main/java/com/bmsp/bmsp/service/admin/AdminServiceImpl.java:257 | the result has the input's length and each character upper-cased |
| Text.TrimIsEmpty | bmsp/src/main/java/com/bmsp/bmsp/service/loan/LoanServiceImpl.java:185 | `trim().isEmpty()` holds exactly when no character is above U+0020 |
| Text.IsBlank | bmsp/src/main/java/com/bmsp/bmsp/service/kyc/KYCServiceImpl.java:124 | `isBlank()` holds exactly when every character is Java whitespace |
| Text.BlankAndTrimDiffer | bmsp/src/main/java/com/bmsp/bmsp/service/kyc/KYCServiceImpl.java:124 | the two blank tests differ: an ideographic space is blank but survives trim, and a NUL is trimmed but not blank |
| Text.NatToStringRoundTrip | bmsp/src/main/java/com/bmsp/bmsp/model/loan/Loan.java:84 | reading back the decimal digits of a number gives the number |
| Dates.PlusMonths | bmsp/src/main/java/com/bmsp/bmsp/model/loan/Loan.java:95 | adding n months moves the month index by n and keeps a valid date valid; the day is kept when the target month has it and otherwise clamped to that month's last day; adding 0 is the identity |
| Dates.PlusMonthsStrictlyIncreasing | bmsp/src/main/java/com/bmsp/bmsp/service/loan/EMIServiceImpl.java:53-54 | from a valid base date, more months give a strictly later date |
| Dates.PlusMonthsClampsExample | bmsp/src/main/java/com/bmsp/bmsp/model/loan/Loan.java:95 | January 31 plus one month is February 28 in 2023 and February 29 in 2024 |
| Decimal.RoundHalfUp | bmsp/src/main/java/com/bmsp/bmsp/service/loan/EMIServiceImpl.java:56-57 | the result has at most k decimals and lies within half a unit of the last place of the exact value; an exact tie goes away from zero (up for a non-negative value, down for a negative one), and the sign is kept |
| Decimal.RoundHalfUpUnique | bmsp/src/main/java/com/bmsp/bmsp/service/loan/LoanServiceImpl.java:253 | any k-decimal value strictly within half a unit of x is the HALF_UP rounding of x |
| Decimal.RoundHalfUpCharacterised | bmsp/src/main/java/com/bmsp/bmsp/service/loan/EMIServiceImpl.java:56-57 | any k-decimal value within half a unit of x, with a tie resolved away from zero, is the HALF_UP rounding of x, so that description fixes the rounding completely |
| Decimal.TiesRoundAwayFromZero | bmsp/src/main/java/com/bmsp/bmsp/service/loan/EMIServiceImpl.java:56-57 | 10.005 rounds to 10.01 and -0.005 to -0.01 at two places |
| Decimal.RoundHalfUpFixesScaled | bmsp/src/main/java/com/bmsp/bmsp/service/loan/EMIServiceImpl.java:57 | rounding a value that already has k decimals changes nothing, so rounding twice equals rounding once |
| Decimal.PowAboveOne | bmsp/src/main/java/com/bmsp/bmsp/service/loan/LoanServiceImpl.java:249-251 | a positive power of a base above one is above one, so the EMI denominator is positive |
| AccountNumber.NumericValue | bmsp/src/main/java/com/bmsp/bmsp/util/AccountNumberGenerator.java:28 | on ASCII, `Character.getNumericValue` gives 0..9 exactly for the decimal digits, 10..35 exactly for the letters of either case, and -1 for every other character |
| AccountNumber.JavaRem10 | bmsp/src/main/java/com/bmsp/bmsp/util/AccountNumberGenerator.java:41 | Java's `% 10` leaves a remainder congruent to its dividend mod 10, with the dividend's sign |
| AccountNumber.CheckDigit | bmsp/src/main/java/com/bmsp/bmsp/util/AccountNumberGenerator.java:23-42 | the check digit is in 0..9 and brings the right-to-left weighted digit sum to a multiple of 10 |
| AccountNumber.CalculateCheckDigit | bmsp/src/main/java/com/bmsp/bmsp/util/AccountNumberGenerator.java:23-42 | the right-to-left loop with its alternating doubling computes the reference check digit |
| AccountNumber.SingleDigitErrorDetected | bmsp/src/main/java/com/bmsp/bmsp/util/AccountNumberGenerator.java:27-41 | two digit strings differing in one position get different check digits |
| AccountNumber.ShiftedParityExample | bmsp/src/main/java/com/bmsp/bmsp/util/AccountNumberGenerator.java:25-38 | the rightmost payload digit is not doubled, so a finished number need not pass the standard Luhn test ("1" gets 9 and "19" fails it) |
| AccountNumber.ZeroPad | bmsp/src/main/java/com/bmsp/bmsp/util/AccountNumberGenerator.java:15 | `%010d` writes exactly `width` decimal digits |
| AccountNumber.ZeroPadRoundTrip | bmsp/src/main/java/com/bmsp/bmsp/util/AccountNumberGenerator.java:15 | reading the padded digits back gives the number, so padding loses nothing |
| AccountNumber.ZeroPadLeadingZero | bmsp/src/main/java/com/bmsp/bmsp/util/AccountNumberGenerator.java:15 | a draw below 10^9 padded to ten places starts with '0' |
| AccountNumber.GenerateAccountNumber | bmsp/src/main/java/com/bmsp/bmsp/util/AccountNumberGenerator.java:11-21 | a generated number is the branch code followed by eleven more characters (its full shape is GeneratedNumberShape) |
| AccountNumber.GeneratedNumberShape | bmsp/src/main/java/com/bmsp/bmsp/util/AccountNumberGenerator.java:11-21 | a generated number is the branch code, then ten digits starting with '0' that read back as the draw, then the check digit of everything before it; its length is the branch code's plus 11 |
| AccountNumber.GenerateIsInjective | bmsp/src/main/java/com/bmsp/bmsp/util/AccountNumberGenerator.java:15-20 | within one branch, different draws give different account numbers |
| AccountService.FreshAccountNumber | bmsp/src/main/java/com/bmsp/bmsp/service/account/AccountServiceImpl.java:37-42 | the number the draw-until-unused loop settles on is not in use and comes from one of the draws |
| AccountService.ChooseAccountNumber | bmsp/src/main/java/com/bmsp/bmsp/service/account/AccountServiceImpl.java:37-42 | the loop stops at the first draw whose number is unused and returns that number |
| AccountService.CreateAccount | bmsp/src/main/java/com/bmsp/bmsp/service/account/AccountServiceImpl.java:30-61 | fails exactly when KYC is not approved, and succeeds whenever it is; success adds one ACTIVE account under a fresh number, owned by the user, with the initial deposit (0 when null) as balance, overdraft only when explicitly true, and the branch name, IFSC code, minimum balance, interest rate and overdraft limit copied from the request; no existing account or transaction changes |
| AccountService.DeleteAccount | bmsp/src/main/java/com/bmsp/bmsp/service/account/AccountServiceImpl.java:79-90 | fails exactly for a missing or foreign account and, for the owner's account, exactly for a positive balance; otherwise it succeeds and the account stays, CLOSED with an update time |
| AccountService.CreatedAccountIsAccessible | bmsp/src/main/java/com/bmsp/bmsp/service/account/AccountServiceImpl.java:45-59 | the owner passes the transaction access check on the new account |
| AccountService.ClosedAccountRefusesCustomers | bmsp/src/main/java/com/bmsp/bmsp/service/account/AccountServiceImpl.java:87-89 | after closing, a customer's access check on the account fails as not active |
| Users.IsAdmin | bmsp/src/main/java/com/bmsp/bmsp/service/transaction/TransactionServiceImpl.java:230 | a user is an administrator when one of their roles is ROLE_ADMIN (a definition; its consequences are stated by Ledger.ValidateAccountAccess) |
| Ledger.TransactionIdAt | bmsp/src/main/java/com/bmsp/bmsp/model/transaction/Transaction.java:48-51 | the id is "TXN" followed by decimal digits that denote the clock's milliseconds |
| Ledger.TransactionIdsDistinct | bmsp/src/main/java/com/bmsp/bmsp/model/transaction/Transaction.java:48-51 | entries saved in different milliseconds get different ids |
| Ledger.TransactionIdAtInjective | bmsp/src/main/java/com/bmsp/bmsp/model/transaction/Transaction.java:48-51 | two clock readings give the same id exactly when they are the same millisecond |
| Ledger.AppendFreshKeepsUnique | bmsp/src/main/java/com/bmsp/bmsp/model/transaction/Transaction.java:19-20 | appending an entry whose id is not yet in the history keeps every id unique |
| Ledger.IdTakenAfterAppend | bmsp/src/main/java/com/bmsp/bmsp/model/transaction/Transaction.java:19-20 | after one more entry, an id is taken exactly when it was before or is the new entry's |
| Ledger.Post | bmsp/src/main/java/com/bmsp/bmsp/service/transaction/TransactionServiceImpl.java:58 | saving an entry fails exactly when the unique id column already holds its id; otherwise one account's balance is replaced, the entry is appended, and ids stay unique |
| Ledger.ValidateAccountAccess | bmsp/src/main/java/com/bmsp/bmsp/service/transaction/TransactionServiceImpl.java:228-242 | an admin reaches any existing account; anyone else only an own ACTIVE account, with the error telling a foreign or missing account from an inactive one |
| Ledger.Deposit | bmsp/src/main/java/com/bmsp/bmsp/service/transaction/TransactionServiceImpl.java:40-60 | after access passes, fails exactly when the entry's id "TXN"+millis is already in the history and succeeds otherwise; the balance rises by the amount, one DEPOSIT entry under that id records the new balance, no other account changes, and ids stay unique |
| Ledger.Withdraw | bmsp/src/main/java/com/bmsp/bmsp/service/transaction/TransactionServiceImpl.java:64-89 | after access passes, fails exactly when the balance is below the amount, then exactly when the entry's id is already in the history, and succeeds otherwise; the balance drops by the amount, stays non-negative, one WITHDRAWAL entry under that id records it, and ids stay unique |
| Ledger.WithdrawUndoesDeposit | bmsp/src/main/java/com/bmsp/bmsp/service/transaction/TransactionServiceImpl.java:40-89 | withdrawing what was just deposited, in another millisecond under an unused id, restores every balance and leaves two history entries |
| Ledger.Transfer | bmsp/src/main/java/com/bmsp/bmsp/service/transaction/TransactionServiceImpl.java:133-192 | the guards fire in order (access, same account, balance, destination missing, destination not ACTIVE); then the transfer fails exactly when either entry's id is already in the history or both entries are saved in the same millisecond, and succeeds otherwise; success moves the amount between the two accounts only and logs TRANSFER_OUT then TRANSFER_IN under one reference, each with its own id and new balance, keeping ids unique |
| Ledger.TransferConservesMoney | bmsp/src/main/java/com/bmsp/bmsp/service/transaction/TransactionServiceImpl.java:157-161 | the two balances sum to the same total after a transfer, and the source stays non-negative |
| Ledger.ProcessAdminTransaction | bmsp/src/main/java/com/bmsp/bmsp/service/transaction/TransactionServiceImpl.java:93-129 | needs an existing ACTIVE account and a DEPOSIT or WITHDRAWAL type; a withdrawal fails on insufficient balance; past those, it fails exactly when the entry's id is already in the history; success posts one entry of that type under that id, keeping ids unique |
| Ledger.AdminTransactionAgreesWithCustomerPath | bmsp/src/main/java/com/bmsp/bmsp/service/transaction/TransactionServiceImpl.java:93-129 | on an ACTIVE account an admin's deposit and withdrawal give exactly the customer path's results |
| Kyc.SaveAndGetFileUrl | bmsp/src/main/java/com/bmsp/bmsp/service/kyc/KYCServiceImpl.java:94-108 | a null or empty file, and a missing name or one containing "..", are refused; any other file succeeds with the URL "/uploads/" + uuid + "_" + original name |
| Kyc.SaveOptionalFile | bmsp/src/main/java/com/bmsp/bmsp/service/kyc/KYCServiceImpl.java:81-83 | an absent or empty back image keeps the stored URL; a present one is saved like the required files |
| Kyc.SubmitKyc | bmsp/src/main/java/com/bmsp/bmsp/service/kyc/KYCServiceImpl.java:40-92 | missing front or selfie images fail first, then an APPROVED record refuses resubmission; after that the front, back and selfie uploads are stored in that order, the first failing one giving the error, and success follows when all pass; success reuses the user's record (or adds one), PENDING with the verdict cleared, the new documents and exactly the stored URLs, the back URL kept from the record when no back image is sent |
| Kyc.SubmitPreservesWellFormed | bmsp/src/main/java/com/bmsp/bmsp/service/kyc/KYCServiceImpl.java:61-86 | submission keeps one record per user with distinct ids |
| Kyc.UpdateKycStatus | bmsp/src/main/java/com/bmsp/bmsp/service/kyc/KYCServiceImpl.java:119-140 | an unknown id fails, and so does REJECTED with a null or blank reason; every other request succeeds, changing only that record, with the verifier set and the reason kept exactly when REJECTED |
| Kyc.UpdatePreservesWellFormed | bmsp/src/main/java/com/bmsp/bmsp/service/kyc/KYCServiceImpl.java:119-140 | a status update keeps one record per user with distinct ids |
| Kyc.SubmitRevokesApproval | bmsp/src/main/java/com/bmsp/bmsp/service/kyc/KYCServiceImpl.java:62-68 | after any successful submission the user is not KYC-approved |
| Kyc.ApproveGrantsApproval | bmsp/src/main/java/com/bmsp/bmsp/service/kyc/KYCServiceImpl.java:143-147 | approving the user's record makes isKYCApproved true for that user |
| Seqs.FindBy | bmsp/src/main/java/com/bmsp/bmsp/service/kyc/KYCServiceImpl.java:48 | a `findByX` lookup returns the first position whose key matches, and nothing exactly when no row's key matches |
| Kyc.FindByUser | bmsp/src/main/java/com/bmsp/bmsp/service/kyc/KYCServiceImpl.java:48 | `Seqs.FindBy` keyed by the record's user: the first position holding the user's record, and nothing exactly when the user has no record |
| Kyc.FindById | bmsp/src/main/java/com/bmsp/bmsp/service/kyc/KYCServiceImpl.java:120 | `Seqs.FindBy` keyed by the KYC id: the first position holding a record with that id, and nothing exactly when no record has it |
| Kyc.IsKycApproved | bmsp/src/main/java/com/bmsp/bmsp/service/kyc/KYCServiceImpl.java:143-147 | the user's record exists and is APPROVED |
| Kyc.ApprovedIffApprovedRecord | bmsp/src/main/java/com/bmsp/bmsp/service/kyc/KYCServiceImpl.java:143-147 | with one record per user, isKYCApproved holds exactly when some record of the user is APPROVED |
| Beneficiaries.AddBeneficiary | bmsp/src/main/java/com/bmsp/bmsp/service/account/BeneficiaryServiceImpl.java:24-41 | fails exactly when the user already has that account number and succeeds otherwise, appending one row with the request's fields under a fresh id |
| Beneficiaries.UserBeneficiaries | bmsp/src/main/java/com/bmsp/bmsp/service/account/BeneficiaryServiceImpl.java:44-48 | lists exactly the user's rows |
| Beneficiaries.FindByIdAndUser | bmsp/src/main/java/com/bmsp/bmsp/service/account/BeneficiaryServiceImpl.java:52 | the lookup returns a position whose row has both the id and the user, and nothing exactly when no row has both |
| Beneficiaries.GetBeneficiaryDetails | bmsp/src/main/java/com/bmsp/bmsp/service/account/BeneficiaryServiceImpl.java:51-55 | succeeds exactly when a row has both that id and that user, and returns such a row |
| Beneficiaries.DeleteBeneficiary | bmsp/src/main/java/com/bmsp/bmsp/service/account/BeneficiaryServiceImpl.java:59-63 | succeeds exactly when a row has both that id and that user, and removes that row only |
| Beneficiaries.AddThenListed | bmsp/src/main/java/com/bmsp/bmsp/service/account/BeneficiaryServiceImpl.java:30-47 | after an add the user's list holds the new row and ids stay distinct |
| Beneficiaries.AddTwice | bmsp/src/main/java/com/bmsp/bmsp/service/account/BeneficiaryServiceImpl.java:26-28 | the same user cannot add the number again, while another user still can |
| Beneficiaries.DeleteRemovesExactlyOne | bmsp/src/main/java/com/bmsp/bmsp/service/account/BeneficiaryServiceImpl.java:59-63 | a delete shrinks the table by one, the id can no longer be found, and every other row remains |
| Auth.FindByEmail | bmsp/src/main/java/com/bmsp/bmsp/service/impl/AuthServiceImpl.java:24 | `Seqs.FindBy` keyed by the e-mail address: the first position holding a user with that address, and nothing exactly when no user has it |
| Auth.SaveOtp | bmsp/src/main/java/com/bmsp/bmsp/service/impl/AuthServiceImpl.java:36-38 | the address maps to the new OTP and every other address keeps its own |
| Auth.VerifyEmail | bmsp/src/main/java/com/bmsp/bmsp/service/impl/AuthServiceImpl.java:21-33 | a missing or different OTP is refused with nothing changed; a match for an unknown user fails with the OTP kept; success verifies that user only and removes the OTP |
| Auth.OtpIsSingleUse | bmsp/src/main/java/com/bmsp/bmsp/service/impl/AuthServiceImpl.java:23-28 | after a successful verification, any second attempt is refused |
| Auth.SaveOtpOverwrites | bmsp/src/main/java/com/bmsp/bmsp/service/impl/AuthServiceImpl.java:36-38 | once a new OTP is saved, the one saved before it no longer verifies |
| Auth.VerifiedAfterSuccess | bmsp/src/main/java/com/bmsp/bmsp/service/impl/AuthServiceImpl.java:24-27 | after success, the user found under that address is verified |
| Admin.UpdateUserStatus | bmsp/src/main/java/com/bmsp/bmsp/service/admin/AdminServiceImpl.java:126-148 | fails exactly for an unknown user and succeeds for a known one; only that user changes, the suspension reason is set exactly for SUSPENDED, and one USER_STATUS_UPDATE entry naming the status, the reason and the user is appended to the audit log |
| Admin.AuditLogCountsUpdates | bmsp/src/main/java/com/bmsp/bmsp/service/admin/AdminServiceImpl.java:139-145 | two successful updates append two USER_STATUS_UPDATE entries |
| Admin.SuspendThenReinstate | bmsp/src/main/java/com/bmsp/bmsp/service/admin/AdminServiceImpl.java:130-135 | suspending stores the reason, and any later non-suspended status clears it |
| Admin.ParseAccountStatus | bmsp/src/main/java/com/bmsp/bmsp/service/admin/AdminServiceImpl.java:255-260 | a status parses exactly when its upper-case form is a constant's name, and it yields that constant |
| Admin.ParseIgnoresCase | bmsp/src/main/java/com/bmsp/bmsp/service/admin/AdminServiceImpl.java:257 | any capitalisation of a constant's name parses to that constant |
| Admin.BulkUpdateAccountStatus | bmsp/src/main/java/com/bmsp/bmsp/service/admin/AdminServiceImpl.java:250-283 | a null or invalid status fails before any change, and a valid one succeeds; exactly the listed existing accounts take the status, totalProcessed is the list size, successes count the found entries, and successes plus failures equal the total |
| Admin.GetTransactionAnalytics | bmsp/src/main/java/com/bmsp/bmsp/service/admin/AdminServiceImpl.java:203-229 | the average is 0 for no transactions, otherwise total/count rounded HALF_UP to two decimals (ties away from zero); a missing sum counts as 0; the peak hour defaults to 12 |
| Admin.AverageOfEqualAmounts | bmsp/src/main/java/com/bmsp/bmsp/service/admin/AdminServiceImpl.java:213-214 | n transactions of one two-decimal amount average to that amount |
| Admin.FindUser | bmsp/src/main/java/com/bmsp/bmsp/service/admin/AdminServiceImpl.java:127 | `Seqs.FindBy` keyed by the user id: the first position holding that user, and nothing exactly when no user has the id |
| Admin.CountActive | bmsp/src/main/java/com/bmsp/bmsp/service/admin/AdminServiceImpl.java:316-317 | the ACTIVE users number at most all users, and all of them exactly when every user is ACTIVE |
| Admin.RecipientsCount | bmsp/src/main/java/com/bmsp/bmsp/service/admin/AdminServiceImpl.java:312-320 | "ALL" in any case counts every user, "ACTIVE" the ACTIVE users, and anything else (null included) 0 |
| Admin.ActiveAudienceWithinAll | bmsp/src/main/java/com/bmsp/bmsp/service/admin/AdminServiceImpl.java:314-317 | the ACTIVE audience is never larger than the ALL audience |
| Loans.NewLoan | bmsp/src/main/java/com/bmsp/bmsp/model/loan/Loan.java:55-67 | a new loan is PENDING with nothing paid or recovered and no dates, approval or account number yet |
| Loans.LoanAccountNumberAt | bmsp/src/main/java/com/bmsp/bmsp/model/loan/Loan.java:84 | a loan account number is "LN" followed by the decimal digits of the millisecond clock reading |
| Loans.LoanAccountNumbersDistinct | bmsp/src/main/java/com/bmsp/bmsp/model/loan/Loan.java:84 | numbers issued at different milliseconds are different |
| Loans.GenerateLoanAccountNumber | bmsp/src/main/java/com/bmsp/bmsp/model/loan/Loan.java:81-86 | afterwards a number is always set, and an existing one is never overwritten |
| Loans.Approve | bmsp/src/main/java/com/bmsp/bmsp/model/loan/Loan.java:89-101 | fails exactly for a non-PENDING loan; otherwise the loan ends DISBURSED with start date d, end date d plus the tenure, the approver and time recorded, and nothing else changed |
| Loans.Reject | bmsp/src/main/java/com/bmsp/bmsp/model/loan/Loan.java:103-111 | fails exactly for a non-PENDING loan; otherwise the loan becomes REJECTED with the reason and approver recorded and nothing else changed |
| Loans.DecisionsAreFinal | bmsp/src/main/java/com/bmsp/bmsp/model/loan/Loan.java:89-111 | once approved or rejected, a loan can be neither approved nor rejected again |
| Loans.IsActive | bmsp/src/main/java/com/bmsp/bmsp/service/loan/LoanServiceImpl.java:193-198 | a loan blocks a new application while PENDING, APPROVED or DISBURSED |
| LoanCalc.InterestRate | bmsp/src/main/java/com/bmsp/bmsp/service/loan/LoanServiceImpl.java:236-245 | every loan type, including the default branch, gets a rate between 7.5 and 12.0 percent |
| LoanCalc.MonthlyRate | bmsp/src/main/java/com/bmsp/bmsp/service/loan/LoanServiceImpl.java:248 | the monthly rate is rate/1200 rounded HALF_UP to ten decimals, a tie going away from zero |
| LoanCalc.MonthlyRateOfTablePositive | bmsp/src/main/java/com/bmsp/bmsp/service/loan/LoanServiceImpl.java:236-248 | every table rate gives a positive monthly rate |
| LoanCalc.CalculateEMI | bmsp/src/main/java/com/bmsp/bmsp/service/loan/LoanServiceImpl.java:247-254 | a tenure outside `pow`'s range 0..999999999, a tenure whose factor scale 10·n overflows an int (from 214748365 months), and a zero denominator are errors, and every other input succeeds; the EMI is the exact annuity P·r·(1+r)^n/((1+r)^n−1) rounded HALF_UP to two decimals, a tie going away from zero |
| LoanCalc.CalculateEMIDefined | bmsp/src/main/java/com/bmsp/bmsp/service/loan/LoanServiceImpl.java:247-254 | for a table rate and any positive tenure that passes `pow`'s range and scale checks, the EMI exists |
| LoanCalc.ScaleLimitExample | bmsp/src/main/java/com/bmsp/bmsp/service/loan/LoanServiceImpl.java:249 | a tenure of 214748365 or 300000000 months fails on the factor's scale whatever the rate and principal, while 214748364 passes the scale check |
| LoanCalc.TotalPayable | bmsp/src/main/java/com/bmsp/bmsp/service/loan/LoanServiceImpl.java:214 | the total payable is the EMI times the tenure, without rounding |
| LoanCalc.ExactBalanceClosedForm | bmsp/src/main/java/com/bmsp/bmsp/service/loan/LoanServiceImpl.java:249-253 | after k months of paying a, r·balance = r·P·(1+r)^k − a·((1+r)^k − 1) |
| LoanCalc.AnnuityRepaysPrincipal | bmsp/src/main/java/com/bmsp/bmsp/service/loan/LoanServiceImpl.java:247-254 | paying the exact annuity every month leaves a zero balance after n months |
| LoanCalc.PersonalLoanExample | bmsp/src/main/java/com/bmsp/bmsp/service/loan/LoanServiceImpl.java:211-254 | 120000 as a personal loan over 12 months gives monthly rate 0.01, EMI 10661.85 and total 127942.20 |
| EmiRecords.RecordsOf | bmsp/src/main/java/com/bmsp/bmsp/service/loan/EMIServiceImpl.java:130 | the per-installment query returns exactly the rows of that loan and installment |
| EmiRecords.RecordsOfLoan | bmsp/src/main/java/com/bmsp/bmsp/service/loan/EMIServiceImpl.java:41 | the per-loan query returns exactly the loan's rows |
| EmiRecords.CountWithStatus | bmsp/src/main/java/com/bmsp/bmsp/service/loan/EMIServiceImpl.java:193 | the count is zero exactly when no row of the loan has that status |
| EmiRecords.KeepFirst | bmsp/src/main/java/com/bmsp/bmsp/service/loan/EMIServiceImpl.java:231-248 | the cleanup pass only deletes rows |
| EmiRecords.KeepFirstInScope | bmsp/src/main/java/com/bmsp/bmsp/service/loan/EMIServiceImpl.java:241-246 | for each installment in range, only the first row in table order survives |
| EmiRecords.KeepFirstOutsideScope | bmsp/src/main/java/com/bmsp/bmsp/service/loan/EMIServiceImpl.java:231-234 | rows of other loans, and installment numbers outside 1..tenure, are untouched |
| EmiRecords.KeepFirstIdempotent | bmsp/src/main/java/com/bmsp/bmsp/service/loan/EMIServiceImpl.java:227-249 | a second cleanup deletes nothing more |
| EmiRecords.CleanupDuplicates | bmsp/src/main/java/com/bmsp/bmsp/service/loan/EMIServiceImpl.java:227-249 | each installment 1..tenure of the loan keeps its first row only; everything else and the id counter are unchanged |
| EmiRecords.CleanupInstallment | bmsp/src/main/java/com/bmsp/bmsp/service/loan/EMIServiceImpl.java:253-267 | the installment keeps its first row only, and every other loan and installment is unchanged |
| EmiRecords.CleanupEachLeavesOne | bmsp/src/main/java/com/bmsp/bmsp/service/loan/LoanServiceImpl.java:109-116 | cleaning each listed installment in turn leaves at most one row for each and touches nothing else |
| EmiRecords.NoDuplicatesAfterRecheck | bmsp/src/main/java/com/bmsp/bmsp/service/loan/LoanServiceImpl.java:101-117 | after approval re-checks the loan's existing rows, no installment has two rows |
| EmiSchedule.MonthSplit | bmsp/src/main/java/com/bmsp/bmsp/service/loan/EMIServiceImpl.java:56-65 | interest is balance·rate rounded HALF_UP to the cent (ties away from zero), interest plus principal equals the EMI, and the new balance is the old minus the principal, or 0 when that would be negative |
| EmiSchedule.SplitsAreSteps | bmsp/src/main/java/com/bmsp/bmsp/service/loan/EMIServiceImpl.java:53-65 | every month of the schedule is one step from the balance the previous month left |
| EmiSchedule.PrincipalIsAccountedFor | bmsp/src/main/java/com/bmsp/bmsp/service/loan/EMIServiceImpl.java:59-65 | the principal parts plus the final balance cover the loan amount, and equal it when every month leaves a positive balance |
| EmiSchedule.ScheduleFor | bmsp/src/main/java/com/bmsp/bmsp/service/loan/EMIServiceImpl.java:47-78 | a schedule has tenure rows; row k is installment k+1, due k+1 months after the base date, for the EMI amount, PENDING and unpaid, carrying month k's split |
| EmiSchedule.ScheduleAddsUpToTotalPayable | bmsp/src/main/java/com/bmsp/bmsp/service/loan/LoanServiceImpl.java:214 | the schedule's amounts add up to the total payable stored on the loan |
| EmiSchedule.LastDueDateIsEndDate | bmsp/src/main/java/com/bmsp/bmsp/model/loan/Loan.java:94-95 | once approved, the last installment falls due on the loan's end date |
| EmiSchedule.DueDatesIncrease | bmsp/src/main/java/com/bmsp/bmsp/service/loan/EMIServiceImpl.java:53-54 | later installments fall due strictly later |
| EmiSchedule.GenerateAndSave | bmsp/src/main/java/com/bmsp/bmsp/service/loan/EMIServiceImpl.java:36-107 | after the cleanup, a loan that has rows is left alone; otherwise its schedule, based on the start date or today, is appended with fresh ids |
| EmiSchedule.GenerateAndSaveIdempotent | bmsp/src/main/java/com/bmsp/bmsp/service/loan/EMIServiceImpl.java:41-45 | generating twice stores the schedule once |
| EmiSchedule.PersonalLoanScheduleExample | bmsp/src/main/java/com/bmsp/bmsp/service/loan/EMIServiceImpl.java:53-78 | the worked example's first month is 1200.00 interest and 9461.85 principal, and 0.06 is still owed after the twelfth |
| EmiService.PaymentTarget | bmsp/src/main/java/com/bmsp/bmsp/service/loan/EMIServiceImpl.java:115-171 | the guards fire in order (missing loan, foreign loan, not DISBURSED, no row, already PAID, no linked account, insufficient balance), and a pass targets the installment's first row |
| EmiService.Settle | bmsp/src/main/java/com/bmsp/bmsp/service/loan/EMIServiceImpl.java:183-199 | the row becomes PAID today; paid and recovered amounts grow by its amount and principal; the loan is CLOSED exactly when no PENDING row is left, otherwise it stays DISBURSED |
| EmiService.MarkPaid | bmsp/src/main/java/com/bmsp/bmsp/service/loan/EMIServiceImpl.java:184-186 | the row with the paid row's id becomes PAID on today's date and every other row is unchanged |
| EmiService.PaymentDescription | bmsp/src/main/java/com/bmsp/bmsp/service/loan/EMIServiceImpl.java:178-179 | the withdrawal text names the loan account number and the installment number (a definition used by EmiService.PayEmi) |
| EmiService.PayEmi | bmsp/src/main/java/com/bmsp/bmsp/service/loan/EMIServiceImpl.java:111-207 | a failing guard or withdrawal leaves everything unchanged; otherwise the linked account is debited and the payment settled |
| EmiService.PayEmiSucceedsExactly | bmsp/src/main/java/com/bmsp/bmsp/service/loan/EMIServiceImpl.java:115-181 | payEMI succeeds exactly when the caller owns the DISBURSED loan, the installment has an unpaid row, the loan has a linked account the caller may debit that covers the amount, and the clock's transaction id is not yet in the history |
| EmiService.PaymentDebitsLinkedAccount | bmsp/src/main/java/com/bmsp/bmsp/service/loan/EMIServiceImpl.java:173-181 | the linked account alone drops by the installment amount, with one WITHDRAWAL entry under the clock's transaction id |
| EmiService.PaidAmountMatchesDebit | bmsp/src/main/java/com/bmsp/bmsp/service/loan/EMIServiceImpl.java:189 | the loan's paid amount rises by exactly what left the linked account |
| EmiService.SecondPaymentRefused | bmsp/src/main/java/com/bmsp/bmsp/service/loan/EMIServiceImpl.java:150-152 | paying the same installment again is refused, as already paid or (once the loan closed) not disbursed |
| EmiService.PaymentTouchesOnlyThatInstallment | bmsp/src/main/java/com/bmsp/bmsp/service/loan/EMIServiceImpl.java:184-186 | no other installment's rows change |
| EmiService.SortByInstallment | bmsp/src/main/java/com/bmsp/bmsp/service/loan/EMIServiceImpl.java:218 | the result is ordered by installment number and is a permutation of the input |
| EmiService.SortKeepsSorted | bmsp/src/main/java/com/bmsp/bmsp/service/loan/EMIServiceImpl.java:218 | an already ordered list comes back unchanged |
| EmiService.GetEmiSchedule | bmsp/src/main/java/com/bmsp/bmsp/service/loan/EMIServiceImpl.java:210-223 | a missing loan and a foreign loan are refused, and the borrower always succeeds; the answer is the loan's rows, ordered by installment |
| LoanService.ValidateLoanRequest | bmsp/src/main/java/com/bmsp/bmsp/service/loan/LoanServiceImpl.java:175-191 | checks run in order (null request, amount null or ≤ 0, tenure null or ≤ 0, account number null or blank, type null), a request passing all of them succeeds, and a pass yields the request's fields |
| LoanService.CalculateLoanDetails | bmsp/src/main/java/com/bmsp/bmsp/service/loan/LoanServiceImpl.java:211-217 | the rate comes from the table, the EMI is the rounded annuity, and the total payable is the EMI times the tenure with no further rounding |
| LoanService.ApplicationFigures | bmsp/src/main/java/com/bmsp/bmsp/service/loan/LoanServiceImpl.java:40-47 | application checks run in order: validation, then any active loan, then account ownership, then KYC, then the EMI computation |
| LoanService.ApplyForLoan | bmsp/src/main/java/com/bmsp/bmsp/service/loan/LoanServiceImpl.java:40-55 | any failure saves nothing; figures that pass every check with a free loan account number succeed; success adds one PENDING loan with the request's figures, no dates, and nothing paid |
| LoanService.GetLoanDetails | bmsp/src/main/java/com/bmsp/bmsp/service/loan/LoanServiceImpl.java:58-67 | a missing loan fails, a foreign loan is refused, and the borrower always gets the stored loan |
| LoanService.ApprovalRows | bmsp/src/main/java/com/bmsp/bmsp/service/loan/LoanServiceImpl.java:92-117 | approval first removes duplicate rows; a loan left without rows gets its schedule generated, and one with rows has each of its installments cleaned once more |
| LoanService.ApproveLoan | bmsp/src/main/java/com/bmsp/bmsp/service/loan/LoanServiceImpl.java:84-121 | a missing or non-PENDING loan fails and a PENDING one succeeds; success replaces that loan alone by Loan.approve's result (disbursed, starting today, approved by the admin's e-mail, every other field kept) and lays down or re-checks its rows |
| LoanService.RejectLoan | bmsp/src/main/java/com/bmsp/bmsp/service/loan/LoanServiceImpl.java:125-136 | a missing or non-PENDING loan fails and a PENDING one succeeds; success replaces that loan alone by Loan.reject's result, with the reason and admin recorded and every other field kept |
| LoanService.PayEmi | bmsp/src/main/java/com/bmsp/bmsp/service/loan/LoanServiceImpl.java:139-148 | the service's own ownership check adds nothing: the outcome is the EMI service's |
| LoanService.GetEmiSchedule | bmsp/src/main/java/com/bmsp/bmsp/service/loan/LoanServiceImpl.java:164-173 | the service's own ownership check adds nothing: the outcome is the EMI service's |
| LoanService.ApplyPreservesWellFormed | bmsp/src/main/java/com/bmsp/bmsp/service/loan/LoanServiceImpl.java:219-234 | an application stores the loan under an unused id and keeps the loans table well formed |
| LoanService.ApplyKeepsOneActiveLoan | bmsp/src/main/java/com/bmsp/bmsp/service/loan/LoanServiceImpl.java:193-198 | applications keep every user at one PENDING, APPROVED or DISBURSED loan at most |
| LoanService.SecondApplicationRefused | bmsp/src/main/java/com/bmsp/bmsp/service/loan/LoanServiceImpl.java:193-198 | after a successful application, the same user's next valid application is refused |
| LoanService.DecisionsKeepOneActiveLoan | bmsp/src/main/java/com/bmsp/bmsp/service/loan/LoanServiceImpl.java:84-136 | approving and rejecting keep every user at one active loan at most |
| LoanService.PaymentKeepsOneActiveLoan | bmsp/src/main/java/com/bmsp/bmsp/service/loan/EMIServiceImpl.java:193-197 | a payment keeps every user at one active loan at most |
| LoanService.ApprovalLeavesNoDuplicates | bmsp/src/main/java/com/bmsp/bmsp/service/loan/LoanServiceImpl.java:92-117 | after approval no installment of the loan has two rows |
| LoanService.GenerationLaysDownSchedule | bmsp/src/main/java/com/bmsp/bmsp/service/loan/LoanServiceImpl.java:99-104 | for a loan with no rows, generation appends exactly its schedule |
| LoanService.ApprovedScheduleIsListed | bmsp/src/main/java/com/bmsp/bmsp/service/loan/LoanServiceImpl.java:99-104 | the borrower of a freshly approved loan is shown exactly its generated schedule, installments 1..tenure in order |
| LoanService.OnlyTheBorrower | bmsp/src/main/java/com/bmsp/bmsp/service/loan/LoanServiceImpl.java:58-173 | a requester who is not the borrower is refused by getLoanDetails, payEMI and getEMISchedule |

## Left out

- HTTP, controllers, response mapping (`mapTo…Response`), logging and the React client are not modelled.
- The random draw, UUID file prefixes, reference numbers, `currentTimeMillis` and the clock are inputs.
  The draw-until-unused loop is given the sequence of draws. The model requires one of them to give a
  free number; the Java loop would keep drawing.
- Concurrency and transaction isolation are not modelled: each service call is atomic.
  So is payEMI's window between the debit and the save.
- Writing KYC files and creating the upload directory are I/O, and are left out. Only the URL is kept.
- Bean-validation annotations on the request types and on entity columns are left out. Column precision and
  scale are too: amounts are stored exactly as computed.
- The `(int)` casts of 64-bit counts in the admin rules are left out, because user tables smaller than 2^31
  make them exact.
- Case mapping covers ASCII only. Java's full Unicode `toUpperCase` is not modelled.
- AccountNumber.NumericValue: covers ASCII only. For other characters Java also returns the values of
  non-ASCII decimal digits, Roman numerals (50 for U+216C) and -2 for fractions such as '½'; here every
  non-ASCII character gives -1.
- A null installment number in payEMI is left out. The installment is an `int`.
- `findByLoanOrderByInstallmentNumber` is modelled as a stable insertion sort. The database's order among
  rows with the same installment number is unspecified.
- A loan whose linked account does not exist in the ledger is treated as having no linked account.
- LATE is left out: payEMI sets it on an overdue row and then overwrites it with PAID in the same transaction,
  so it is never stored.
- payEMI re-throws any failure in the debit block as `LoanException`. The model reports that as
  `PaymentFailed` carrying the ledger's error.
- Read-only listings with no logic beyond a query are left out:
  - `getUserLoans`, `getPendingLoans` and their paged forms;
  - `getUserAccounts` and `getAccountDetails`;
  - the transaction history queries;
  - `getKYCStatus`, `getKYCById`, `getAllKYCSubmissions` and `getKYCSubmissionsByStatus`;
  - the admin dashboards, listings and audit-log pages.
- `hasApprovedKYC` throws `UnsupportedOperationException` and is not modelled.
- The repository's aggregate queries (`countByTransactionDateBetween`, `sumAmountBy…`, `getPeakTransactionHour`)
  are inputs of `Admin.GetTransactionAnalytics`.
- The milliseconds that name each transaction are an input of every insert; the clock itself is not modelled.
- LoanCalc.CalculateEMI: BigInteger's magnitude limit and the memory the power needs are not modelled. For
  every table rate the unscaled base `1.0xxxxxxxxx` has 34 bits, and the JDK refuses `pow` above about
  63 million months. The numerator's scale (the principal's written scale + 10 + 10·n) can also overflow,
  and the principal's written scale is not modelled. So the success clause promises an EMI for tenures
  between about 63 million and 214748364 months where the source throws.
- LoanService.ApplyForLoan: its success clause inherits the gap of LoanCalc.CalculateEMI. For a tenure
  between about 63 million and 214748364 months the model stores a PENDING loan, while the source's `pow`
  throws and `applyForLoan` fails with nothing saved. `LoanRequest` has no upper bound on the tenure.
- LoanCalc.InterestRate: the contract states the range 7.5–12.0. The exact per-type table is fixed by the
  definition and checked for the personal loan in `LoanCalc.PersonalLoanExample`.

=== FILE: account_number.dfy ===
/** Account numbers (util/AccountNumberGenerator.java): the branch code,
    ten zero-padded random digits and a Luhn-style check digit. The random
    draw is an input. */
module AccountNumber {
  import opened Text
  import opened Decimal

  /** Character.getNumericValue on ASCII: a digit's value, a letter's value
      in base 36 (either case), and -1 for anything else. */
  function NumericValue(c: char): (v: int)
    ensures -1 <= v <= 35
    ensures '0' <= c <= '9' <==> 0 <= v <= 9
    ensures ('a' <= c <= 'z' || 'A' <= c <= 'Z') <==> 10 <= v <= 35
  {
    if '0' <= c <= '9' then c as int - '0' as int
    else if 'a' <= c <= 'z' then c as int - 'a' as int + 10
    else if 'A' <= c <= 'Z' then c as int - 'A' as int + 10
    else -1
  }

  /** Java's `x % 10`: the remainder takes the sign of the dividend. */
  function JavaRem10(a: int): (r: int)
    ensures -10 < r < 10
    ensures (a - r) % 10 == 0
    ensures a >= 0 ==> r == a % 10
    ensures a < 0 ==> r <= 0
  {
    if a >= 0 then a % 10
    else
      var q := (-a) / 10;
      assert a + (-a) % 10 == -10 * q;
      -((-a) % 10)
  }

  /** One digit's contribution: a doubled digit above 9 becomes
      `digit % 10 + 1`, its digit sum for values up to 18. */
  function Term(c: char, doubled: bool): int {
    var d := NumericValue(c);
    if doubled then (if 2 * d > 9 then (2 * d) % 10 + 1 else 2 * d) else d
  }

  /** Whether position `j` of `s` is doubled: the rightmost is not, and
      the weighting alternates leftwards. */
  predicate Doubled(s: string, j: int) {
    (|s| - 1 - j) % 2 == 1
  }

  /** The weighted sum of positions `j..` of `s`. */
  function WeightedSumFrom(s: string, j: nat): int
    requires j <= |s|
    decreases |s| - j
  {
    if j == |s| then 0 else Term(s[j], Doubled(s, j)) + WeightedSumFrom(s, j + 1)
  }

  function WeightedSum(s: string): int {
    WeightedSumFrom(s, 0)
  }

  /** calculateCheckDigit as a reference definition. */
  function CheckDigit(s: string): (d: int)
    ensures 0 <= d <= 9
    ensures (WeightedSum(s) + d) % 10 == 0
  {
    JavaRem10(10 - JavaRem10(WeightedSum(s)))
  }

  /** calculateCheckDigit as written: a loop from the rightmost character
      with an alternating flag. */
  method CalculateCheckDigit(number: string) returns (d: int)
    ensures d == CheckDigit(number)
    ensures 0 <= d <= 9
  {
    var sum := 0;
    var alternate := false;
    var i := |number| - 1;
    while i >= 0
      invariant -1 <= i < |number|
      invariant alternate == Doubled(number, i)
      invariant sum == WeightedSumFrom(number, i + 1)
      decreases i
    {
      var digit := NumericValue(number[i]);
      if alternate {
        digit := digit * 2;
        if digit > 9 {
          digit := (digit % 10) + 1;
        }
      }
      sum := sum + digit;
      alternate := !alternate;
      i := i - 1;
    }
    d := JavaRem10(10 - JavaRem10(sum));
  }

  /** Term is one-to-one on decimal digits, doubled or not. */
  lemma TermInjectiveOnDigits(a: char, b: char, doubled: bool)
    requires '0' <= a <= '9' && '0' <= b <= '9' && a != b
    ensures Term(a, doubled) != Term(b, doubled)
    ensures -9 <= Term(a, doubled) - Term(b, doubled) <= 9
  {
  }

  /** Sums of strings that agree everywhere except at `p` differ by the
      two terms at `p`. */
  lemma {:induction false} WeightedSumFromDiffers(s: string, t: string, p: nat, j: nat)
    requires |s| == |t| && p < |s| && j <= p
    requires forall k :: 0 <= k < |s| && k != p ==> s[k] == t[k]
    ensures WeightedSumFrom(s, j) - WeightedSumFrom(t, j) == Term(s[p], Doubled(s, p)) - Term(t[p], Doubled(t, p))
    decreases p - j
  {
    if j < p {
      WeightedSumFromDiffers(s, t, p, j + 1);
    } else {
      WeightedSumFromAgree(s, t, p + 1);
    }
  }

  lemma {:induction false} WeightedSumFromAgree(s: string, t: string, j: nat)
    requires |s| == |t| && j <= |s|
    requires forall k :: j <= k < |s| ==> s[k] == t[k]
    ensures WeightedSumFrom(s, j) == WeightedSumFrom(t, j)
    decreases |s| - j
  {
    if j < |s| {
      WeightedSumFromAgree(s, t, j + 1);
    }
  }

  /** The check digit detects every single-digit substitution: two
      numbers of digits that differ in exactly one position get different
      check digits. */
  lemma SingleDigitErrorDetected(s: string, t: string, p: nat)
    requires |s| == |t| && p < |s| && s[p] != t[p]
    requires forall k :: 0 <= k < |s| ==> '0' <= s[k] <= '9' && '0' <= t[k] <= '9'
    requires forall k :: 0 <= k < |s| && k != p ==> s[k] == t[k]
    ensures CheckDigit(s) != CheckDigit(t)
  {
    WeightedSumFromDiffers(s, t, p, 0);
    TermInjectiveOnDigits(s[p], t[p], Doubled(s, p));
    assert Doubled(s, p) == Doubled(t, p);
    ShiftedSumMissesMultiple(WeightedSum(s), WeightedSum(t), CheckDigit(s));
  }

  /** Two sums that differ by one to nine cannot both be completed to a
      multiple of ten by the same digit. */
  lemma ShiftedSumMissesMultiple(a: int, b: int, d: int)
    requires a != b && -9 <= a - b <= 9
    requires (a + d) % 10 == 0
    ensures (b + d) % 10 != 0
  {
    var q := (a + d) / 10;
    assert a + d == 10 * q;
    if a > b {
      assert b + d == 10 * (q - 1) + (10 - (a - b));
    } else {
      assert b + d == 10 * q + (b - a);
    }
  }

  /** String.format("%010d", n): the last `width` decimal digits of `n`,
      zero-padded on the left. */
  function ZeroPad(n: nat, width: nat): (s: string)
    ensures |s| == width
    ensures forall i :: 0 <= i < |s| ==> '0' <= s[i] <= '9'
  {
    if width == 0 then [] else ZeroPad(n / 10, width - 1) + [DigitChar(n % 10)]
  }

  /** Padding loses nothing when the number fits the width. */
  lemma {:induction false} ZeroPadRoundTrip(n: nat, width: nat)
    requires n < Pow10(width)
    ensures DigitsValue(ZeroPad(n, width)) == n
  {
    if width > 0 {
      var s := ZeroPad(n, width);
      assert s[..|s| - 1] == ZeroPad(n / 10, width - 1);
      ZeroPadRoundTrip(n / 10, width - 1);
    }
  }

  /** A number below 10^(width-1) is written with a leading zero. */
  lemma {:induction false} ZeroPadLeadingZero(n: nat, width: nat)
    requires width >= 1 && n < Pow10(width - 1)
    ensures ZeroPad(n, width)[0] == '0'
  {
    if width == 1 {
      assert n == 0;
    } else {
      ZeroPadLeadingZero(n / 10, width - 1);
    }
  }

  /** nextInt(1_000_000_000): the exclusive bound of the random part. */
  const RandomBound: nat := 1_000_000_000

  /** generateAccountNumber for the random draw `draw`: the branch code,
      the draw zero-padded to ten digits, and the check digit of the two. */
  function GenerateAccountNumber(branchCode: string, draw: nat): (r: string)
    requires draw < RandomBound
    ensures |r| == |branchCode| + 11 && r[..|branchCode|] == branchCode
  {
    var base := branchCode + ZeroPad(draw, 10);
    base + [DigitChar(CheckDigit(base))]
  }

  /** The generated number is the branch code followed by eleven digits: a
      leading zero, the draw itself in the ten digits after the branch code,
      and last the check digit of everything before it. */
  lemma GeneratedNumberShape(branchCode: string, draw: nat)
    requires draw < RandomBound
    ensures var r := GenerateAccountNumber(branchCode, draw);
            && |r| == |branchCode| + 11
            && r[..|branchCode|] == branchCode
            && (forall i :: |branchCode| <= i < |r| ==> '0' <= r[i] <= '9')
            && r[|branchCode|] == '0'
            && DigitsValue(r[|branchCode|..|branchCode| + 10]) == draw
            && r[|r| - 1] == DigitChar(CheckDigit(r[..|r| - 1]))
  {
    ZeroPadRoundTrip(draw, 10);
    ZeroPadLeadingZero(draw, 10);
    var base := branchCode + ZeroPad(draw, 10);
    var r := GenerateAccountNumber(branchCode, draw);
    assert base[|branchCode|..] == ZeroPad(draw, 10);
    assert r[..|r| - 1] == base;
    assert r[|branchCode|..|branchCode| + 10] == ZeroPad(draw, 10);
  }

  /** Within one branch, different draws give different numbers, so the
      draw can be read back from the number. */
  lemma GenerateIsInjective(branchCode: string, d1: nat, d2: nat)
    requires d1 < RandomBound && d2 < RandomBound
    requires GenerateAccountNumber(branchCode, d1) == GenerateAccountNumber(branchCode, d2)
    ensures d1 == d2
  {
    GeneratedNumberShape(branchCode, d1);
    GeneratedNumberShape(branchCode, d2);
  }

  /** Luhn validity as usually checked: the weighted sum of the whole
      number, rightmost digit undoubled, is a multiple of ten. */
  predicate LuhnValid(s: string) {
    WeightedSum(s) % 10 == 0
  }

  /** The weighting is computed on the number before the check digit is
      appended, so in the finished number the parity is shifted by one: for
      the base "1" the check digit is 9, and "19" fails the usual Luhn check. */
  lemma ShiftedParityExample()
    ensures CheckDigit("1") == 9
    ensures !LuhnValid("19")
  {
    assert WeightedSumFrom("1", 1) == 0;
    assert WeightedSum("1") == 1;
    assert WeightedSumFrom("19", 2) == 0;
    assert WeightedSumFrom("19", 1) == 9;
    assert WeightedSum("19") == 11;
  }
}

=== FILE: account_service.dfy ===
/** AccountServiceImpl: opening an account for a user with approved KYC
    under a fresh account number, and closing an account that holds no
    money. */
module AccountService {
  import opened Wrappers
  import opened Dates
  import opened Users
  import opened Seqs
  import opened Ledger
  import opened AccountNumber
  import Kyc

  datatype AccountCreateRequest = AccountCreateRequest(
    accountType: string,
    initialDeposit: Option<real>,
    branchCode: string,
    branchName: string,
    ifscCode: Option<string>,
    minimumBalance: Option<real>,
    interestRate: Option<real>,
    allowOverdraft: Option<bool>,
    overdraftLimit: Option<real>)

  datatype AccountError = KycRequired | OwnAccountNotFound | HasBalance

  /** The number the draw `d` yields, if it is a possible draw and the
      number is still unused. */
  predicate FreeDraw(accounts: map<string, Account>, branchCode: string, d: nat) {
    d < RandomBound && GenerateAccountNumber(branchCode, d) !in accounts
  }

  /** Draws of the random generator, in order, of which at least one yields
      an unused number (the source keeps drawing until one does). */
  predicate EnoughDraws(accounts: map<string, Account>, branchCode: string, draws: seq<nat>) {
    && (forall i :: 0 <= i < |draws| ==> draws[i] < RandomBound)
    && exists i :: 0 <= i < |draws| && FreeDraw(accounts, branchCode, draws[i])
  }

  /** The account number the generate-until-unused loop settles on. */
  function FreshAccountNumber(accounts: map<string, Account>, branchCode: string, draws: seq<nat>): (n: string)
    requires EnoughDraws(accounts, branchCode, draws)
    ensures n !in accounts
    ensures exists i :: 0 <= i < |draws| && n == GenerateAccountNumber(branchCode, draws[i])
  {
    var i := FirstIndex(draws, (d: nat) => FreeDraw(accounts, branchCode, d));
    GenerateAccountNumber(branchCode, draws[i.value])
  }

  /** The loop of createAccount: draw, and draw again while the number is
      taken. Returns the number and how many draws it used. */
  method ChooseAccountNumber(accounts: map<string, Account>, branchCode: string, draws: seq<nat>)
    returns (n: string, used: nat)
    requires EnoughDraws(accounts, branchCode, draws)
    ensures 1 <= used <= |draws|
    ensures FreeDraw(accounts, branchCode, draws[used - 1]) && n == GenerateAccountNumber(branchCode, draws[used - 1])
    ensures forall k :: 0 <= k < used - 1 ==> !FreeDraw(accounts, branchCode, draws[k])
    ensures n == FreshAccountNumber(accounts, branchCode, draws)
  {
    ghost var j :| 0 <= j < |draws| && FreeDraw(accounts, branchCode, draws[j]);
    var i := 0;
    while !FreeDraw(accounts, branchCode, draws[i])
      invariant 0 <= i <= j
      invariant forall k :: 0 <= k < i ==> !FreeDraw(accounts, branchCode, draws[k])
      decreases j - i
    {
      i := i + 1;
    }
    n := GenerateAccountNumber(branchCode, draws[i]);
    used := i + 1;
    FirstFreeDrawChosen(accounts, branchCode, draws, i);
  }

  /** The first draw yielding an unused number is the one the fresh number
      comes from. */
  lemma FirstFreeDrawChosen(accounts: map<string, Account>, branchCode: string, draws: seq<nat>, i: nat)
    requires EnoughDraws(accounts, branchCode, draws)
    requires i < |draws| && FreeDraw(accounts, branchCode, draws[i])
    requires forall k :: 0 <= k < i ==> !FreeDraw(accounts, branchCode, draws[k])
    ensures FreshAccountNumber(accounts, branchCode, draws) == GenerateAccountNumber(branchCode, draws[i])
  {
    var f := FirstIndex(draws, (d: nat) => FreeDraw(accounts, branchCode, d));
    assert f.value == i;
  }

  /** createAccount: refused without approved KYC; otherwise an ACTIVE
      account under a fresh number, with the initial deposit (zero when
      absent) as its balance and overdraft off unless asked for. No
      transaction is recorded for the initial deposit. */
  function CreateAccount(l: Ledger, kyc: Kyc.KycStore, user: User, request: AccountCreateRequest,
                         draws: seq<nat>, now: Instant): (r: Result<Ledger, AccountError>)
    requires EnoughDraws(l.accounts, request.branchCode, draws)
    ensures !Kyc.IsKycApproved(kyc, user.id) <==> r == Err(KycRequired)
    ensures Kyc.IsKycApproved(kyc, user.id) ==> r.Ok?
    ensures r.Ok? ==>
              var n := FreshAccountNumber(l.accounts, request.branchCode, draws);
              && n !in l.accounts
              && r.value.transactions == l.transactions
              && r.value.accounts.Keys == l.accounts.Keys + {n}
              && (forall m :: m in l.accounts ==> r.value.accounts[m] == l.accounts[m])
              && var a := r.value.accounts[n];
                 && a.accountNumber == n && a.owner == user.id && a.status == AccountStatus.ACTIVE
                 && a.balance == (if request.initialDeposit.Some? then request.initialDeposit.value else 0.0)
                 && a.allowOverdraft == (request.allowOverdraft == Some(true))
                 && a.branchCode == request.branchCode && a.accountType == request.accountType
                 && a.createdAt == now && a.updatedAt == None
                 && a.branchName == request.branchName && a.ifscCode == request.ifscCode
                 && a.minimumBalance == request.minimumBalance && a.interestRate == request.interestRate
                 && a.overdraftLimit == request.overdraftLimit
  {
    if !Kyc.IsKycApproved(kyc, user.id) then Err(KycRequired)
    else
      var n := FreshAccountNumber(l.accounts, request.branchCode, draws);
      var a := Account(n, request.accountType, AccountStatus.ACTIVE, request.initialDeposit.GetOr(0.0), now, None,
                       user.id, request.branchCode, request.branchName, request.ifscCode, request.minimumBalance,
                       request.interestRate, request.allowOverdraft.GetOr(false), request.overdraftLimit);
      Ok(l.(accounts := l.accounts[n := a]))
  }

  /** deleteAccount: only the owner's account, and only when its balance is
      not positive; the account is kept, marked CLOSED. */
  function DeleteAccount(l: Ledger, accountNumber: string, user: User, now: Instant): (r: Result<Ledger, AccountError>)
    ensures (accountNumber !in l.accounts || l.accounts[accountNumber].owner != user.id) <==> r == Err(OwnAccountNotFound)
    ensures accountNumber in l.accounts && l.accounts[accountNumber].owner == user.id ==>
              (r == Err(HasBalance) <==> l.accounts[accountNumber].balance > 0.0)
    ensures (accountNumber in l.accounts && l.accounts[accountNumber].owner == user.id
             && l.accounts[accountNumber].balance <= 0.0) ==> r.Ok?
    ensures r.Ok? ==>
              && r.value.transactions == l.transactions
              && r.value.accounts == l.accounts[accountNumber := l.accounts[accountNumber].(status := CLOSED, updatedAt := Some(now))]
  {
    if accountNumber !in l.accounts || l.accounts[accountNumber].owner != user.id then Err(OwnAccountNotFound)
    else
      var a := l.accounts[accountNumber];
      if a.balance > 0.0 then Err(HasBalance)
      else Ok(l.(accounts := l.accounts[accountNumber := a.(status := CLOSED, updatedAt := Some(now))]))
  }

  /** The new account is immediately usable by its owner. */
  lemma CreatedAccountIsAccessible(l: Ledger, kyc: Kyc.KycStore, user: User, request: AccountCreateRequest,
                                   draws: seq<nat>, now: Instant)
    requires EnoughDraws(l.accounts, request.branchCode, draws)
    requires CreateAccount(l, kyc, user, request, draws, now).Ok?
    ensures var n := FreshAccountNumber(l.accounts, request.branchCode, draws);
            ValidateAccountAccess(CreateAccount(l, kyc, user, request, draws, now).value, n, user).Ok?
  {
  }

  /** A closed account no longer accepts customer operations; only an
      admin still reaches it. */
  lemma ClosedAccountRefusesCustomers(l: Ledger, accountNumber: string, user: User, now: Instant)
    requires DeleteAccount(l, accountNumber, user, now).Ok?
    ensures !IsAdmin(user) ==>
              ValidateAccountAccess(DeleteAccount(l, accountNumber, user, now).value, accountNumber, user)
              == Err(AccountNotActive)
  {
  }
}

=== FILE: admin.dfy ===
/** The rules of AdminServiceImpl that change or compute something: a
    user's status with its audit trail, the bulk account-status update,
    the average of the transaction analytics, and the recipients of a
    broadcast. The repository's aggregate queries are inputs. */
module Admin {
  import opened Wrappers
  import opened Dates
  import opened Text
  import opened Decimal
  import opened Users
  import opened Seqs
  import Ledger

  datatype AuditLog = AuditLog(action: string, details: string, targetId: string, timestamp: Instant)

  datatype AdminError =
    | UserNotFound
    | StatusMissing                          // toUpperCase on a null status: a NullPointerException
    | InvalidAccountStatus(status: string)   // valueOf refused the name

  const UserStatusUpdateAction: string := "USER_STATUS_UPDATE"

  /** The enum constant's name, as string concatenation prints it. */
  function UserStatusName(s: UserStatus): string {
    match s
    case ACTIVE => "ACTIVE"
    case INACTIVE => "INACTIVE"
    case SUSPENDED => "SUSPENDED"
    case PENDING_VERIFICATION => "PENDING_VERIFICATION"
  }

  /** findById on the users table. */
  function FindUser(users: seq<User>, id: UserId): Option<nat> {
    FindBy(users, (u: User) => u.id, id)
  }

  /** updateUserStatus: the new status, a suspension reason only for
      SUSPENDED (cleared for any other status), and one audit entry naming
      the status, the reason and the user. */
  function UpdateUserStatus(users: seq<User>, logs: seq<AuditLog>, userId: UserId, status: UserStatus,
                            reason: Option<string>, now: Instant): (r: Result<(seq<User>, seq<AuditLog>), AdminError>)
    ensures FindUser(users, userId).None? <==> r == Err(UserNotFound)
    ensures FindUser(users, userId).Some? ==> r.Ok?
    ensures r.Ok? ==>
              var i := FindUser(users, userId).value;
              var (users', logs') := r.value;
              && |users'| == |users|
              && users'[i].status == status
              && (users'[i].suspensionReason == if status == SUSPENDED then reason else None)
              && users'[i] == users[i].(status := status, suspensionReason := users'[i].suspensionReason)
              && (forall k :: 0 <= k < |users| && k != i ==> users'[k] == users[k])
              && |logs'| == |logs| + 1 && logs'[..|logs|] == logs
              && logs'[|logs|].action == UserStatusUpdateAction
              && logs'[|logs|].targetId == NatToString(userId)
              && logs'[|logs|].timestamp == now
              && logs'[|logs|].details
                 == "Updated user status to: " + UserStatusName(status) + ". Reason: " + Printed(reason)
  {
    var i := FindUser(users, userId);
    if i.None? then Err(UserNotFound)
    else
      var u := users[i.value];
      var u' := u.(status := status, suspensionReason := if status == SUSPENDED then reason else None);
      var entry := AuditLog(UserStatusUpdateAction,
                            "Updated user status to: " + UserStatusName(status) + ". Reason: " + Printed(reason),
                            NatToString(userId), now);
      Ok((users[i.value := u'], logs + [entry]))
  }

  /** Every successful status update adds exactly one audit entry, so the
      log grows by the number of updates made. */
  lemma AuditLogCountsUpdates(users: seq<User>, logs: seq<AuditLog>, id1: UserId, id2: UserId,
                              s1: UserStatus, s2: UserStatus, reason: Option<string>, now: Instant)
    requires UpdateUserStatus(users, logs, id1, s1, reason, now).Ok?
    ensures var (u1, l1) := UpdateUserStatus(users, logs, id1, s1, reason, now).value;
            var second := UpdateUserStatus(u1, l1, id2, s2, reason, now);
            second.Ok? ==> |second.value.1| == |logs| + 2
                           && second.value.1[|logs|].action == second.value.1[|logs| + 1].action == UserStatusUpdateAction
  {
    var (u1, l1) := UpdateUserStatus(users, logs, id1, s1, reason, now).value;
    var second := UpdateUserStatus(u1, l1, id2, s2, reason, now);
    if second.Ok? {
      assert second.value.1[..|l1|] == l1;
      assert second.value.1[|logs|] == l1[|logs|];
    }
  }

  /** A suspended user carries the reason; reinstating clears it. */
  lemma SuspendThenReinstate(users: seq<User>, logs: seq<AuditLog>, userId: UserId, reason: Option<string>,
                             status: UserStatus, now: Instant)
    requires FindUser(users, userId).Some?
    requires status != SUSPENDED
    ensures var (u1, l1) := UpdateUserStatus(users, logs, userId, SUSPENDED, reason, now).value;
            var i := FindUser(users, userId).value;
            u1[i].suspensionReason == reason
            && UpdateUserStatus(u1, l1, userId, status, reason, now).Ok?
            && UpdateUserStatus(u1, l1, userId, status, reason, now).value.0[FindUser(u1, userId).value].suspensionReason == None
  {
    var (u1, l1) := UpdateUserStatus(users, logs, userId, SUSPENDED, reason, now).value;
    var i := FindUser(users, userId).value;
    assert u1[i].id == userId;
  }

  /** AccountStatus.valueOf(status.toUpperCase()): a null or unknown name is
      refused. */
  function ParseAccountStatus(status: Option<string>): (r: Option<Ledger.AccountStatus>)
    ensures r.Some? ==> status.Some? && ToUpper(status.value) == AccountStatusName(r.value)
    ensures status.Some? && (exists s: Ledger.AccountStatus :: ToUpper(status.value) == AccountStatusName(s)) ==> r.Some?
  {
    if status.None? then None
    else
      var u := ToUpper(status.value);
      if u == "ACTIVE" then Some(Ledger.ACTIVE)
      else if u == "INACTIVE" then Some(Ledger.INACTIVE)
      else if u == "DORMANT" then Some(Ledger.DORMANT)
      else if u == "FROZEN" then Some(Ledger.FROZEN)
      else if u == "CLOSED" then Some(Ledger.CLOSED)
      else None
  }

  function AccountStatusName(s: Ledger.AccountStatus): string {
    match s
    case ACTIVE => "ACTIVE"
    case INACTIVE => "INACTIVE"
    case DORMANT => "DORMANT"
    case FROZEN => "FROZEN"
    case CLOSED => "CLOSED"
  }

  /** Parsing ignores case: any capitalisation of a constant's name yields it. */
  lemma ParseIgnoresCase(name: string, s: Ledger.AccountStatus)
    requires EqualsIgnoreCase(name, AccountStatusName(s))
    ensures ParseAccountStatus(Some(name)) == Some(s)
  {
    EqualsIgnoreCaseIsUpperEquality(name, AccountStatusName(s));
    NameIsUpperCase(s);
  }

  /** The constants' names are written in capitals. */
  lemma NameIsUpperCase(s: Ledger.AccountStatus)
    ensures ToUpper(AccountStatusName(s)) == AccountStatusName(s)
  {
    match s
    case ACTIVE => ToUpperFixesUpper("ACTIVE");
    case INACTIVE => ToUpperFixesUpper("INACTIVE");
    case DORMANT => ToUpperFixesUpper("DORMANT");
    case FROZEN => ToUpperFixesUpper("FROZEN");
    case CLOSED => ToUpperFixesUpper("CLOSED");
  }

  datatype BulkOperationResponse = BulkOperationResponse(totalProcessed: nat, successCount: nat, failureCount: nat)

  /** How many entries of the list name an existing account (repeats count
      each time). */
  function CountPresent(numbers: seq<string>, accounts: map<string, Ledger.Account>): (c: nat)
    ensures c <= |numbers|
  {
    if numbers == [] then 0
    else CountPresent(numbers[..|numbers| - 1], accounts) + (if numbers[|numbers| - 1] in accounts then 1 else 0)
  }

  /** The accounts after the bulk update: every listed existing account has
      the new status, everything else is as it was. */
  function WithStatus(accounts: map<string, Ledger.Account>, numbers: seq<string>, status: Ledger.AccountStatus)
    : (r: map<string, Ledger.Account>)
    ensures r.Keys == accounts.Keys
    ensures forall k :: k in accounts ==> r[k] == if k in numbers then accounts[k].(status := status) else accounts[k]
  {
    map k | k in accounts :: if k in numbers then accounts[k].(status := status) else accounts[k]
  }

  /** One more entry of the list: the entry's account, if it exists, takes
      the status. */
  lemma WithStatusStep(accounts: map<string, Ledger.Account>, numbers: seq<string>, i: nat, status: Ledger.AccountStatus)
    requires i < |numbers|
    ensures var before := WithStatus(accounts, numbers[..i], status);
            var n := numbers[i];
            WithStatus(accounts, numbers[..i + 1], status)
            == (if n in before then before[n := before[n].(status := status)] else before)
  {
    var n := numbers[i];
    assert numbers[..i + 1] == numbers[..i] + [n];
    var before := WithStatus(accounts, numbers[..i], status);
    var after := WithStatus(accounts, numbers[..i + 1], status);
    var expected := if n in before then before[n := before[n].(status := status)] else before;
    forall k | k in accounts
      ensures after[k] == expected[k]
    {
      assert k in numbers[..i + 1] <==> k in numbers[..i] || k == n;
    }
    assert after.Keys == expected.Keys;
  }

  /** One more entry of the list counts once more if its account exists. */
  lemma CountPresentStep(accounts: map<string, Ledger.Account>, numbers: seq<string>, i: nat)
    requires i < |numbers|
    ensures CountPresent(numbers[..i + 1], accounts)
            == CountPresent(numbers[..i], accounts) + (if numbers[i] in accounts then 1 else 0)
  {
    assert numbers[..i + 1][..i] == numbers[..i];
  }

  /** bulkUpdateAccountStatus: the status is parsed first, so a null or
      invalid one changes nothing; then each listed account that exists gets
      the status and counts as a success, and each missing one as a failure. */
  method BulkUpdateAccountStatus(accounts: map<string, Ledger.Account>, numbers: seq<string>, status: Option<string>)
    returns (r: Result<(map<string, Ledger.Account>, BulkOperationResponse), AdminError>)
    ensures status.None? <==> r == Err(StatusMissing)
    ensures status.Some? ==> (ParseAccountStatus(status).None? <==> r == Err(InvalidAccountStatus(status.value)))
    ensures status.Some? && ParseAccountStatus(status).Some? ==> r.Ok?
    ensures r.Ok? ==>
              var (accounts', resp) := r.value;
              && accounts' == WithStatus(accounts, numbers, ParseAccountStatus(status).value)
              && resp.totalProcessed == |numbers|
              && resp.successCount == CountPresent(numbers, accounts)
              && resp.successCount + resp.failureCount == resp.totalProcessed
  {
    var parsed := ParseAccountStatus(status);
    if status.None? {
      return Err(StatusMissing);
    }
    if parsed.None? {
      return Err(InvalidAccountStatus(status.value));
    }
    var st := parsed.value;
    var current := accounts;
    var success := 0;
    var failure := 0;
    var i := 0;
    while i < |numbers|
      invariant 0 <= i <= |numbers|
      invariant current == WithStatus(accounts, numbers[..i], st)
      invariant success == CountPresent(numbers[..i], accounts)
      invariant success + failure == i
    {
      var n := numbers[i];
      WithStatusStep(accounts, numbers, i, st);
      CountPresentStep(accounts, numbers, i);
      if n in current {
        current := current[n := current[n].(status := st)];
        success := success + 1;
      } else {
        failure := failure + 1;
      }
      i := i + 1;
    }
    assert numbers[..i] == numbers;
    r := Ok((current, BulkOperationResponse(|numbers|, success, failure)));
  }

  /** The figures of getTransactionAnalytics that the service computes
      itself; the count, the sum and the per-hour ranking come from queries. */
  datatype TransactionAnalytics = TransactionAnalytics(
    totalTransactions: int, totalAmount: real, averageTransaction: real, peakHour: int)

  const DefaultPeakHour: int := 12

  /** The average is the total over the count rounded HALF_UP to cents, or
      zero when there are no transactions; an absent sum counts as zero; the
      peak hour is the first ranked hour, or noon when there is none. */
  function GetTransactionAnalytics(count: int, sum: Option<real>, peakHours: seq<int>): (r: TransactionAnalytics)
    ensures r.totalTransactions == count
    ensures r.totalAmount == sum.GetOr(0.0)
    ensures count <= 0 ==> r.averageTransaction == 0.0
    ensures count > 0 ==> -0.005 <= r.averageTransaction - r.totalAmount / count as real <= 0.005
    ensures count > 0 ==> IsHalfUp(r.totalAmount / count as real, 2, r.averageTransaction)
    ensures HasScale(r.averageTransaction, 2)
    ensures r.totalAmount >= 0.0 ==> r.averageTransaction >= 0.0
    ensures r.peakHour == if peakHours == [] then DefaultPeakHour else peakHours[0]
  {
    var total := sum.GetOr(0.0);
    var average := if count > 0 then RoundHalfUp(total / count as real, 2) else 0.0;
    assert Scale(2) == 100.0;
    assert HasScale(0.0, 2);
    TransactionAnalytics(count, total, average, if peakHours == [] then DefaultPeakHour else peakHours[0])
  }

  /** When every transaction is for the same amount in cents, the average is
      that amount exactly. */
  lemma AverageOfEqualAmounts(amount: real, count: nat)
    requires count > 0 && HasScale(amount, 2)
    ensures GetTransactionAnalytics(count, Some(amount * count as real), []).averageTransaction == amount
  {
    assert (amount * count as real) / count as real == amount;
    RoundHalfUpFixesScaled(amount, 2);
  }

  /** Users whose status is ACTIVE. */
  function CountActive(users: seq<User>): (c: nat)
    ensures c <= |users|
    ensures c == |users| <==> forall k :: 0 <= k < |users| ==> users[k].status == ACTIVE
  {
    if users == [] then 0
    else CountActive(users[1..]) + (if users[0].status == ACTIVE then 1 else 0)
  }

  /** sendBroadcastNotification's recipient count: every user for "ALL",
      the ACTIVE users for "ACTIVE" (either in any case), nobody otherwise
      (including a null user type). */
  function RecipientsCount(users: seq<User>, userType: Option<string>): (c: nat)
    ensures c <= |users|
    ensures userType.Some? && EqualsIgnoreCase("ALL", userType.value) ==> c == |users|
    ensures userType.Some? && EqualsIgnoreCase("ACTIVE", userType.value) ==> c == CountActive(users)
    ensures userType.None? ==> c == 0
    ensures userType.Some? && !EqualsIgnoreCase("ALL", userType.value) && !EqualsIgnoreCase("ACTIVE", userType.value) ==>
              c == 0
  {
    if userType.Some? && EqualsIgnoreCase("ALL", userType.value) then |users|
    else if userType.Some? && EqualsIgnoreCase("ACTIVE", userType.value) then CountActive(users)
    else 0
  }

  /** "ALL" and "ACTIVE" are not the same word in any case, and the ACTIVE
      audience is never larger than the whole one. */
  lemma ActiveAudienceWithinAll(users: seq<User>, userType: string)
    requires EqualsIgnoreCase("ACTIVE", userType)
    ensures !EqualsIgnoreCase("ALL", userType)
    ensures RecipientsCount(users, Some(userType)) <= RecipientsCount(users, Some("ALL"))
  {
    assert EqualsIgnoreCase("ALL", "ALL");
  }
}

=== FILE: auth.dfy ===
/** AuthServiceImpl: one-time passwords kept in memory by e-mail address,
    and e-mail verification against them. OTP generation is random and is
    an input here. */
module Auth {
  import opened Wrappers
  import opened Users
  import opened Seqs

  /** The in-memory OTP map and the users table. */
  datatype AuthState = AuthState(otps: map<string, string>, users: seq<User>)

  datatype VerifyError =
    | InvalidOrExpiredOtp   // the bad-request response
    | UserNotFound          // the exception when no user has the address

  /** findByEmail. */
  function FindByEmail(users: seq<User>, email: string): Option<nat> {
    FindBy(users, (u: User) => u.email, email)
  }

  /** saveOTP: a new OTP replaces whatever was stored for the address. */
  function SaveOtp(st: AuthState, email: string, otp: string): (r: AuthState)
    ensures r.otps.Keys == st.otps.Keys + {email}
    ensures r.otps[email] == otp
    ensures forall e :: e in st.otps && e != email ==> r.otps[e] == st.otps[e]
    ensures r.users == st.users
  {
    st.(otps := st.otps[email := otp])
  }

  /** verifyEmail: the stored OTP must equal the one given (a null OTP
      matches nothing). On a match the user is marked verified and the OTP
      is consumed; a match for an address with no user fails before
      anything changes, leaving the OTP in place. */
  function VerifyEmail(st: AuthState, email: string, otp: Option<string>): (r: Result<AuthState, VerifyError>)
    ensures (email !in st.otps || otp != Some(st.otps[email])) <==> r == Err(InvalidOrExpiredOtp)
    ensures email in st.otps && otp == Some(st.otps[email]) ==>
              (r == Err(UserNotFound) <==> FindByEmail(st.users, email).None?)
    ensures r.Ok? ==>
              var i := FindByEmail(st.users, email).value;
              && r.value.otps == st.otps - {email}
              && |r.value.users| == |st.users|
              && r.value.users[i] == st.users[i].(emailVerified := true)
              && forall k :: 0 <= k < |st.users| && k != i ==> r.value.users[k] == st.users[k]
  {
    if email in st.otps && otp == Some(st.otps[email]) then
      var i := FindByEmail(st.users, email);
      if i.None? then Err(UserNotFound)
      else
        var u := st.users[i.value];
        Ok(AuthState(st.otps - {email}, st.users[i.value := u.(emailVerified := true)]))
    else Err(InvalidOrExpiredOtp)
  }

  /** An OTP is good for one verification: a second attempt, with any OTP,
      is refused until a new one is saved. */
  lemma OtpIsSingleUse(st: AuthState, email: string, otp: Option<string>, again: Option<string>)
    requires VerifyEmail(st, email, otp).Ok?
    ensures VerifyEmail(VerifyEmail(st, email, otp).value, email, again) == Err(InvalidOrExpiredOtp)
  {
  }

  /** Saving a new OTP invalidates the one saved before it. */
  lemma SaveOtpOverwrites(st: AuthState, email: string, oldOtp: string, newOtp: string)
    requires oldOtp != newOtp
    ensures VerifyEmail(SaveOtp(SaveOtp(st, email, oldOtp), email, newOtp), email, Some(oldOtp)) == Err(InvalidOrExpiredOtp)
  {
  }

  /** A successful verification leaves the user verified. */
  lemma VerifiedAfterSuccess(st: AuthState, email: string, otp: Option<string>)
    requires VerifyEmail(st, email, otp).Ok?
    ensures var t := VerifyEmail(st, email, otp).value;
            var i := FindByEmail(t.users, email);
            i.Some? && t.users[i.value].emailVerified
  {
    var t := VerifyEmail(st, email, otp).value;
    var j := FindByEmail(st.users, email).value;
    assert t.users[j].email == email;
    var i := FindByEmail(t.users, email);
    assert i.value == j by {
      forall k | 0 <= k < j
        ensures t.users[k].email != email
      {
        assert t.users[k] == st.users[k];
      }
    }
  }
}

=== FILE: bank.dfy ===
/** The persistent state the loan and EMI services work on: the loans
    table, the EMI records table, the accounts with their transaction
    history, and the KYC records. A service call that fails is rolled
    back, so it returns an error and no state. */
module BankState {
  import opened Users
  import opened Loans
  import opened EmiRecords
  import Ledger
  import Kyc

  datatype Bank = Bank(
    loans: map<LoanId, Loan>,
    nextLoanId: LoanId,
    emis: EmiStore,
    ledger: Ledger.Ledger,
    kyc: Kyc.KycStore)

  /** The exceptions of the loan and EMI services other than loan
      application, by kind. */
  datatype LoanError =
    | LoanNotFound                                // ResourceNotFoundException for the loan
    | Unauthorized                                // UnauthorizedAccessException
    | NotPending                                  // LoanException: not in pending state
    | NotDisbursed                                // LoanException: not in disbursed state
    | EmiRecordNotFound                           // ResourceNotFoundException for the installment
    | AlreadyPaid                                 // LoanException: installment already paid
    | NoLinkedAccount                             // LoanException: no linked account
    | InsufficientBalance                         // InsufficientBalanceException
    | PaymentFailed(cause: Ledger.TransactionError) // LoanException wrapping a failed withdrawal

  /** Every stored loan sits under its own id, below the next id to be issued. */
  predicate LoansWellFormed(b: Bank) {
    forall id :: id in b.loans ==> id < b.nextLoanId && b.loans[id].id == id
  }

  /** The account the loan repays from, when it is set and exists. */
  predicate HasLinkedAccount(b: Bank, loan: Loan) {
    loan.linkedAccount.Some? && loan.linkedAccount.value in b.ledger.accounts
  }
}

=== FILE: beneficiaries.dfy ===
/** BeneficiaryServiceImpl: each user's list of payees. A user may register
    an account number once; different users may register the same one. */
module Beneficiaries {
  import opened Wrappers
  import opened Users
  import opened Seqs

  datatype Beneficiary = Beneficiary(
    id: nat,
    accountNumber: string,
    accountHolderName: string,
    bankName: string,
    branchName: string,
    ifscCode: string,
    nickname: Option<string>,  // None is representable: the request's not-blank validation is not modelled
    user: UserId)

  datatype BeneficiaryRequest = BeneficiaryRequest(
    accountNumber: string,
    accountHolderName: string,
    bankName: string,
    branchName: string,
    ifscCode: string,
    nickname: Option<string>)

  /** The beneficiaries table in insertion order, and the next generated id. */
  datatype BeneficiaryStore = BeneficiaryStore(rows: seq<Beneficiary>, nextId: nat)

  datatype BeneficiaryError = AlreadyExists | NotFound

  /** Every id is distinct and below the next one to be issued. */
  predicate WellFormed(s: BeneficiaryStore) {
    && (forall i, j :: 0 <= i < j < |s.rows| ==> s.rows[i].id != s.rows[j].id)
    && (forall i :: 0 <= i < |s.rows| ==> s.rows[i].id < s.nextId)
  }

  /** existsByAccountNumberAndUser. */
  predicate Registered(s: BeneficiaryStore, accountNumber: string, user: UserId) {
    exists i :: 0 <= i < |s.rows| && s.rows[i].accountNumber == accountNumber && s.rows[i].user == user
  }

  /** addBeneficiary: refused when the user already has this account number. */
  function AddBeneficiary(s: BeneficiaryStore, request: BeneficiaryRequest, user: UserId): (r: Result<BeneficiaryStore, BeneficiaryError>)
    ensures Registered(s, request.accountNumber, user) <==> r == Err(AlreadyExists)
    ensures !Registered(s, request.accountNumber, user) ==> r.Ok?
    ensures r.Ok? ==>
              r.value == BeneficiaryStore(
                s.rows + [Beneficiary(s.nextId, request.accountNumber, request.accountHolderName, request.bankName,
                                      request.branchName, request.ifscCode, request.nickname, user)],
                s.nextId + 1)
  {
    if exists i :: 0 <= i < |s.rows| && s.rows[i].accountNumber == request.accountNumber && s.rows[i].user == user then
      Err(AlreadyExists)
    else
      var b := Beneficiary(s.nextId, request.accountNumber, request.accountHolderName, request.bankName,
                           request.branchName, request.ifscCode, request.nickname, user);
      Ok(BeneficiaryStore(s.rows + [b], s.nextId + 1))
  }

  /** getUserBeneficiaries: the user's rows, in table order. */
  function UserBeneficiaries(s: BeneficiaryStore, user: UserId): (r: seq<Beneficiary>)
    ensures forall b :: b in r <==> b in s.rows && b.user == user
  {
    RowsOf(s.rows, user)
  }

  function RowsOf(rows: seq<Beneficiary>, user: UserId): (r: seq<Beneficiary>)
    ensures |r| <= |rows|
    ensures forall b :: b in r <==> b in rows && b.user == user
  {
    if rows == [] then []
    else
      var rest := RowsOf(rows[1..], user);
      if rows[0].user == user then [rows[0]] + rest else rest
  }

  /** findByIdAndUser. */
  function FindByIdAndUser(s: BeneficiaryStore, id: nat, user: UserId): (r: Option<nat>)
    ensures r.Some? ==> r.value < |s.rows| && s.rows[r.value].id == id && s.rows[r.value].user == user
    ensures r.None? <==> forall k :: 0 <= k < |s.rows| ==> !(s.rows[k].id == id && s.rows[k].user == user)
  {
    FirstIndex(s.rows, (b: Beneficiary) => b.id == id && b.user == user)
  }

  /** getBeneficiaryDetails: only the owner sees a beneficiary. */
  function GetBeneficiaryDetails(s: BeneficiaryStore, id: nat, user: UserId): (r: Result<Beneficiary, BeneficiaryError>)
    ensures r.Ok? <==> exists k :: 0 <= k < |s.rows| && s.rows[k].id == id && s.rows[k].user == user
    ensures r.Ok? ==> r.value in s.rows && r.value.id == id && r.value.user == user
    ensures r.Err? ==> r.error == NotFound
  {
    var i := FindByIdAndUser(s, id, user);
    if i.None? then Err(NotFound) else Ok(s.rows[i.value])
  }

  /** deleteBeneficiary: only the owner deletes a beneficiary, and exactly
      that row goes. */
  function DeleteBeneficiary(s: BeneficiaryStore, id: nat, user: UserId): (r: Result<BeneficiaryStore, BeneficiaryError>)
    ensures r.Ok? <==> exists k :: 0 <= k < |s.rows| && s.rows[k].id == id && s.rows[k].user == user
    ensures r.Err? ==> r.error == NotFound
    ensures r.Ok? ==> var i := FindByIdAndUser(s, id, user).value;
              r.value == BeneficiaryStore(s.rows[..i] + s.rows[i + 1..], s.nextId)
  {
    var i := FindByIdAndUser(s, id, user);
    if i.None? then Err(NotFound) else Ok(s.(rows := RemoveAt(s.rows, i.value)))
  }

  /** After a successful add the user's list holds the new beneficiary,
      and the table keeps its invariant. */
  lemma AddThenListed(s: BeneficiaryStore, request: BeneficiaryRequest, user: UserId)
    requires WellFormed(s)
    requires AddBeneficiary(s, request, user).Ok?
    ensures var t := AddBeneficiary(s, request, user).value;
            && WellFormed(t)
            && t.rows[|s.rows|] in UserBeneficiaries(t, user)
            && t.rows[|s.rows|].accountNumber == request.accountNumber
            && Registered(t, request.accountNumber, user)
  {
    var t := AddBeneficiary(s, request, user).value;
    assert t.rows[|s.rows|] in t.rows;
  }

  /** A second add of the same account number by the same user fails,
      while another user may still add it. */
  lemma AddTwice(s: BeneficiaryStore, request: BeneficiaryRequest, user: UserId, other: UserId)
    requires AddBeneficiary(s, request, user).Ok?
    requires other != user && !Registered(s, request.accountNumber, other)
    ensures var t := AddBeneficiary(s, request, user).value;
            AddBeneficiary(t, request, user) == Err(AlreadyExists)
            && AddBeneficiary(t, request, other).Ok?
  {
    var t := AddBeneficiary(s, request, user).value;
    assert t.rows[|s.rows|].accountNumber == request.accountNumber && t.rows[|s.rows|].user == user;
  }

  /** Deleting removes exactly the one row: the same id cannot be found
      again, and every other row is still there. */
  lemma DeleteRemovesExactlyOne(s: BeneficiaryStore, id: nat, user: UserId)
    requires WellFormed(s)
    requires DeleteBeneficiary(s, id, user).Ok?
    ensures var t := DeleteBeneficiary(s, id, user).value;
            && |t.rows| == |s.rows| - 1
            && GetBeneficiaryDetails(t, id, user) == Err(NotFound)
            && (forall b :: b in s.rows && b.id != id ==> b in t.rows)
            && WellFormed(t)
  {
    var t := DeleteBeneficiary(s, id, user).value;
    var i := FindByIdAndUser(s, id, user).value;
    forall k | 0 <= k < |t.rows|
      ensures t.rows[k].id != id
    {
      if k < i {
        assert t.rows[k] == s.rows[k];
      } else {
        assert t.rows[k] == s.rows[k + 1];
      }
    }
    forall b | b in s.rows && b.id != id
      ensures b in t.rows
    {
      var k :| 0 <= k < |s.rows| && s.rows[k] == b;
      if k < i {
        assert t.rows[k] == b;
      } else {
        assert k != i;
        assert t.rows[k - 1] == b;
      }
    }
    forall p, q | 0 <= p < q < |t.rows|
      ensures t.rows[p].id != t.rows[q].id
    {
      var p' := if p < i then p else p + 1;
      var q' := if q < i then q else q + 1;
      assert t.rows[p] == s.rows[p'] && t.rows[q] == s.rows[q'];
    }
    forall p | 0 <= p < |t.rows|
      ensures t.rows[p].id < t.nextId
    {
      var p' := if p < i then p else p + 1;
      assert t.rows[p] == s.rows[p'];
    }
  }
}

=== FILE: dates.dfy ===
/** Calendar dates as java.time.LocalDate handles them: proleptic
    Gregorian year, month 1..12 and day-of-month. Only the operations the
    loan engine uses are modelled: `plusMonths` and `isBefore`. The current
    date (`LocalDate.now()`) is always an input of the operation that reads it. */
module Dates {

  datatype Date = Date(year: int, month: int, day: int)

  /** An instant read from the clock (`LocalDateTime.now()`), kept abstract. */
  type Instant = int

  predicate IsLeapYear(y: int) {
    y % 4 == 0 && (y % 100 != 0 || y % 400 == 0)
  }

  function LengthOfMonth(y: int, m: int): (n: int)
    ensures 28 <= n <= 31
  {
    if m == 2 then (if IsLeapYear(y) then 29 else 28)
    else if m == 4 || m == 6 || m == 9 || m == 11 then 30
    else 31
  }

  predicate ValidDate(d: Date) {
    1 <= d.month <= 12 && 1 <= d.day <= LengthOfMonth(d.year, d.month)
  }

  /** The number of whole months since January of year 0. */
  function MonthIndex(d: Date): int {
    d.year * 12 + d.month - 1
  }

  /** LocalDate.plusMonths: move the month index by `n` and clamp the day
      to the length of the month reached (Jan 31 plus one month is Feb 28
      or 29). Adding zero months returns the date itself. */
  function PlusMonths(d: Date, n: int): (r: Date)
    ensures MonthIndex(r) == MonthIndex(d) + n
    ensures ValidDate(d) ==> ValidDate(r)
    ensures d.day >= 1 ==> 1 <= r.day <= d.day
    ensures n == 0 ==> r == d
    ensures ValidDate(d) && d.day <= 28 ==> r.day == d.day
    ensures ValidDate(d) ==>
              r.day == if d.day <= LengthOfMonth(r.year, r.month) then d.day else LengthOfMonth(r.year, r.month)
  {
    if n == 0 then d
    else
      var months := MonthIndex(d) + n;
      var y := months / 12;
      var m := months % 12 + 1;
      var len := LengthOfMonth(y, m);
      Date(y, m, if d.day <= len then d.day else len)
  }

  /** The day is clamped, not carried over: Jan 31 plus one month is the
      last day of February, in a common and in a leap year. */
  lemma PlusMonthsClampsExample()
    ensures PlusMonths(Date(2023, 1, 31), 1) == Date(2023, 2, 28)
    ensures PlusMonths(Date(2024, 1, 31), 1) == Date(2024, 2, 29)
  {
  }

  /** LocalDate.isBefore: strictly earlier on the calendar. */
  predicate IsBefore(a: Date, b: Date) {
    a.year < b.year
    || (a.year == b.year && a.month < b.month)
    || (a.year == b.year && a.month == b.month && a.day < b.day)
  }

  /** Of two valid dates, the one with the smaller month index comes first. */
  lemma EarlierMonthIsBefore(a: Date, b: Date)
    requires ValidDate(a) && ValidDate(b)
    requires MonthIndex(a) < MonthIndex(b)
    ensures IsBefore(a, b) && !IsBefore(b, a)
  {
  }

  /** Successive due dates of a schedule are strictly increasing. */
  lemma PlusMonthsStrictlyIncreasing(d: Date, i: int, j: int)
    requires ValidDate(d) && i < j
    ensures IsBefore(PlusMonths(d, i), PlusMonths(d, j))
  {
    EarlierMonthIsBefore(PlusMonths(d, i), PlusMonths(d, j));
  }
}

=== FILE: decimal.dfy ===
/** Exact decimal arithmetic standing in for java.math.BigDecimal.

    BigDecimal addition, subtraction, multiplication and `pow` are exact, so
    they are plain `real` operations here. The only inexact steps in the
    source are `divide(d, k, RoundingMode.HALF_UP)` and
    `setScale(k, RoundingMode.HALF_UP)`; both round the exact value to `k`
    fractional digits, ties away from zero, which is `RoundHalfUp(x, k)`. */
module Decimal {

  /** 10^k. */
  function Pow10(k: nat): (p: nat)
    ensures p >= 1
  {
    if k == 0 then 1 else 10 * Pow10(k - 1)
  }

  /** The scaling factor 10^k as a real. */
  function Scale(k: nat): (s: real)
    ensures s >= 1.0
  {
    Pow10(k) as real
  }

  /** `x` has at most `k` fractional digits (BigDecimal scale <= k). */
  predicate HasScale(x: real, k: nat) {
    (x * Scale(k)).Floor as real == x * Scale(k)
  }

  /** The HALF_UP rounding of `x` counted in units of 10^-k. */
  function Units(x: real, k: nat): (u: int)
    ensures -0.5 <= u as real - x * Scale(k) <= 0.5
    ensures x >= 0.0 ==> -0.5 < u as real - x * Scale(k)
    ensures x < 0.0 ==> u as real - x * Scale(k) < 0.5
    ensures x >= 0.0 ==> u >= 0
    ensures x <= 0.0 ==> u <= 0
  {
    var y := x * Scale(k);
    if x >= 0.0 then (y + 0.5).Floor else -((-y + 0.5).Floor)
  }

  /** `r` is a HALF_UP rounding of `x` at scale `k`: it has at most `k`
      decimals and lies within half a unit of `x`, where a tie (exactly half
      a unit away) is resolved away from zero. */
  predicate IsHalfUp(x: real, k: nat, r: real) {
    HasScale(r, k) && WithinHalfUnit(r * Scale(k) - x * Scale(k), x >= 0.0)
  }

  /** An error `d` of at most half a unit, where exactly half a unit is
      allowed upwards when `up` and downwards otherwise. */
  predicate WithinHalfUnit(d: real, up: bool) {
    if up then -0.5 < d <= 0.5 else -0.5 <= d < 0.5
  }

  /** RoundingMode.HALF_UP at scale `k`: round to the nearest multiple of
      10^-k, and a tie goes away from zero. */
  function RoundHalfUp(x: real, k: nat): (r: real)
    ensures x >= 0.0 ==> r >= 0.0
    ensures x <= 0.0 ==> r <= 0.0
    ensures -0.5 <= r * Scale(k) - x * Scale(k) <= 0.5
    ensures x >= 0.0 ==> -0.5 < r * Scale(k) - x * Scale(k)
    ensures x < 0.0 ==> r * Scale(k) - x * Scale(k) < 0.5
    ensures HasScale(r, k)
    ensures IsHalfUp(x, k, r)
  {
    var u := Units(x, k);
    ScaledQuotient(u, Scale(k), x * Scale(k));
    u as real / Scale(k)
  }

  /** The arithmetic behind RoundHalfUp, over plain variables: a whole
      number `u` of units of size 1/s is a value with those units, within
      half a unit of `y` when `u` is. */
  lemma ScaledQuotient(u: int, s: real, y: real)
    requires s >= 1.0
    requires -0.5 <= u as real - y <= 0.5
    ensures (u as real / s) * s == u as real
    ensures ((u as real / s) * s).Floor == u
    ensures -0.5 <= (u as real / s) * s - y <= 0.5
    ensures u >= 0 ==> u as real / s >= 0.0
    ensures u <= 0 ==> u as real / s <= 0.0
  {
    var r := u as real / s;
    assert r * s == u as real;
  }

  /** Rounding a value that already has scale `k` changes nothing; in
      particular rounding twice is the same as rounding once. */
  lemma RoundHalfUpFixesScaled(x: real, k: nat)
    requires HasScale(x, k)
    ensures RoundHalfUp(x, k) == x
  {
    RoundHalfUpUnique(x, k, x);
  }

  /** HALF_UP rounding is determined by its error bound: a value with scale
      `k` that lies strictly within half a unit of `x` is the rounding of `x`. */
  lemma RoundHalfUpUnique(x: real, k: nat, r: real)
    requires HasScale(r, k)
    requires -0.5 < r * Scale(k) - x * Scale(k) < 0.5
    ensures RoundHalfUp(x, k) == r
  {
    UnitsDetermine(r, Scale(k), x * Scale(k), Units(x, k));
  }

  /** IsHalfUp pins the rounding down completely, ties included: the only
      value it admits is RoundHalfUp's. */
  lemma RoundHalfUpCharacterised(x: real, k: nat, r: real)
    requires IsHalfUp(x, k, r)
    ensures RoundHalfUp(x, k) == r
  {
    HalfUpUnique(x, k, RoundHalfUp(x, k), r);
  }

  /** Two HALF_UP roundings of the same value at the same scale are equal. */
  lemma HalfUpUnique(x: real, k: nat, q: real, r: real)
    requires IsHalfUp(x, k, q) && IsHalfUp(x, k, r)
    ensures q == r
  {
    HalfUpParts(x, k, q);
    HalfUpParts(x, k, r);
    SameWholeUnits(q * Scale(k), r * Scale(k), x * Scale(k), x >= 0.0);
    CancelScale(q, r, Scale(k));
  }

  lemma HalfUpParts(x: real, k: nat, r: real)
    requires IsHalfUp(x, k, r)
    ensures (r * Scale(k)).Floor as real == r * Scale(k)
    ensures WithinHalfUnit(r * Scale(k) - x * Scale(k), x >= 0.0)
  {
  }

  /** Two whole numbers in the same half-open interval of width one around
      `y` are equal. */
  lemma SameWholeUnits(a: real, b: real, y: real, up: bool)
    requires a.Floor as real == a && b.Floor as real == b
    requires WithinHalfUnit(a - y, up) && WithinHalfUnit(b - y, up)
    ensures a == b
  {
    var m, n := a.Floor, b.Floor;
    assert m as real - n as real < 1.0 && n as real - m as real < 1.0;
    assert m - n < 1 && n - m < 1;
  }

  lemma CancelScale(q: real, r: real, s: real)
    requires s >= 1.0 && q * s == r * s
    ensures q == r
  {
    assert (q - r) * s == 0.0;
  }

  /** Ties go away from zero on both sides: 10.005 and -0.005 at two places. */
  lemma TiesRoundAwayFromZero()
    ensures RoundHalfUp(10.005, 2) == 10.01
    ensures RoundHalfUp(-0.005, 2) == -0.01
  {
    assert Scale(2) == 100.0;
    assert HasScale(10.01, 2) && HasScale(-0.01, 2);
    RoundHalfUpCharacterised(10.005, 2, 10.01);
    RoundHalfUpCharacterised(-0.005, 2, -0.01);
  }

  /** The arithmetic behind RoundHalfUpUnique, over plain variables: a value
      made of whole units that lies strictly within half a unit of `y` is
      the one whose unit count is within half a unit of `y`. */
  lemma UnitsDetermine(r: real, s: real, y: real, u: int)
    requires s >= 1.0
    requires (r * s).Floor as real == r * s
    requires -0.5 < r * s - y < 0.5
    requires -0.5 <= u as real - y <= 0.5
    ensures u as real / s == r
  {
    var n := (r * s).Floor;
    assert u == n;
    assert (r * s) / s == r;
  }

  /** BigDecimal.pow(n): exact n-th power. */
  function Pow(x: real, n: nat): real {
    if n == 0 then 1.0 else x * Pow(x, n - 1)
  }

  /** For a base above one every positive power is above one, so the
      annuity denominator (1+r)^n - 1 of a positive rate is positive. */
  lemma {:induction false} PowAboveOne(x: real, n: nat)
    requires x > 1.0 && n >= 1
    ensures Pow(x, n) > 1.0
  {
    if n > 1 {
      PowAboveOne(x, n - 1);
      assert x * Pow(x, n - 1) > 1.0 * Pow(x, n - 1);
    }
  }
}

=== FILE: emi_records.dfy ===
/** EMI records (model/loan/EMIRecord.java), the table that stores them, the
    queries the services run against it, and the duplicate-row cleanup of
    EMIServiceImpl. The table is the sequence of stored rows in insertion
    order, which is also the order the queries return them in. */
module EmiRecords {
  import opened Wrappers
  import opened Dates
  import opened Loans

  datatype EMIStatus = PENDING | PAID | LATE | DEFAULTED

  datatype EMIRecord = EMIRecord(
    id: nat,
    loanId: LoanId,
    installmentNumber: int,
    dueDate: Date,
    amount: real,
    paymentDate: Option<Date>,
    principalAmount: real,
    interestAmount: real,
    remainingPrincipal: real,
    status: EMIStatus)

  /** The stored rows and the next identity value the table will hand out. */
  datatype EmiStore = EmiStore(records: seq<EMIRecord>, nextId: nat)

  /** findByLoanAndInstallmentNumber: the rows of one installment, in table order. */
  function RecordsOf(s: seq<EMIRecord>, loanId: LoanId, n: int): (t: seq<EMIRecord>)
    ensures |t| <= |s|
    ensures forall x :: x in t <==> x in s && x.loanId == loanId && x.installmentNumber == n
  {
    if s == [] then []
    else if s[0].loanId == loanId && s[0].installmentNumber == n then [s[0]] + RecordsOf(s[1..], loanId, n)
    else RecordsOf(s[1..], loanId, n)
  }

  /** findByLoan: the rows of one loan, in table order. */
  function RecordsOfLoan(s: seq<EMIRecord>, loanId: LoanId): (t: seq<EMIRecord>)
    ensures |t| <= |s|
    ensures forall x :: x in t <==> x in s && x.loanId == loanId
  {
    if s == [] then []
    else if s[0].loanId == loanId then [s[0]] + RecordsOfLoan(s[1..], loanId)
    else RecordsOfLoan(s[1..], loanId)
  }

  /** countByLoanAndStatus. */
  function CountWithStatus(s: seq<EMIRecord>, loanId: LoanId, status: EMIStatus): (c: nat)
    ensures c <= |s|
    ensures c == 0 <==> forall i :: 0 <= i < |s| && s[i].loanId == loanId ==> s[i].status != status
  {
    if s == [] then 0
    else (if s[0].loanId == loanId && s[0].status == status then 1 else 0)
         + CountWithStatus(s[1..], loanId, status)
  }

  /** The first row of a list, if any (what the cleanup keeps). */
  function FirstOnly(q: seq<EMIRecord>): seq<EMIRecord> {
    if q == [] then [] else [q[0]]
  }

  /** The cleanup loop: among the rows of `loanId` whose installment number
      lies in lo..hi, keep the first row of each installment and delete the
      rest; `seen` holds the installments whose first row is already kept. */
  function KeepFirst(s: seq<EMIRecord>, loanId: LoanId, lo: int, hi: int, seen: set<int>): (t: seq<EMIRecord>)
    ensures |t| <= |s|
    ensures forall x :: x in t ==> x in s
  {
    if s == [] then []
    else
      var r := s[0];
      if r.loanId == loanId && lo <= r.installmentNumber <= hi then
        if r.installmentNumber in seen then KeepFirst(s[1..], loanId, lo, hi, seen)
        else [r] + KeepFirst(s[1..], loanId, lo, hi, seen + {r.installmentNumber})
      else [r] + KeepFirst(s[1..], loanId, lo, hi, seen)
  }

  /** Within lo..hi, an installment keeps exactly its first row (none if
      its first row was already kept earlier). */
  lemma {:induction false} KeepFirstInScope(s: seq<EMIRecord>, loanId: LoanId, lo: int, hi: int, seen: set<int>, n: int)
    requires lo <= n <= hi
    ensures RecordsOf(KeepFirst(s, loanId, lo, hi, seen), loanId, n)
            == if n in seen then [] else FirstOnly(RecordsOf(s, loanId, n))
  {
    if s != [] {
      var r := s[0];
      if r.loanId == loanId && lo <= r.installmentNumber <= hi {
        if r.installmentNumber in seen {
          KeepFirstInScope(s[1..], loanId, lo, hi, seen, n);
        } else {
          var seen' := seen + {r.installmentNumber};
          KeepFirstInScope(s[1..], loanId, lo, hi, seen', n);
          if r.installmentNumber == n {
            KeepFirstInScope(s[1..], loanId, lo, hi, seen', n);
            assert RecordsOf(KeepFirst(s[1..], loanId, lo, hi, seen'), loanId, n) == [];
          }
        }
      } else {
        KeepFirstInScope(s[1..], loanId, lo, hi, seen, n);
      }
    }
  }

  /** Rows of other loans, and rows of installments outside lo..hi, are
      left exactly as they were. */
  lemma {:induction false} KeepFirstOutsideScope(s: seq<EMIRecord>, loanId: LoanId, lo: int, hi: int, seen: set<int>, other: LoanId, n: int)
    requires other != loanId || !(lo <= n <= hi)
    ensures RecordsOf(KeepFirst(s, loanId, lo, hi, seen), other, n) == RecordsOf(s, other, n)
  {
    if s != [] {
      var r := s[0];
      if r.loanId == loanId && lo <= r.installmentNumber <= hi {
        if r.installmentNumber in seen {
          KeepFirstOutsideScope(s[1..], loanId, lo, hi, seen, other, n);
        } else {
          KeepFirstOutsideScope(s[1..], loanId, lo, hi, seen + {r.installmentNumber}, other, n);
        }
      } else {
        KeepFirstOutsideScope(s[1..], loanId, lo, hi, seen, other, n);
      }
    }
  }

  /** Running the cleanup a second time deletes nothing more. */
  lemma {:induction false} KeepFirstIdempotent(s: seq<EMIRecord>, loanId: LoanId, lo: int, hi: int, seen: set<int>)
    ensures KeepFirst(KeepFirst(s, loanId, lo, hi, seen), loanId, lo, hi, seen) == KeepFirst(s, loanId, lo, hi, seen)
  {
    if s != [] {
      var r := s[0];
      if r.loanId == loanId && lo <= r.installmentNumber <= hi {
        if r.installmentNumber in seen {
          KeepFirstIdempotent(s[1..], loanId, lo, hi, seen);
        } else {
          var seen' := seen + {r.installmentNumber};
          KeepFirstIdempotent(s[1..], loanId, lo, hi, seen');
          var t := KeepFirst(s, loanId, lo, hi, seen);
          assert t[0] == r && t[1..] == KeepFirst(s[1..], loanId, lo, hi, seen');
        }
      } else {
        KeepFirstIdempotent(s[1..], loanId, lo, hi, seen);
        var t := KeepFirst(s, loanId, lo, hi, seen);
        assert t[0] == r && t[1..] == KeepFirst(s[1..], loanId, lo, hi, seen);
      }
    }
  }

  /** A prefix holding no row of the loan passes through the cleanup untouched. */
  lemma {:induction false} KeepFirstSkipsOtherPrefix(c: seq<EMIRecord>, t: seq<EMIRecord>, loanId: LoanId, lo: int, hi: int, seen: set<int>)
    requires forall x :: x in c ==> x.loanId != loanId
    ensures KeepFirst(c + t, loanId, lo, hi, seen) == c + KeepFirst(t, loanId, lo, hi, seen)
  {
    if c != [] {
      assert c[0] in c;
      assert (c + t)[0] == c[0] && (c + t)[1..] == c[1..] + t;
      KeepFirstSkipsOtherPrefix(c[1..], t, loanId, lo, hi, seen);
      assert KeepFirst(c + t, loanId, lo, hi, seen) == [c[0]] + KeepFirst(c[1..] + t, loanId, lo, hi, seen);
      var rest := KeepFirst(t, loanId, lo, hi, seen);
      assert [c[0]] + (c[1..] + rest) == ([c[0]] + c[1..]) + rest;
      assert c == [c[0]] + c[1..];
    } else {
      assert c + t == t;
    }
  }

  /** EMIServiceImpl.cleanupDuplicateEMIRecords: for every installment
      1..tenure of the loan, keep the first row and delete the others. */
  function CleanupDuplicates(store: EmiStore, loan: Loan): (r: EmiStore)
    ensures r.nextId == store.nextId
    ensures forall n :: 1 <= n <= loan.tenureMonths ==>
              RecordsOf(r.records, loan.id, n) == FirstOnly(RecordsOf(store.records, loan.id, n))
    ensures forall other, n :: other != loan.id || !(1 <= n <= loan.tenureMonths) ==>
              RecordsOf(r.records, other, n) == RecordsOf(store.records, other, n)
  {
    var t := KeepFirst(store.records, loan.id, 1, loan.tenureMonths, {});
    forall n | 1 <= n <= loan.tenureMonths
      ensures RecordsOf(t, loan.id, n) == FirstOnly(RecordsOf(store.records, loan.id, n))
    {
      KeepFirstInScope(store.records, loan.id, 1, loan.tenureMonths, {}, n);
    }
    forall other, n | other != loan.id || !(1 <= n <= loan.tenureMonths)
      ensures RecordsOf(t, other, n) == RecordsOf(store.records, other, n)
    {
      KeepFirstOutsideScope(store.records, loan.id, 1, loan.tenureMonths, {}, other, n);
    }
    EmiStore(t, store.nextId)
  }

  /** EMIServiceImpl.cleanupDuplicateEMIRecordsForInstallment: when the
      installment has more than one row, keep the first and delete the rest. */
  function CleanupInstallment(s: seq<EMIRecord>, loanId: LoanId, n: int): (t: seq<EMIRecord>)
    ensures RecordsOf(t, loanId, n) == FirstOnly(RecordsOf(s, loanId, n))
    ensures forall other, m :: other != loanId || m != n ==> RecordsOf(t, other, m) == RecordsOf(s, other, m)
  {
    if |RecordsOf(s, loanId, n)| > 1 then
      var t := KeepFirst(s, loanId, n, n, {});
      KeepFirstInScope(s, loanId, n, n, {}, n);
      forall other, m | other != loanId || m != n
        ensures RecordsOf(t, other, m) == RecordsOf(s, other, m)
      {
        KeepFirstOutsideScope(s, loanId, n, n, {}, other, m);
      }
      t
    else s
  }

  /** The installment numbers of a list of rows, in order. */
  function InstallmentNumbers(q: seq<EMIRecord>): (ns: seq<int>)
    ensures |ns| == |q|
    ensures forall i :: 0 <= i < |q| ==> ns[i] == q[i].installmentNumber
  {
    seq(|q|, i requires 0 <= i < |q| => q[i].installmentNumber)
  }

  /** The re-check loop of LoanServiceImpl.approveLoan: for each listed
      installment that still has more than one row, clean it up. */
  function CleanupEach(s: seq<EMIRecord>, loanId: LoanId, ns: seq<int>): seq<EMIRecord>
    decreases |ns|
  {
    if ns == [] then s else CleanupEach(CleanupInstallment(s, loanId, ns[0]), loanId, ns[1..])
  }

  /** After the loop every listed installment has at most one row, and the
      rows of every other (loan, installment) pair are untouched. */
  lemma {:induction false} CleanupEachLeavesOne(s: seq<EMIRecord>, loanId: LoanId, ns: seq<int>, other: LoanId, m: int)
    decreases |ns|
    ensures other == loanId && m in ns ==> |RecordsOf(CleanupEach(s, loanId, ns), other, m)| <= 1
    ensures other != loanId || m !in ns ==> RecordsOf(CleanupEach(s, loanId, ns), other, m) == RecordsOf(s, other, m)
  {
    if ns != [] {
      var s1 := CleanupInstallment(s, loanId, ns[0]);
      CleanupEachLeavesOne(s1, loanId, ns[1..], other, m);
      if other == loanId && m == ns[0] && m !in ns[1..] {
        assert |RecordsOf(s1, loanId, m)| <= 1;
      }
    }
  }

  /** Every installment that has a row of the loan is listed among the
      installment numbers of the loan's rows. */
  lemma InstallmentListed(s: seq<EMIRecord>, loanId: LoanId, m: int)
    requires RecordsOf(s, loanId, m) != []
    ensures m in InstallmentNumbers(RecordsOfLoan(s, loanId))
  {
    var x := RecordsOf(s, loanId, m)[0];
    assert x in RecordsOf(s, loanId, m);
    var q := RecordsOfLoan(s, loanId);
    assert x in q;
    var i :| 0 <= i < |q| && q[i] == x;
    assert InstallmentNumbers(q)[i] == m;
  }

  /** Running the re-check loop over the installments of all the loan's rows
      leaves no installment of the loan with two rows. */
  lemma NoDuplicatesAfterRecheck(s: seq<EMIRecord>, loanId: LoanId, m: int)
    ensures |RecordsOf(CleanupEach(s, loanId, InstallmentNumbers(RecordsOfLoan(s, loanId))), loanId, m)| <= 1
  {
    var ns := InstallmentNumbers(RecordsOfLoan(s, loanId));
    CleanupEachLeavesOne(s, loanId, ns, loanId, m);
    if m !in ns && RecordsOf(s, loanId, m) != [] {
      InstallmentListed(s, loanId, m);
    }
  }

  /** The per-installment query distributes over the concatenation of two tables. */
  lemma {:induction false} RecordsOfAppend(a: seq<EMIRecord>, c: seq<EMIRecord>, loanId: LoanId, n: int)
    ensures RecordsOf(a + c, loanId, n) == RecordsOf(a, loanId, n) + RecordsOf(c, loanId, n)
  {
    if a == [] {
      assert a + c == c;
    } else {
      assert (a + c)[0] == a[0] && (a + c)[1..] == a[1..] + c;
      RecordsOfAppend(a[1..], c, loanId, n);
    }
  }

  /** The per-loan query distributes over the concatenation of two tables. */
  lemma {:induction false} RecordsOfLoanAppend(a: seq<EMIRecord>, c: seq<EMIRecord>, loanId: LoanId)
    ensures RecordsOfLoan(a + c, loanId) == RecordsOfLoan(a, loanId) + RecordsOfLoan(c, loanId)
  {
    if a == [] {
      assert a + c == c;
    } else {
      assert (a + c)[0] == a[0] && (a + c)[1..] == a[1..] + c;
      RecordsOfLoanAppend(a[1..], c, loanId);
    }
  }

  /** Rows whose installment numbers count up hold at most one row per installment. */
  lemma {:induction false} CountingRowsAreUnique(rows: seq<EMIRecord>, loanId: LoanId, first: int, n: int)
    requires forall k :: 0 <= k < |rows| ==> rows[k].installmentNumber == first + k
    ensures |RecordsOf(rows, loanId, n)| <= 1
    decreases |rows|
  {
    if rows != [] {
      CountingRowsAreUnique(rows[1..], loanId, first + 1, n);
      if rows[0].loanId == loanId && rows[0].installmentNumber == n {
        forall x | x in rows[1..]
          ensures x.installmentNumber != n
        {
          var k :| 0 <= k < |rows[1..]| && rows[1..][k] == x;
          assert rows[k + 1] == x;
        }
        var rest := RecordsOf(rows[1..], loanId, n);
        if rest != [] {
          assert rest[0] in rest;
        }
      }
    }
  }
}

=== FILE: emi_schedule.dfy ===
/** The amortization schedule of EMIServiceImpl.generateEMISchedule and its
    storage by saveEMISchedule. The money columns of the schedule are
    computed first, month by month, as a sequence of splits; the rows add
    the installment number, the due date and the fixed fields. */
module EmiSchedule {
  import opened Wrappers
  import opened Dates
  import opened Decimal
  import opened Loans
  import opened LoanCalc
  import opened EmiRecords

  /** How one instalment divides: interest, principal, and the principal
      still owed afterwards. */
  datatype Split = Split(interest: real, principal: real, remaining: real)

  /** One month: interest on the opening balance at the monthly rate,
      rounded half-up to cents; the rest of the instalment repays principal;
      the balance is floored at zero. */
  function MonthSplit(opening: real, rate: real, emi: real): (s: Split)
    ensures s.interest + s.principal == emi
    ensures HasScale(s.interest, 2)
    ensures -0.005 <= s.interest - opening * rate <= 0.005
    ensures IsHalfUp(opening * rate, 2, s.interest)
    ensures s.remaining >= 0.0 && s.remaining >= opening - s.principal
    ensures s.remaining == 0.0 || s.remaining == opening - s.principal
  {
    var interest := RoundHalfUp(opening * rate, 2);
    assert Scale(2) == 100.0;
    var principal := emi - interest;
    Split(interest, principal, if opening - principal < 0.0 then 0.0 else opening - principal)
  }

  /** The splits of `count` successive months starting from `opening`. */
  function Splits(opening: real, rate: real, emi: real, count: nat): (ss: seq<Split>)
    ensures |ss| == count
    ensures forall k :: 0 <= k < count ==> ss[k].remaining >= 0.0
    decreases count
  {
    if count == 0 then []
    else
      var first := MonthSplit(opening, rate, emi);
      [first] + Splits(first.remaining, rate, emi, count - 1)
  }

  /** The balance month `k` starts from: the loan amount for the first
      month, the previous month's remaining principal afterwards. */
  function OpeningBalance(ss: seq<Split>, k: nat, opening: real): real
    requires k <= |ss|
  {
    if k == 0 then opening else ss[k - 1].remaining
  }

  /** Every month of the schedule is one step from the balance the previous
      month left. */
  lemma {:induction false} SplitsAreSteps(opening: real, rate: real, emi: real, count: nat, k: nat)
    requires k < count
    ensures var ss := Splits(opening, rate, emi, count);
            ss[k] == MonthSplit(OpeningBalance(ss, k, opening), rate, emi)
    decreases k
  {
    var ss := Splits(opening, rate, emi, count);
    if k > 0 {
      var rest := ss[0].remaining;
      var tail := Splits(rest, rate, emi, count - 1);
      assert ss[1..] == tail;
      assert ss[k] == tail[k - 1];
      assert OpeningBalance(ss, k, opening) == OpeningBalance(tail, k - 1, rest);
      SplitsAreSteps(rest, rate, emi, count - 1, k - 1);
    }
  }

  function SumPrincipal(ss: seq<Split>): real {
    if ss == [] then 0.0 else ss[0].principal + SumPrincipal(ss[1..])
  }

  /** The balance left after the last month (the opening balance if none). */
  function ClosingBalance(ss: seq<Split>, opening: real): real {
    if ss == [] then opening else ss[|ss| - 1].remaining
  }

  /** Principal accounting: the principal parts plus the balance left at the
      end cover the loan amount, and equal it when every month leaves a
      positive balance (so the floor at zero never fires). */
  lemma {:induction false} PrincipalIsAccountedFor(opening: real, rate: real, emi: real, count: nat)
    ensures var ss := Splits(opening, rate, emi, count);
            SumPrincipal(ss) + ClosingBalance(ss, opening) >= opening
    ensures var ss := Splits(opening, rate, emi, count);
            (forall k :: 0 <= k < count ==> ss[k].remaining > 0.0) ==>
              SumPrincipal(ss) + ClosingBalance(ss, opening) == opening
    decreases count
  {
    if count > 0 {
      var ss := Splits(opening, rate, emi, count);
      var rest := ss[0].remaining;
      var tail := Splits(rest, rate, emi, count - 1);
      assert ss[1..] == tail;
      PrincipalIsAccountedFor(rest, rate, emi, count - 1);
      assert ClosingBalance(ss, opening) == ClosingBalance(tail, rest);
      if forall k :: 0 <= k < count ==> ss[k].remaining > 0.0 {
        assert forall k :: 0 <= k < count - 1 ==> tail[k] == ss[k + 1];
      }
    }
  }

  /** The number of rows: the tenure, or none when it is not positive (the
      loop `for i = 1..tenure` does not run). */
  function RowCount(loan: Loan): nat {
    if loan.tenureMonths < 0 then 0 else loan.tenureMonths
  }

  /** The loan's schedule: the splits of the loan amount at the monthly rate,
      row `k` being installment `k + 1`, due `k + 1` months after the base
      date, for the loan's instalment amount, unpaid and PENDING, with
      identities from `firstId` on. */
  function ScheduleFor(loan: Loan, base: Date, firstId: nat): (rows: seq<EMIRecord>)
    ensures |rows| == RowCount(loan)
    ensures var ss := Splits(loan.loanAmount, MonthlyRate(loan.interestRate), loan.emiAmount, RowCount(loan));
            forall k :: 0 <= k < |rows| ==>
              && rows[k].id == firstId + k
              && rows[k].loanId == loan.id
              && rows[k].installmentNumber == k + 1
              && rows[k].dueDate == PlusMonths(base, k + 1)
              && rows[k].amount == loan.emiAmount
              && rows[k].paymentDate == None
              && rows[k].status == EMIStatus.PENDING
              && Split(rows[k].interestAmount, rows[k].principalAmount, rows[k].remainingPrincipal) == ss[k]
  {
    var ss := Splits(loan.loanAmount, MonthlyRate(loan.interestRate), loan.emiAmount, RowCount(loan));
    seq(|ss|, k requires 0 <= k < |ss| =>
      EMIRecord(firstId + k, loan.id, k + 1, PlusMonths(base, k + 1), loan.emiAmount, None,
                ss[k].principal, ss[k].interest, ss[k].remaining, EMIStatus.PENDING))
  }

  /** The sum of the rows' instalment amounts. */
  function SumAmounts(rows: seq<EMIRecord>): real {
    if rows == [] then 0.0 else SumAmounts(rows[..|rows| - 1]) + rows[|rows| - 1].amount
  }

  /** Rows that all carry the same amount add up to that amount times
      their number. */
  lemma {:induction false} LevelAmountsAddUp(rows: seq<EMIRecord>, a: real)
    requires forall k :: 0 <= k < |rows| ==> rows[k].amount == a
    ensures SumAmounts(rows) == TotalPayable(a, |rows|)
  {
    if rows != [] {
      LevelAmountsAddUp(rows[..|rows| - 1], a);
      assert TotalPayable(a, |rows|) == TotalPayable(a, |rows| - 1) + a;
    }
  }

  /** The schedule asks for exactly the total payable amount the
      application computed: the tenure's instalments of the EMI add up to
      the EMI times the tenure. */
  lemma ScheduleAddsUpToTotalPayable(loan: Loan, base: Date, firstId: nat)
    requires loan.tenureMonths >= 0
    ensures SumAmounts(ScheduleFor(loan, base, firstId)) == TotalPayable(loan.emiAmount, loan.tenureMonths)
  {
    LevelAmountsAddUp(ScheduleFor(loan, base, firstId), loan.emiAmount);
  }

  /** The last instalment falls due on the loan's end date once it is approved. */
  lemma LastDueDateIsEndDate(l: Loan, start: Date, admin: string, now: Instant, firstId: nat)
    requires l.tenureMonths >= 1
    requires Approve(l, start, admin, now).Ok?
    ensures var a := Approve(l, start, admin, now).value;
            Some(ScheduleFor(a, a.startDate.value, firstId)[a.tenureMonths - 1].dueDate) == a.endDate
  {
  }

  /** Later rows of a schedule fall due strictly later. */
  lemma DueDatesIncrease(loan: Loan, base: Date, firstId: nat, i: int, j: int)
    requires ValidDate(base)
    requires 0 <= i < j < RowCount(loan)
    ensures IsBefore(ScheduleFor(loan, base, firstId)[i].dueDate, ScheduleFor(loan, base, firstId)[j].dueDate)
  {
    PlusMonthsStrictlyIncreasing(base, i + 1, j + 1);
  }

  /** Rows of one loan whose installment numbers count up from a number no
      earlier row was kept for pass through the cleanup untouched. */
  lemma {:induction false} CountingRowsHaveNoDuplicates(rows: seq<EMIRecord>, loanId: LoanId, number: int,
                                                        lo: int, hi: int, seen: set<int>)
    requires forall k :: 0 <= k < |rows| ==> rows[k].installmentNumber == number + k
    requires forall n :: n in seen ==> n < number
    ensures KeepFirst(rows, loanId, lo, hi, seen) == rows
    decreases |rows|
  {
    if rows != [] {
      CountingRowsHaveNoDuplicates(rows[1..], loanId, number + 1, lo, hi, seen);
      CountingRowsHaveNoDuplicates(rows[1..], loanId, number + 1, lo, hi, seen + {number});
      assert rows == [rows[0]] + rows[1..];
    }
  }

  /** generateEMISchedule followed by saveEMISchedule: after the duplicate
      cleanup, a loan that already has rows is left alone; otherwise its
      schedule, due from the start date (today if there is none), is
      appended with fresh identities. */
  function GenerateAndSave(store: EmiStore, loan: Loan, today: Date): (r: EmiStore)
    ensures var cleaned := CleanupDuplicates(store, loan);
            RecordsOfLoan(cleaned.records, loan.id) != [] ==> r == cleaned
    ensures var cleaned := CleanupDuplicates(store, loan);
            var base := if loan.startDate.Some? then loan.startDate.value else today;
            RecordsOfLoan(cleaned.records, loan.id) == [] ==>
              r.records == cleaned.records + ScheduleFor(loan, base, cleaned.nextId)
              && r.nextId == cleaned.nextId + RowCount(loan)
  {
    var cleaned := CleanupDuplicates(store, loan);
    if RecordsOfLoan(cleaned.records, loan.id) != [] then cleaned
    else
      var base := if loan.startDate.Some? then loan.startDate.value else today;
      var rows := ScheduleFor(loan, base, cleaned.nextId);
      EmiStore(cleaned.records + rows, cleaned.nextId + |rows|)
  }

  /** Generating the schedule twice stores it once. */
  lemma GenerateAndSaveIdempotent(store: EmiStore, loan: Loan, today: Date)
    ensures GenerateAndSave(GenerateAndSave(store, loan, today), loan, today) == GenerateAndSave(store, loan, today)
  {
    var cleaned := CleanupDuplicates(store, loan);
    var once := GenerateAndSave(store, loan, today);
    KeepFirstIdempotent(store.records, loan.id, 1, loan.tenureMonths, {});
    if RecordsOfLoan(cleaned.records, loan.id) == [] {
      var base := if loan.startDate.Some? then loan.startDate.value else today;
      var rows := ScheduleFor(loan, base, cleaned.nextId);
      KeepFirstSkipsOtherPrefix(cleaned.records, rows, loan.id, 1, loan.tenureMonths, {});
      CountingRowsHaveNoDuplicates(rows, loan.id, 1, 1, loan.tenureMonths, {});
      assert CleanupDuplicates(once, loan) == once;
      if rows != [] {
        assert rows[0] in once.records;
      } else {
        assert once.records == cleaned.records;
      }
    }
  }

  /** The split of one month when the rounded interest is known. */
  lemma MonthSplitAt(opening: real, rate: real, emi: real, interest: real)
    requires HasScale(interest, 2)
    requires -0.005 < interest - opening * rate < 0.005
    requires opening - (emi - interest) >= 0.0
    ensures MonthSplit(opening, rate, emi) == Split(interest, emi - interest, opening - (emi - interest))
  {
    assert Scale(2) == 100.0;
    RoundHalfUpUnique(opening * rate, 2, interest);
  }

  /** The first month of a schedule, and the schedule of the months after it. */
  lemma SplitsCons(opening: real, rate: real, emi: real, count: nat)
    requires count > 0
    ensures var ss := Splits(opening, rate, emi, count);
            ss[0] == MonthSplit(opening, rate, emi)
            && ss[1..] == Splits(ss[0].remaining, rate, emi, count - 1)
  {
  }

  /** Prepending the first month to a schedule that follows the rest of a
      chain gives a schedule that follows the whole chain. */
  lemma ShiftRemaining(ss: seq<Split>, bs: seq<real>)
    requires |ss| >= 1 && |bs| == |ss| + 1
    requires ss[0].remaining == bs[1]
    requires forall k :: 1 <= k < |bs| - 1 ==> ss[1..][k - 1].remaining == bs[1..][k]
    ensures forall k :: 1 <= k < |bs| ==> ss[k - 1].remaining == bs[k]
  {
    forall k | 2 <= k < |bs|
      ensures ss[k - 1].remaining == bs[k]
    {
      assert ss[1..][k - 2] == ss[k - 1] && bs[1..][k - 1] == bs[k];
    }
  }

  /** A schedule follows any chain of balances in which each balance is
      what one month leaves of the one before. */
  lemma {:induction false} SplitsFollowChain(bs: seq<real>, rate: real, emi: real)
    requires |bs| >= 1
    requires forall k :: 0 <= k < |bs| - 1 ==> MonthSplit(bs[k], rate, emi).remaining == bs[k + 1]
    ensures forall k :: 1 <= k < |bs| ==> Splits(bs[0], rate, emi, |bs| - 1)[k - 1].remaining == bs[k]
    decreases |bs|
  {
    if |bs| > 1 {
      var tail := bs[1..];
      forall k | 0 <= k < |tail| - 1
        ensures MonthSplit(tail[k], rate, emi).remaining == tail[k + 1]
      {
        assert tail[k] == bs[k + 1] && tail[k + 1] == bs[k + 2];
      }
      SplitsFollowChain(tail, rate, emi);
      SplitsCons(bs[0], rate, emi, |bs| - 1);
      ShiftRemaining(Splits(bs[0], rate, emi, |bs| - 1), bs);
    }
  }

  /** The worked example: 120000 over 12 months at 1% a month with the
      instalment 10661.85. The first month is 1200.00 interest and 9461.85
      principal, and 0.06 of principal is still owed after the last one. */
  lemma PersonalLoanScheduleExample()
    ensures var ss := Splits(120000.0, 0.01, 10661.85, 12);
            ss[0] == Split(1200.0, 9461.85, 110538.15) && ss[11].remaining == 0.06
  {
    var e := 10661.85;
    var bs := [120000.0, 110538.15, 100981.68, 91329.65, 81581.10, 71735.06, 61790.56,
               51746.62, 41602.24, 31356.41, 21008.12, 10556.35, 0.06];
    assert Scale(2) == 100.0;
    MonthSplitAt(120000.0, 0.01, e, 1200.0);
    MonthSplitAt(110538.15, 0.01, e, 1105.38);
    MonthSplitAt(100981.68, 0.01, e, 1009.82);
    MonthSplitAt(91329.65, 0.01, e, 913.30);
    MonthSplitAt(81581.10, 0.01, e, 815.81);
    MonthSplitAt(71735.06, 0.01, e, 717.35);
    MonthSplitAt(61790.56, 0.01, e, 617.91);
    MonthSplitAt(51746.62, 0.01, e, 517.47);
    MonthSplitAt(41602.24, 0.01, e, 416.02);
    MonthSplitAt(31356.41, 0.01, e, 313.56);
    MonthSplitAt(21008.12, 0.01, e, 210.08);
    MonthSplitAt(10556.35, 0.01, e, 105.56);
    SplitsFollowChain(bs, 0.01, e);
  }
}

=== FILE: emi_service.dfy ===
/** EMIServiceImpl.payEMI and getEMISchedule: paying one instalment from
    the loan's linked account, and listing a loan's schedule. */
module EmiService {
  import opened Wrappers
  import opened Dates
  import opened Text
  import opened Users
  import opened Loans
  import opened EmiRecords
  import Ledger
  import opened BankState

  /** A row as it is saved once paid on `today`. */
  function PaidOn(x: EMIRecord, today: Date): (y: EMIRecord)
    ensures y.status == EMIStatus.PAID && y.paymentDate == Some(today)
    ensures y.(status := x.status, paymentDate := x.paymentDate) == x
  {
    x.(status := EMIStatus.PAID, paymentDate := Some(today))
  }

  /** Saving the paid row: the row with identity `id` is replaced by its
      paid version, every other row is kept. */
  function MarkPaid(s: seq<EMIRecord>, id: nat, today: Date): (t: seq<EMIRecord>)
    ensures |t| == |s|
    ensures forall i :: 0 <= i < |s| ==> t[i] == if s[i].id == id then PaidOn(s[i], today) else s[i]
  {
    if s == [] then []
    else [if s[0].id == id then PaidOn(s[0], today) else s[0]] + MarkPaid(s[1..], id, today)
  }

  /** Marking a row paid changes neither its loan nor its installment
      number, so it commutes with the per-installment query. */
  lemma {:induction false} MarkPaidCommutes(s: seq<EMIRecord>, id: nat, today: Date, loanId: LoanId, n: int)
    ensures RecordsOf(MarkPaid(s, id, today), loanId, n) == MarkPaid(RecordsOf(s, loanId, n), id, today)
  {
    if s != [] {
      MarkPaidCommutes(s[1..], id, today, loanId, n);
      assert MarkPaid(s, id, today)[1..] == MarkPaid(s[1..], id, today);
    }
  }

  /** A list without the row leaves it untouched. */
  lemma {:induction false} MarkPaidElsewhere(q: seq<EMIRecord>, id: nat, today: Date)
    requires forall i :: 0 <= i < |q| ==> q[i].id != id
    ensures MarkPaid(q, id, today) == q
  {
  }

  /** Row identities are distinct. */
  predicate DistinctIds(s: seq<EMIRecord>) {
    forall i, j :: 0 <= i < j < |s| ==> s[i].id != s[j].id
  }

  /** The withdrawal's description. */
  function PaymentDescription(loan: Loan, n: int): string {
    "EMI payment for " + Printed(loan.loanAccountNumber) + " (Installment #" + IntToString(n) + ")"
  }

  /** The withdrawal payEMI books for a row of the loan. */
  function PaymentEntry(b: Bank, loan: Loan, row: EMIRecord, n: int, ref: string, millis: nat, now: Instant): Ledger.Transaction
    requires HasLinkedAccount(b, loan)
  {
    var acct := loan.linkedAccount.value;
    Ledger.Transaction(Ledger.TransactionIdAt(millis), acct, Ledger.WITHDRAWAL, row.amount,
                       b.ledger.accounts[acct].balance - row.amount, PaymentDescription(loan, n), ref, now)
  }

  /** The checks of payEMI before any money moves, in the source's order:
      the loan exists, the caller owns it, it is DISBURSED, the installment
      has a row, its first row (the one kept by the duplicate cleanup) is
      not PAID, and the loan has a linked account holding at least the
      instalment. Yields that first row. */
  function PaymentTarget(b: Bank, loanId: LoanId, n: int, user: User): (r: Result<EMIRecord, LoanError>)
    ensures loanId !in b.loans <==> r == Err(LoanNotFound)
    ensures loanId in b.loans ==> (r == Err(Unauthorized) <==> b.loans[loanId].owner != user.id)
    ensures loanId in b.loans && b.loans[loanId].owner == user.id ==>
              (r == Err(NotDisbursed) <==> b.loans[loanId].status != DISBURSED)
    ensures loanId in b.loans && b.loans[loanId].owner == user.id && b.loans[loanId].status == DISBURSED ==>
              (r == Err(EmiRecordNotFound) <==> RecordsOf(b.emis.records, loanId, n) == [])
    ensures loanId in b.loans && b.loans[loanId].owner == user.id && b.loans[loanId].status == DISBURSED ==>
              var rows := RecordsOf(b.emis.records, loanId, n);
              rows != [] ==>
                && (r == Err(AlreadyPaid) <==> rows[0].status == EMIStatus.PAID)
                && (rows[0].status != EMIStatus.PAID ==>
                      (r == Err(NoLinkedAccount) <==> !HasLinkedAccount(b, b.loans[loanId])))
    ensures r.Ok? || r == Err(InsufficientBalance) ==>
              && loanId in b.loans
              && var loan := b.loans[loanId];
                 var rows := RecordsOf(b.emis.records, loanId, n);
                 && loan.owner == user.id && loan.status == DISBURSED && rows != []
                 && rows[0].status != EMIStatus.PAID && HasLinkedAccount(b, loan)
                 && (r == Err(InsufficientBalance) <==>
                       b.ledger.accounts[loan.linkedAccount.value].balance < rows[0].amount)
                 && (r.Ok? ==> r.value == rows[0])
  {
    if loanId !in b.loans then Err(LoanNotFound)
    else
      var loan := b.loans[loanId];
      if loan.owner != user.id then Err(Unauthorized)
      else if loan.status != DISBURSED then Err(NotDisbursed)
      else
        var rows := RecordsOf(b.emis.records, loanId, n);
        if rows == [] then Err(EmiRecordNotFound)
        else if rows[0].status == EMIStatus.PAID then Err(AlreadyPaid)
        else if !HasLinkedAccount(b, loan) then Err(NoLinkedAccount)
        else if b.ledger.accounts[loan.linkedAccount.value].balance < rows[0].amount then Err(InsufficientBalance)
        else Ok(rows[0])
  }

  /** What payEMI saves once the withdrawal has gone through: the
      installment cleaned of duplicates, its kept row PAID on `today`, the
      loan's paid and recovered amounts grown by the instalment and its
      principal part, and the loan CLOSED once none of its rows is PENDING. */
  function Settle(b: Bank, loanId: LoanId, n: int, row: EMIRecord, ledger: Ledger.Ledger, today: Date): (t: Bank)
    requires loanId in b.loans && b.loans[loanId].status == DISBURSED
    requires RecordsOf(b.emis.records, loanId, n) != [] && row == RecordsOf(b.emis.records, loanId, n)[0]
    ensures t.kyc == b.kyc && t.nextLoanId == b.nextLoanId && t.emis.nextId == b.emis.nextId && t.ledger == ledger
    ensures t.loans.Keys == b.loans.Keys
    ensures forall k :: k in b.loans && k != loanId ==> t.loans[k] == b.loans[k]
    ensures var loan := b.loans[loanId];
            && t.loans[loanId].paidAmount == loan.paidAmount + row.amount
            && t.loans[loanId].recoveredAmount == loan.recoveredAmount + row.principalAmount
            && (t.loans[loanId].status == CLOSED <==> CountWithStatus(t.emis.records, loanId, EMIStatus.PENDING) == 0)
            && (t.loans[loanId].status != CLOSED ==> t.loans[loanId].status == DISBURSED)
            && t.loans[loanId].(paidAmount := loan.paidAmount, recoveredAmount := loan.recoveredAmount,
                                status := loan.status) == loan
    ensures RecordsOf(t.emis.records, loanId, n) == [PaidOn(row, today)]
    ensures forall other, m :: other != loanId || m != n ==>
              RecordsOf(t.emis.records, other, m) == MarkPaid(RecordsOf(b.emis.records, other, m), row.id, today)
  {
    var loan := b.loans[loanId];
    var cleaned := CleanupInstallment(b.emis.records, loanId, n);
    var marked := MarkPaid(cleaned, row.id, today);
    MarkPaidCommutes(cleaned, row.id, today, loanId, n);
    forall other, m | other != loanId || m != n
      ensures RecordsOf(marked, other, m) == MarkPaid(RecordsOf(b.emis.records, other, m), row.id, today)
    {
      MarkPaidCommutes(cleaned, row.id, today, other, m);
    }
    var paid := loan.(paidAmount := loan.paidAmount + row.amount,
                      recoveredAmount := loan.recoveredAmount + row.principalAmount);
    var closed := if CountWithStatus(marked, loanId, EMIStatus.PENDING) == 0 then paid.(status := CLOSED) else paid;
    b.(loans := b.loans[loanId := closed], emis := b.emis.(records := marked), ledger := ledger)
  }

  /** payEMI: the checks, then the withdrawal from the linked account, whose
      own failure (a frozen account, say) becomes a payment failure, then
      the settlement. The marking of an overdue row as LATE is overwritten
      by PAID on success and rolled back on failure, so it never shows. */
  function PayEmi(b: Bank, loanId: LoanId, n: int, user: User, today: Date, ref: string, millis: nat, now: Instant): (r: Result<Bank, LoanError>)
    ensures PaymentTarget(b, loanId, n, user).Err? ==> r == Err(PaymentTarget(b, loanId, n, user).error)
    ensures PaymentTarget(b, loanId, n, user).Ok? ==>
              var loan := b.loans[loanId];
              var row := PaymentTarget(b, loanId, n, user).value;
              var w := Ledger.Withdraw(b.ledger, loan.linkedAccount.value, row.amount, PaymentDescription(loan, n), user, ref, millis, now);
              && (w.Err? <==> r.Err?)
              && (w.Err? ==> r == Err(PaymentFailed(w.error)))
              && (r.Ok? ==> r.value == Settle(b, loanId, n, row, w.value, today))
  {
    var row :- PaymentTarget(b, loanId, n, user);
    var loan := b.loans[loanId];
    var w := Ledger.Withdraw(b.ledger, loan.linkedAccount.value, row.amount, PaymentDescription(loan, n), user, ref, millis, now);
    if w.Err? then Err(PaymentFailed(w.error))
    else Ok(Settle(b, loanId, n, row, w.value, today))
  }

  /** When payEMI goes through, in plain terms: the requester's own disbursed
      loan, an unpaid first row for the installment, a linked account the
      requester may debit holding at least the instalment, and a clock
      reading whose transaction id the history does not hold yet. */
  predicate PaymentGoesThrough(b: Bank, loanId: LoanId, n: int, user: User, millis: nat) {
    && loanId in b.loans
    && var loan := b.loans[loanId];
       var rows := RecordsOf(b.emis.records, loanId, n);
       && loan.owner == user.id && loan.status == DISBURSED
       && rows != [] && rows[0].status != EMIStatus.PAID
       && HasLinkedAccount(b, loan)
       && Ledger.ValidateAccountAccess(b.ledger, loan.linkedAccount.value, user).Ok?
       && b.ledger.accounts[loan.linkedAccount.value].balance >= rows[0].amount
       && !Ledger.IdTaken(b.ledger, Ledger.TransactionIdAt(millis))
  }

  /** payEMI succeeds exactly under those conditions. */
  lemma PayEmiSucceedsExactly(b: Bank, loanId: LoanId, n: int, user: User, today: Date, ref: string, millis: nat, now: Instant)
    ensures PayEmi(b, loanId, n, user, today, ref, millis, now).Ok? <==> PaymentGoesThrough(b, loanId, n, user, millis)
  {
  }

  /** A payment books exactly one WITHDRAWAL of the instalment on the
      linked account and touches no other account. */
  lemma PaymentDebitsLinkedAccount(b: Bank, loanId: LoanId, n: int, user: User, today: Date, ref: string, millis: nat, now: Instant)
    requires PaymentGoesThrough(b, loanId, n, user, millis)
    ensures var r := PayEmi(b, loanId, n, user, today, ref, millis, now);
            var loan := b.loans[loanId];
            var row := RecordsOf(b.emis.records, loanId, n)[0];
            r.Ok? && Ledger.PostedOne(b.ledger, r.value.ledger,
                                      loan.linkedAccount.value, -row.amount, PaymentEntry(b, loan, row, n, ref, millis, now))
  {
    PayEmiSucceedsExactly(b, loanId, n, user, today, ref, millis, now);
    var target := PaymentTarget(b, loanId, n, user);
    assert target.Ok?;
    var loan := b.loans[loanId];
    var row := target.value;
    var w := Ledger.Withdraw(b.ledger, loan.linkedAccount.value, row.amount, PaymentDescription(loan, n), user, ref, millis, now);
    assert w.Ok?;
    assert PayEmi(b, loanId, n, user, today, ref, millis, now).value.ledger == w.value;
    WithdrawPostsPayment(b, loan, row, n, user, ref, millis, now);
  }

  /** The loan's paid amount rises by exactly what left the linked account. */
  lemma PaidAmountMatchesDebit(b: Bank, loanId: LoanId, n: int, user: User, today: Date, ref: string, millis: nat, now: Instant)
    requires PaymentGoesThrough(b, loanId, n, user, millis)
    ensures var r := PayEmi(b, loanId, n, user, today, ref, millis, now);
            var acct := b.loans[loanId].linkedAccount.value;
            r.Ok? && r.value.loans[loanId].paidAmount - b.loans[loanId].paidAmount
                     == b.ledger.accounts[acct].balance - r.value.ledger.accounts[acct].balance
  {
    PaymentDebitsLinkedAccount(b, loanId, n, user, today, ref, millis, now);
  }

  /** The withdrawal payEMI asks for books exactly its payment entry. */
  lemma WithdrawPostsPayment(b: Bank, loan: Loan, row: EMIRecord, n: int, user: User, ref: string, millis: nat, now: Instant)
    requires HasLinkedAccount(b, loan)
    requires Ledger.Withdraw(b.ledger, loan.linkedAccount.value, row.amount, PaymentDescription(loan, n), user, ref, millis, now).Ok?
    ensures Ledger.PostedOne(b.ledger,
                             Ledger.Withdraw(b.ledger, loan.linkedAccount.value, row.amount, PaymentDescription(loan, n),
                                             user, ref, millis, now).value,
                             loan.linkedAccount.value, -row.amount, PaymentEntry(b, loan, row, n, ref, millis, now))
  {
  }

  /** A paid installment cannot be paid again: the second attempt finds
      the row PAID, or the loan already CLOSED by the first. */
  lemma SecondPaymentRefused(b: Bank, loanId: LoanId, n: int, user: User, today: Date, ref: string, millis: nat, now: Instant,
                             later: Date, ref2: string, millis2: nat, now2: Instant)
    requires PaymentGoesThrough(b, loanId, n, user, millis)
    ensures var r := PayEmi(b, loanId, n, user, today, ref, millis, now);
            r.Ok? && PayEmi(r.value, loanId, n, user, later, ref2, millis2, now2) in {Err(AlreadyPaid), Err(NotDisbursed)}
  {
    PayEmiSucceedsExactly(b, loanId, n, user, today, ref, millis, now);
    var t := PayEmi(b, loanId, n, user, today, ref, millis, now).value;
    var row := PaymentTarget(b, loanId, n, user).value;
    assert RecordsOf(t.emis.records, loanId, n) == [PaidOn(row, today)];
  }

  /** With distinct row identities, a payment changes the rows of no other
      installment and of no other loan. */
  lemma PaymentTouchesOnlyThatInstallment(b: Bank, loanId: LoanId, n: int, user: User, today: Date, ref: string,
                                          millis: nat, now: Instant, other: LoanId, m: int)
    requires DistinctIds(b.emis.records)
    requires PaymentGoesThrough(b, loanId, n, user, millis)
    requires other != loanId || m != n
    ensures var r := PayEmi(b, loanId, n, user, today, ref, millis, now);
            r.Ok? && RecordsOf(r.value.emis.records, other, m) == RecordsOf(b.emis.records, other, m)
  {
    PayEmiSucceedsExactly(b, loanId, n, user, today, ref, millis, now);
    var row := PaymentTarget(b, loanId, n, user).value;
    var q := RecordsOf(b.emis.records, other, m);
    assert row in RecordsOf(b.emis.records, loanId, n);
    forall i | 0 <= i < |q|
      ensures q[i].id != row.id
    {
      assert q[i] in q;
      var a :| 0 <= a < |b.emis.records| && b.emis.records[a] == q[i];
      var c :| 0 <= c < |b.emis.records| && b.emis.records[c] == row;
      if a != c {
        assert b.emis.records[a].id != b.emis.records[c].id by {
          if a < c {} else {}
        }
      }
    }
    MarkPaidElsewhere(q, row.id, today);
  }

  /** Rows in order of installment number. */
  predicate SortedByInstallment(q: seq<EMIRecord>) {
    forall i, j :: 0 <= i < j < |q| ==> q[i].installmentNumber <= q[j].installmentNumber
  }

  /** Places a row in a sorted list after the rows of lower installment
      numbers and before those of its own. */
  function InsertByInstallment(x: EMIRecord, q: seq<EMIRecord>): (r: seq<EMIRecord>)
    requires SortedByInstallment(q)
    ensures SortedByInstallment(r)
    ensures forall i :: 0 <= i < |r| ==> r[i] == x || r[i] in q
    ensures multiset(r) == multiset(q) + multiset{x}
  {
    if q == [] then [x]
    else if x.installmentNumber <= q[0].installmentNumber then [x] + q
    else
      var rest := InsertByInstallment(x, q[1..]);
      assert q == [q[0]] + q[1..];
      forall i | 0 <= i < |rest|
        ensures q[0].installmentNumber <= rest[i].installmentNumber
      {
        if rest[i] != x {
          var k :| 0 <= k < |q[1..]| && q[1..][k] == rest[i];
          assert q[k + 1] == rest[i];
        }
      }
      [q[0]] + rest
  }

  /** The rows ordered by installment number; rows of equal number keep
      their table order. */
  function SortByInstallment(q: seq<EMIRecord>): (r: seq<EMIRecord>)
    ensures SortedByInstallment(r)
    ensures multiset(r) == multiset(q)
  {
    if q == [] then []
    else
      assert q == [q[0]] + q[1..];
      InsertByInstallment(q[0], SortByInstallment(q[1..]))
  }

  /** Sorting a list that is already in order changes nothing. */
  lemma {:induction false} SortKeepsSorted(q: seq<EMIRecord>)
    requires SortedByInstallment(q)
    ensures SortByInstallment(q) == q
  {
    if q != [] {
      SortKeepsSorted(q[1..]);
      if q[1..] != [] {
        assert q[0].installmentNumber <= q[1].installmentNumber;
      }
    }
  }

  /** getEMISchedule: only the borrower sees the schedule, which is every
      row of the loan, in order of installment number. */
  function GetEmiSchedule(b: Bank, loanId: LoanId, user: User): (r: Result<seq<EMIRecord>, LoanError>)
    ensures loanId !in b.loans <==> r == Err(LoanNotFound)
    ensures loanId in b.loans ==> (r == Err(Unauthorized) <==> b.loans[loanId].owner != user.id)
    ensures loanId in b.loans && b.loans[loanId].owner == user.id ==> r.Ok?
    ensures r.Ok? ==> SortedByInstallment(r.value)
    ensures r.Ok? ==> multiset(r.value) == multiset(RecordsOfLoan(b.emis.records, loanId))
  {
    if loanId !in b.loans then Err(LoanNotFound)
    else if b.loans[loanId].owner != user.id then Err(Unauthorized)
    else Ok(SortByInstallment(RecordsOfLoan(b.emis.records, loanId)))
  }
}

=== FILE: kyc.dfy ===
/** Know-your-customer records (model/kyc/KYC.java) and the rules of
    KYCServiceImpl: submission and resubmission, the admin's verdict, the
    approval query, and the file-name checks made before an upload is
    stored. Writing the files is I/O and is left out; the random UUID that
    prefixes a stored name is an input. */
module Kyc {
  import opened Wrappers
  import opened Dates
  import opened Text
  import opened Users
  import opened Seqs

  datatype KYCStatus = PENDING | APPROVED | REJECTED

  datatype KycRecord = KycRecord(
    id: nat,
    user: UserId,
    status: KYCStatus,
    documentType: string,
    documentNumber: string,
    documentFrontImageUrl: Option<string>,
    documentBackImageUrl: Option<string>,
    selfieImageUrl: Option<string>,
    submittedAt: Instant,
    verifiedAt: Option<Instant>,
    verifiedBy: Option<string>,
    rejectionReason: Option<string>)

  /** The kyc_details table in insertion order, and the next generated id. */
  datatype KycStore = KycStore(records: seq<KycRecord>, nextId: nat)

  /** An uploaded file as the service sees it: whether it is empty, and the
      client's file name (null when the client sent none). */
  datatype Upload = Upload(isEmpty: bool, originalFilename: Option<string>)

  datatype KycRequest = KycRequest(
    documentType: string,
    documentNumber: string,
    documentFrontImage: Option<Upload>,
    documentBackImage: Option<Upload>,
    selfieImage: Option<Upload>)

  datatype KycError =
    | RequiredDocumentsMissing
    | AlreadyApproved
    | FileNullOrEmpty
    | InvalidFileName
    | KycNotFound
    | RejectionReasonRequired

  const UploadPrefix: string := "/uploads/"

  /** saveAndGetFileUrl: a missing or empty file, and a missing name or one
      containing "..", are refused; otherwise the file is stored as
      `uuid_name` and its URL returned. */
  function SaveAndGetFileUrl(file: Option<Upload>, uuid: string): (r: Result<string, KycError>)
    ensures (file.None? || file.value.isEmpty) <==> r == Err(FileNullOrEmpty)
    ensures r == Err(InvalidFileName) <==>
              file.Some? && !file.value.isEmpty
              && (file.value.originalFilename.None? || ContainsDotDot(file.value.originalFilename.value))
    ensures r.Ok? ==> && |r.value| >= |UploadPrefix| && r.value[..|UploadPrefix|] == UploadPrefix
                      && var name := file.value.originalFilename.value;
                         |r.value| >= |name| && r.value[|r.value| - |name|..] == name && !ContainsDotDot(name)
    ensures file.Some? && !file.value.isEmpty && file.value.originalFilename.Some?
            && !ContainsDotDot(file.value.originalFilename.value)
            ==> r == Ok(UploadPrefix + uuid + "_" + file.value.originalFilename.value)
  {
    if file.None? || file.value.isEmpty then Err(FileNullOrEmpty)
    else
      var name := file.value.originalFilename;
      if name.None? || ContainsDotDot(name.value) then Err(InvalidFileName)
      else
        var url := UploadPrefix + uuid + "_" + name.value;
        assert url[|url| - |name.value|..] == name.value;
        Ok(url)
  }

  /** The optional back image: stored when present and not empty, and
      otherwise the URL already on the record is kept. */
  function SaveOptionalFile(file: Option<Upload>, uuid: string, kept: Option<string>): (r: Result<Option<string>, KycError>)
    ensures (file.None? || file.value.isEmpty) ==> r == Ok(kept)
    ensures file.Some? && !file.value.isEmpty ==>
              match SaveAndGetFileUrl(file, uuid)
              case Ok(url) => r == Ok(Some(url))
              case Err(e) => r == Err(e)
  {
    if file.Some? && !file.value.isEmpty then
      var url :- SaveAndGetFileUrl(file, uuid);
      Ok(Some(url))
    else Ok(kept)
  }

  /** findByUser: the user's record, if any. */
  function FindByUser(s: KycStore, user: UserId): Option<nat> {
    FindBy(s.records, (k: KycRecord) => k.user, user)
  }

  /** findById. */
  function FindById(s: KycStore, id: nat): Option<nat> {
    FindBy(s.records, (k: KycRecord) => k.id, id)
  }

  /** The table invariant: at most one record per user (the one-to-one
      join), distinct ids, and every id below the next one to be issued. */
  predicate WellFormed(s: KycStore) {
    && (forall i, j :: 0 <= i < j < |s.records| ==> s.records[i].user != s.records[j].user)
    && (forall i, j :: 0 <= i < j < |s.records| ==> s.records[i].id != s.records[j].id)
    && (forall i :: 0 <= i < |s.records| ==> s.records[i].id < s.nextId)
  }

  /** The back image URL a submission starts from: the one on the user's
      record, or none for a first submission. */
  function KeptBackUrl(s: KycStore, user: UserId): Option<string> {
    var e := FindByUser(s, user);
    if e.Some? then s.records[e.value].documentBackImageUrl else None
  }

  /** A submission that passes the checks before any file is stored: the
      front and selfie images are present and the user's record, if any, is
      not APPROVED. */
  predicate Admissible(s: KycStore, user: UserId, request: Option<KycRequest>) {
    && request.Some? && request.value.documentFrontImage.Some? && request.value.selfieImage.Some?
    && !(FindByUser(s, user).Some? && s.records[FindByUser(s, user).value].status == APPROVED)
  }

  /** submitKYC. A resubmission reuses the user's record, back to PENDING
      with the previous verdict cleared; a first submission creates one. The
      back image is optional and, when absent, a resubmission keeps the URL
      stored before. `uuids` are the three random file-name prefixes. */
  function SubmitKyc(s: KycStore, user: UserId, request: Option<KycRequest>,
                     uuids: (string, string, string), now: Instant): (r: Result<KycStore, KycError>)
    ensures (request.None? || request.value.documentFrontImage.None? || request.value.selfieImage.None?)
              ==> r == Err(RequiredDocumentsMissing)
    ensures request.Some? && request.value.documentFrontImage.Some? && request.value.selfieImage.Some? ==>
              FindByUser(s, user).Some? && s.records[FindByUser(s, user).value].status == APPROVED ==>
              r == Err(AlreadyApproved)
    ensures Admissible(s, user, request) ==>
              var req := request.value;
              var front := SaveAndGetFileUrl(req.documentFrontImage, uuids.0);
              var back := SaveOptionalFile(req.documentBackImage, uuids.1, KeptBackUrl(s, user));
              var selfie := SaveAndGetFileUrl(req.selfieImage, uuids.2);
              && (front.Err? ==> r == Err(front.error))
              && (front.Ok? && back.Err? ==> r == Err(back.error))
              && (front.Ok? && back.Ok? && selfie.Err? ==> r == Err(selfie.error))
              && (front.Ok? && back.Ok? && selfie.Ok? ==> r.Ok?)
    ensures r.Ok? ==> |r.value.records| == |s.records| + (if FindByUser(s, user).Some? then 0 else 1)
    ensures r.Ok? ==> FindByUser(s, user).Some? ==>
              && r.value.records == s.records[FindByUser(s, user).value := r.value.records[FindByUser(s, user).value]]
              && r.value.records[FindByUser(s, user).value].id == s.records[FindByUser(s, user).value].id
              && r.value.nextId == s.nextId
    ensures r.Ok? ==> FindByUser(s, user).None? ==>
              && r.value == KycStore(s.records + [r.value.records[|s.records|]], s.nextId + 1)
              && r.value.records[|s.records|].id == s.nextId
    ensures r.Ok? ==> var k := r.value.records[FindByUser(s, user).GetOr(|s.records|)];
              && k.user == user && k.status == PENDING
              && k.verifiedAt == None && k.verifiedBy == None && k.rejectionReason == None
              && k.documentType == request.value.documentType && k.documentNumber == request.value.documentNumber
              && k.submittedAt == now
              && k.documentFrontImageUrl == Some(SaveAndGetFileUrl(request.value.documentFrontImage, uuids.0).value)
              && k.documentBackImageUrl
                 == SaveOptionalFile(request.value.documentBackImage, uuids.1, KeptBackUrl(s, user)).value
              && k.selfieImageUrl == Some(SaveAndGetFileUrl(request.value.selfieImage, uuids.2).value)
  {
    if request.None? || request.value.documentFrontImage.None? || request.value.selfieImage.None? then
      Err(RequiredDocumentsMissing)
    else
      var req := request.value;
      var existing := FindByUser(s, user);
      if existing.Some? && s.records[existing.value].status == APPROVED then Err(AlreadyApproved)
      else
        var base :=
          if existing.Some? then
            s.records[existing.value].(status := PENDING, rejectionReason := None, verifiedAt := None, verifiedBy := None)
          else
            KycRecord(s.nextId, user, PENDING, "", "", None, None, None, now, None, None, None);
        var front :- SaveAndGetFileUrl(req.documentFrontImage, uuids.0);
        var back :- SaveOptionalFile(req.documentBackImage, uuids.1, base.documentBackImageUrl);
        var selfie :- SaveAndGetFileUrl(req.selfieImage, uuids.2);
        var k := base.(documentType := req.documentType, documentNumber := req.documentNumber, submittedAt := now,
                       documentFrontImageUrl := Some(front), documentBackImageUrl := back,
                       selfieImageUrl := Some(selfie));
        if existing.Some? then Ok(s.(records := s.records[existing.value := k]))
        else Ok(KycStore(s.records + [k], s.nextId + 1))
  }

  /** Submitting keeps the table invariant. */
  lemma SubmitPreservesWellFormed(s: KycStore, user: UserId, request: Option<KycRequest>,
                                  uuids: (string, string, string), now: Instant)
    requires WellFormed(s)
    requires SubmitKyc(s, user, request, uuids, now).Ok?
    ensures WellFormed(SubmitKyc(s, user, request, uuids, now).value)
  {
    var t := SubmitKyc(s, user, request, uuids, now).value;
    var e := FindByUser(s, user);
    if e.None? {
      forall i, j | 0 <= i < j < |t.records|
        ensures t.records[i].user != t.records[j].user && t.records[i].id != t.records[j].id
      {
        assert t.records[i] == s.records[i];
        if j < |s.records| {
          assert t.records[j] == s.records[j];
        }
      }
      forall i | 0 <= i < |t.records|
        ensures t.records[i].id < t.nextId
      {
        if i < |s.records| {
          assert t.records[i] == s.records[i];
        }
      }
    } else {
      var p := e.value;
      forall i, j | 0 <= i < j < |t.records|
        ensures t.records[i].user != t.records[j].user && t.records[i].id != t.records[j].id
      {
        assert t.records[i].user == s.records[i].user && t.records[i].id == s.records[i].id;
        assert t.records[j].user == s.records[j].user && t.records[j].id == s.records[j].id;
      }
      forall i | 0 <= i < |t.records|
        ensures t.records[i].id < t.nextId
      {
        assert t.records[i].id == s.records[i].id;
      }
    }
  }

  /** updateKYCStatus: a rejection needs a reason that is not blank. The
      reason is stored only with a rejection and cleared otherwise; the
      verifier and the time are recorded. */
  function UpdateKycStatus(s: KycStore, kycId: nat, status: KYCStatus, reason: Option<string>,
                           verifiedBy: string, now: Instant): (r: Result<KycStore, KycError>)
    ensures FindById(s, kycId).None? <==> r == Err(KycNotFound)
    ensures FindById(s, kycId).Some? ==>
              (r == Err(RejectionReasonRequired) <==> status == REJECTED && (reason.None? || IsBlank(reason.value)))
    ensures FindById(s, kycId).Some? && !(status == REJECTED && (reason.None? || IsBlank(reason.value))) ==> r.Ok?
    ensures r.Ok? ==> var i := FindById(s, kycId).value;
              && r.value.nextId == s.nextId
              && |r.value.records| == |s.records|
              && (forall k :: 0 <= k < |s.records| && k != i ==> r.value.records[k] == s.records[k])
              && r.value.records[i] == s.records[i].(status := status, verifiedAt := Some(now), verifiedBy := Some(verifiedBy),
                                                    rejectionReason := if status == REJECTED then reason else None)
              && (r.value.records[i].rejectionReason.Some? <==> status == REJECTED)
  {
    var found := FindById(s, kycId);
    if found.None? then Err(KycNotFound)
    else if status == REJECTED && (reason.None? || IsBlank(reason.value)) then Err(RejectionReasonRequired)
    else
      var k := s.records[found.value];
      var k' := k.(status := status, verifiedAt := Some(now), verifiedBy := Some(verifiedBy),
                   rejectionReason := if status == REJECTED then reason else None);
      Ok(s.(records := s.records[found.value := k']))
  }

  /** isKYCApproved: the user has a record and it is APPROVED. */
  predicate IsKycApproved(s: KycStore, user: UserId) {
    var i := FindByUser(s, user);
    i.Some? && s.records[i.value].status == APPROVED
  }

  /** With one record per user, isKYCApproved asks whether some record of
      the user is APPROVED. */
  lemma ApprovedIffApprovedRecord(s: KycStore, user: UserId)
    requires WellFormed(s)
    ensures IsKycApproved(s, user) <==>
              exists i :: 0 <= i < |s.records| && s.records[i].user == user && s.records[i].status == APPROVED
  {
    if i :| 0 <= i < |s.records| && s.records[i].user == user && s.records[i].status == APPROVED {
      var f := FindByUser(s, user);
      assert f.value == i;
    }
  }

  /** Updating a status keeps the table invariant. */
  lemma UpdatePreservesWellFormed(s: KycStore, kycId: nat, status: KYCStatus, reason: Option<string>,
                                  verifiedBy: string, now: Instant)
    requires WellFormed(s)
    requires UpdateKycStatus(s, kycId, status, reason, verifiedBy, now).Ok?
    ensures WellFormed(UpdateKycStatus(s, kycId, status, reason, verifiedBy, now).value)
  {
    var t := UpdateKycStatus(s, kycId, status, reason, verifiedBy, now).value;
    assert forall i :: 0 <= i < |t.records| ==> t.records[i].user == s.records[i].user && t.records[i].id == s.records[i].id;
  }

  /** A successful submission always leaves the user unapproved, until an
      admin approves the record. */
  lemma SubmitRevokesApproval(s: KycStore, user: UserId, request: Option<KycRequest>,
                              uuids: (string, string, string), now: Instant)
    requires WellFormed(s)
    requires SubmitKyc(s, user, request, uuids, now).Ok?
    ensures !IsKycApproved(SubmitKyc(s, user, request, uuids, now).value, user)
  {
    var t := SubmitKyc(s, user, request, uuids, now).value;
    SubmitPreservesWellFormed(s, user, request, uuids, now);
    var pos := FindByUser(s, user).GetOr(|s.records|);
    assert t.records[pos].user == user;
    var f := FindByUser(t, user);
    assert f.value == pos;
  }

  /** Approving a user's record makes isKYCApproved true for that user. */
  lemma ApproveGrantsApproval(s: KycStore, user: UserId, verifiedBy: string, now: Instant)
    requires WellFormed(s)
    requires FindByUser(s, user).Some?
    ensures var k := s.records[FindByUser(s, user).value];
            var r := UpdateKycStatus(s, k.id, APPROVED, None, verifiedBy, now);
            r.Ok? && IsKycApproved(r.value, user)
  {
    var i := FindByUser(s, user).value;
    var k := s.records[i];
    var j := FindById(s, k.id).value;
    assert j == i;
    var t := UpdateKycStatus(s, k.id, APPROVED, None, verifiedBy, now).value;
    UpdatePreservesWellFormed(s, k.id, APPROVED, None, verifiedBy, now);
    assert t.records[i].user == user;
    var f := FindByUser(t, user);
    assert f.value == i;
  }
}

=== FILE: ledger.dfy ===
/** Bank accounts (model/account/Account.java), their transaction history
    and the balance-moving operations of TransactionServiceImpl. Each
    operation is one atomic state change: a failure leaves the ledger as it
    was. Reference numbers, timestamps and the milliseconds that name each
    transaction come from a random generator and the clock in the source;
    here they are inputs. */
module Ledger {
  import opened Wrappers
  import opened Dates
  import opened Users
  import opened Text

  datatype AccountStatus = ACTIVE | INACTIVE | DORMANT | FROZEN | CLOSED

  datatype Account = Account(
    accountNumber: string,
    accountType: string,
    status: AccountStatus,
    balance: real,
    createdAt: Instant,
    updatedAt: Option<Instant>,
    owner: UserId,
    branchCode: string,
    branchName: string,
    ifscCode: Option<string>,
    minimumBalance: Option<real>,
    interestRate: Option<real>,
    allowOverdraft: bool,
    overdraftLimit: Option<real>)

  /** The four types the services write, plus any other constant of the enum. */
  datatype TransactionType =
    | DEPOSIT | WITHDRAWAL | TRANSFER_IN | TRANSFER_OUT
    | OtherTransactionType(name: string)

  datatype Transaction = Transaction(
    transactionId: string,
    accountNumber: string,
    txType: TransactionType,
    amount: real,
    balanceAfter: real,
    description: string,
    referenceNumber: string,
    date: Instant)

  /** The accounts by number (the primary key) and the transaction table in
      insertion order. */
  datatype Ledger = Ledger(accounts: map<string, Account>, transactions: seq<Transaction>)

  datatype TransactionError =
    | AccountNotFound
    | AccountNotFoundOrAccessDenied
    | AccountNotActive
    | InsufficientBalance
    | SameAccount
    | DestinationNotFound
    | DestinationNotActive
    | InvalidAdminTransactionType
    | TransactionIdTaken   // the unique transactionId column refuses the insert

  /** validateAccountAccess: an admin reaches any existing account whatever
      its status; anyone else only an account they own, and only while it is
      ACTIVE. */
  function ValidateAccountAccess(l: Ledger, accountNumber: string, user: User): (r: Result<Account, TransactionError>)
    ensures r.Ok? <==> accountNumber in l.accounts
                       && (IsAdmin(user)
                           || (l.accounts[accountNumber].owner == user.id && l.accounts[accountNumber].status == AccountStatus.ACTIVE))
    ensures r.Ok? ==> r.value == l.accounts[accountNumber]
    ensures r.Err? && IsAdmin(user) ==> r.error == AccountNotFound
    ensures r.Err? && !IsAdmin(user) ==>
              r.error == (if accountNumber in l.accounts && l.accounts[accountNumber].owner == user.id
                          then AccountNotActive else AccountNotFoundOrAccessDenied)
  {
    if IsAdmin(user) then
      if accountNumber in l.accounts then Ok(l.accounts[accountNumber]) else Err(AccountNotFound)
    else if accountNumber in l.accounts && l.accounts[accountNumber].owner == user.id then
      if l.accounts[accountNumber].status != AccountStatus.ACTIVE then Err(AccountNotActive)
      else Ok(l.accounts[accountNumber])
    else Err(AccountNotFoundOrAccessDenied)
  }

  /** The pre-persist hook's transaction id: "TXN" followed by the clock's
      milliseconds in decimal. */
  function TransactionIdAt(millis: nat): (s: string)
    ensures |s| >= 4 && s[..3] == "TXN"
    ensures forall i :: 3 <= i < |s| ==> '0' <= s[i] <= '9'
    ensures DigitsValue(s[3..]) == millis
  {
    NatToStringRoundTrip(millis);
    assert ("TXN" + NatToString(millis))[3..] == NatToString(millis);
    "TXN" + NatToString(millis)
  }

  /** Entries saved in different milliseconds get different ids. */
  lemma TransactionIdsDistinct(m1: nat, m2: nat)
    requires m1 != m2
    ensures TransactionIdAt(m1) != TransactionIdAt(m2)
  {
  }

  /** Two milliseconds give the same id exactly when they are equal. */
  lemma TransactionIdAtInjective(m1: nat, m2: nat)
    ensures TransactionIdAt(m1) == TransactionIdAt(m2) <==> m1 == m2
  {
    if m1 != m2 {
      TransactionIdsDistinct(m1, m2);
    }
  }

  /** Some entry of the history already carries this id. */
  predicate IdTaken(l: Ledger, id: string) {
    exists k :: 0 <= k < |l.transactions| && l.transactions[k].transactionId == id
  }

  /** No two entries of the history share an id, as the unique column keeps it. */
  predicate UniqueIds(txs: seq<Transaction>) {
    forall i, j :: 0 <= i < j < |txs| ==> txs[i].transactionId != txs[j].transactionId
  }

  /** An entry whose id is new keeps the ids unique. */
  lemma AppendFreshKeepsUnique(l: Ledger, tx: Transaction)
    requires !IdTaken(l, tx.transactionId)
    ensures UniqueIds(l.transactions) ==> UniqueIds(l.transactions + [tx])
  {
    var t := l.transactions + [tx];
    if UniqueIds(l.transactions) {
      forall i, j | 0 <= i < j < |t|
        ensures t[i].transactionId != t[j].transactionId
      {
        if j == |t| - 1 {
          assert t[i] == l.transactions[i];
        }
      }
    }
  }

  /** After one more entry, an id is taken when it was before or is that
      entry's. */
  lemma IdTakenAfterAppend(l: Ledger, accounts: map<string, Account>, tx: Transaction, id: string)
    ensures IdTaken(Ledger(accounts, l.transactions + [tx]), id) <==> IdTaken(l, id) || tx.transactionId == id
  {
    var t := l.transactions + [tx];
    if IdTaken(l, id) {
      var k :| 0 <= k < |l.transactions| && l.transactions[k].transactionId == id;
      assert t[k] == l.transactions[k];
    }
    if tx.transactionId == id {
      assert t[|t| - 1] == tx;
    }
    if IdTaken(Ledger(accounts, t), id) {
      var k :| 0 <= k < |t| && t[k].transactionId == id;
      if k < |l.transactions| {
        assert t[k] == l.transactions[k];
      }
    }
  }

  /** Saving one entry after replacing one account's balance; the insert
      fails when the entry's id is already in the history. */
  function Post(l: Ledger, key: string, acc: Account, newBalance: real, tx: Transaction): (r: Result<Ledger, TransactionError>)
    ensures r.Err? <==> IdTaken(l, tx.transactionId)
    ensures r.Err? ==> r.error == TransactionIdTaken
    ensures r.Ok? ==> r.value == Ledger(l.accounts[key := acc.(balance := newBalance)], l.transactions + [tx])
    ensures r.Ok? && UniqueIds(l.transactions) ==> UniqueIds(r.value.transactions)
  {
    if IdTaken(l, tx.transactionId) then Err(TransactionIdTaken)
    else
      AppendFreshKeepsUnique(l, tx);
      Ok(Ledger(l.accounts[key := acc.(balance := newBalance)], l.transactions + [tx]))
  }

  /** The balance of an account after a successful operation differs from
      before only by `delta`, every other account is untouched, and one
      entry is appended to the history. */
  predicate PostedOne(before: Ledger, after: Ledger, accountNumber: string, delta: real, tx: Transaction) {
    && accountNumber in before.accounts
    && after.accounts.Keys == before.accounts.Keys
    && after.accounts[accountNumber] == before.accounts[accountNumber].(balance := before.accounts[accountNumber].balance + delta)
    && (forall n :: n in before.accounts && n != accountNumber ==> after.accounts[n] == before.accounts[n])
    && after.transactions == before.transactions + [tx]
    && tx.accountNumber == accountNumber
    && tx.balanceAfter == after.accounts[accountNumber].balance
  }

  /** TransactionServiceImpl.deposit. */
  function Deposit(l: Ledger, accountNumber: string, amount: real, description: string, user: User,
                   ref: string, millis: nat, now: Instant): (r: Result<Ledger, TransactionError>)
    ensures ValidateAccountAccess(l, accountNumber, user).Err? ==>
              r == Err(ValidateAccountAccess(l, accountNumber, user).error)
    ensures ValidateAccountAccess(l, accountNumber, user).Ok? ==>
              (r == Err(TransactionIdTaken) <==> IdTaken(l, TransactionIdAt(millis)))
    ensures ValidateAccountAccess(l, accountNumber, user).Ok? && !IdTaken(l, TransactionIdAt(millis)) ==> r.Ok?
    ensures r.Ok? ==> PostedOne(l, r.value, accountNumber, amount,
                                Transaction(TransactionIdAt(millis), accountNumber, DEPOSIT, amount,
                                            l.accounts[accountNumber].balance + amount, description, ref, now))
    ensures r.Ok? && UniqueIds(l.transactions) ==> UniqueIds(r.value.transactions)
  {
    var acc :- ValidateAccountAccess(l, accountNumber, user);
    var newBalance := acc.balance + amount;
    Post(l, accountNumber, acc, newBalance,
         Transaction(TransactionIdAt(millis), accountNumber, DEPOSIT, amount, newBalance, description, ref, now))
  }

  /** TransactionServiceImpl.withdraw: no overdraft, whatever the account's
      allowOverdraft flag says. */
  function Withdraw(l: Ledger, accountNumber: string, amount: real, description: string, user: User,
                    ref: string, millis: nat, now: Instant): (r: Result<Ledger, TransactionError>)
    ensures ValidateAccountAccess(l, accountNumber, user).Err? ==>
              r == Err(ValidateAccountAccess(l, accountNumber, user).error)
    ensures ValidateAccountAccess(l, accountNumber, user).Ok? ==>
              (r == Err(InsufficientBalance) <==> l.accounts[accountNumber].balance < amount)
    ensures ValidateAccountAccess(l, accountNumber, user).Ok? && l.accounts[accountNumber].balance >= amount ==>
              (r == Err(TransactionIdTaken) <==> IdTaken(l, TransactionIdAt(millis)))
    ensures (ValidateAccountAccess(l, accountNumber, user).Ok? && l.accounts[accountNumber].balance >= amount
             && !IdTaken(l, TransactionIdAt(millis))) ==> r.Ok?
    ensures r.Ok? ==> PostedOne(l, r.value, accountNumber, -amount,
                                Transaction(TransactionIdAt(millis), accountNumber, WITHDRAWAL, amount,
                                            l.accounts[accountNumber].balance - amount, description, ref, now))
                      && r.value.accounts[accountNumber].balance >= 0.0
    ensures r.Ok? && UniqueIds(l.transactions) ==> UniqueIds(r.value.transactions)
  {
    var acc :- ValidateAccountAccess(l, accountNumber, user);
    if acc.balance < amount then Err(InsufficientBalance)
    else
      var newBalance := acc.balance - amount;
      Post(l, accountNumber, acc, newBalance,
           Transaction(TransactionIdAt(millis), accountNumber, WITHDRAWAL, amount, newBalance, description, ref, now))
  }

  /** A deposit followed by a withdrawal of the same amount, saved in
      another millisecond under an unused id, restores every balance (the
      history keeps both entries). */
  lemma WithdrawUndoesDeposit(l: Ledger, accountNumber: string, amount: real, description: string, user: User,
                              ref1: string, ref2: string, m1: nat, m2: nat, now: Instant)
    requires Deposit(l, accountNumber, amount, description, user, ref1, m1, now).Ok?
    requires l.accounts[accountNumber].balance >= 0.0
    requires m1 != m2 && !IdTaken(l, TransactionIdAt(m2))
    ensures var d := Deposit(l, accountNumber, amount, description, user, ref1, m1, now).value;
            var w := Withdraw(d, accountNumber, amount, description, user, ref2, m2, now);
            w.Ok? && w.value.accounts == l.accounts && |w.value.transactions| == |l.transactions| + 2
  {
    var d := Deposit(l, accountNumber, amount, description, user, ref1, m1, now).value;
    TransactionIdsDistinct(m1, m2);
    assert !IdTaken(d, TransactionIdAt(m2)) by {
      forall k | 0 <= k < |d.transactions|
        ensures d.transactions[k].transactionId != TransactionIdAt(m2)
      {
        if k < |l.transactions| {
          assert d.transactions[k] == l.transactions[k];
        }
      }
    }
    var w := Withdraw(d, accountNumber, amount, description, user, ref2, m2, now).value;
    assert w.accounts[accountNumber] == l.accounts[accountNumber];
    assert w.accounts == l.accounts;
  }

  /** TransactionServiceImpl.transfer: checks, in order, access to the
      source, distinct accounts, the source balance, the destination's
      existence and its AccountStatus.ACTIVE status; then moves the amount and logs a
      TRANSFER_OUT and a TRANSFER_IN under one reference number. */
  function Transfer(l: Ledger, from: string, to: string, amount: real, description: string, user: User,
                    ref: string, millisOut: nat, millisIn: nat, now: Instant): (r: Result<Ledger, TransactionError>)
    ensures ValidateAccountAccess(l, from, user).Err? ==> r == Err(ValidateAccountAccess(l, from, user).error)
    ensures ValidateAccountAccess(l, from, user).Ok? ==>
              && (from == to ==> r == Err(SameAccount))
              && (from != to && l.accounts[from].balance < amount ==> r == Err(InsufficientBalance))
              && (from != to && l.accounts[from].balance >= amount ==>
                    && (to !in l.accounts ==> r == Err(DestinationNotFound))
                    && (to in l.accounts && l.accounts[to].status != AccountStatus.ACTIVE ==> r == Err(DestinationNotActive))
                    && (to in l.accounts && l.accounts[to].status == AccountStatus.ACTIVE ==>
                          && (r == Err(TransactionIdTaken) <==>
                                IdTaken(l, TransactionIdAt(millisOut)) || IdTaken(l, TransactionIdAt(millisIn))
                                || millisOut == millisIn)
                          && (r != Err(TransactionIdTaken) ==> r.Ok?)))
    ensures r.Ok? ==>
              && from in l.accounts && to in l.accounts && from != to
              && r.value.accounts.Keys == l.accounts.Keys
              && r.value.accounts[from] == l.accounts[from].(balance := l.accounts[from].balance - amount)
              && r.value.accounts[to] == l.accounts[to].(balance := l.accounts[to].balance + amount)
              && (forall n :: n in l.accounts && n != from && n != to ==> r.value.accounts[n] == l.accounts[n])
              && r.value.transactions == l.transactions
                   + [Transaction(TransactionIdAt(millisOut), from, TRANSFER_OUT, amount, r.value.accounts[from].balance,
                                  description, ref, now),
                      Transaction(TransactionIdAt(millisIn), to, TRANSFER_IN, amount, r.value.accounts[to].balance,
                                  description, ref, now)]
    ensures r.Ok? && UniqueIds(l.transactions) ==> UniqueIds(r.value.transactions)
  {
    var source :- ValidateAccountAccess(l, from, user);
    if from == to then Err(SameAccount)
    else if source.balance < amount then Err(InsufficientBalance)
    else if to !in l.accounts then Err(DestinationNotFound)
    else if l.accounts[to].status != AccountStatus.ACTIVE then Err(DestinationNotActive)
    else
      var dest := l.accounts[to];
      var fromBalance := source.balance - amount;
      var toBalance := dest.balance + amount;
      var accounts := l.accounts[from := source.(balance := fromBalance)][to := dest.(balance := toBalance)];
      var outgoing := Transaction(TransactionIdAt(millisOut), from, TRANSFER_OUT, amount, fromBalance, description, ref, now);
      var incoming := Transaction(TransactionIdAt(millisIn), to, TRANSFER_IN, amount, toBalance, description, ref, now);
      var afterOut := Ledger(accounts, l.transactions + [outgoing]);
      IdTakenAfterAppend(l, accounts, outgoing, incoming.transactionId);
      TransactionIdAtInjective(millisOut, millisIn);
      if IdTaken(l, outgoing.transactionId) then Err(TransactionIdTaken)
      else if IdTaken(afterOut, incoming.transactionId) then Err(TransactionIdTaken)
      else
        AppendFreshKeepsUnique(l, outgoing);
        AppendFreshKeepsUnique(afterOut, incoming);
        assert afterOut.transactions + [incoming] == l.transactions + [outgoing, incoming];
        Ok(Ledger(accounts, l.transactions + [outgoing, incoming]))
  }

  /** A transfer conserves money: the two balances sum to what they did,
      and the source is never overdrawn. */
  lemma TransferConservesMoney(l: Ledger, from: string, to: string, amount: real, description: string, user: User,
                               ref: string, millisOut: nat, millisIn: nat, now: Instant)
    requires Transfer(l, from, to, amount, description, user, ref, millisOut, millisIn, now).Ok?
    ensures var after := Transfer(l, from, to, amount, description, user, ref, millisOut, millisIn, now).value;
            after.accounts[from].balance + after.accounts[to].balance
              == l.accounts[from].balance + l.accounts[to].balance
            && after.accounts[from].balance >= 0.0
  {
  }

  /** TransactionServiceImpl.processAdminTransaction: the account must exist
      and be AccountStatus.ACTIVE; only a deposit or a withdrawal (with enough balance) is
      accepted. */
  function ProcessAdminTransaction(l: Ledger, accountNumber: string, amount: real, txType: TransactionType,
                                   description: string, ref: string, millis: nat, now: Instant)
    : (r: Result<Ledger, TransactionError>)
    ensures accountNumber !in l.accounts ==> r == Err(AccountNotFound)
    ensures accountNumber in l.accounts && l.accounts[accountNumber].status != AccountStatus.ACTIVE ==> r == Err(AccountNotActive)
    ensures accountNumber in l.accounts && l.accounts[accountNumber].status == AccountStatus.ACTIVE ==>
              && (txType != DEPOSIT && txType != WITHDRAWAL ==> r == Err(InvalidAdminTransactionType))
              && (txType == WITHDRAWAL && l.accounts[accountNumber].balance < amount ==> r == Err(InsufficientBalance))
              && (txType == DEPOSIT || (txType == WITHDRAWAL && l.accounts[accountNumber].balance >= amount) ==>
                    && (r == Err(TransactionIdTaken) <==> IdTaken(l, TransactionIdAt(millis)))
                    && (!IdTaken(l, TransactionIdAt(millis)) ==> r.Ok?))
    ensures r.Ok? && txType == DEPOSIT ==>
              PostedOne(l, r.value, accountNumber, amount,
                        Transaction(TransactionIdAt(millis), accountNumber, DEPOSIT, amount,
                                    l.accounts[accountNumber].balance + amount, description, ref, now))
    ensures r.Ok? && txType == WITHDRAWAL ==>
              PostedOne(l, r.value, accountNumber, -amount,
                        Transaction(TransactionIdAt(millis), accountNumber, WITHDRAWAL, amount,
                                    l.accounts[accountNumber].balance - amount, description, ref, now))
    ensures r.Ok? && UniqueIds(l.transactions) ==> UniqueIds(r.value.transactions)
  {
    if accountNumber !in l.accounts then Err(AccountNotFound)
    else
      var acc := l.accounts[accountNumber];
      if acc.status != AccountStatus.ACTIVE then Err(AccountNotActive)
      else if txType == DEPOSIT then
        var newBalance := acc.balance + amount;
        Post(l, accountNumber, acc, newBalance,
             Transaction(TransactionIdAt(millis), accountNumber, txType, amount, newBalance, description, ref, now))
      else if txType == WITHDRAWAL then
        if acc.balance < amount then Err(InsufficientBalance)
        else
          var newBalance := acc.balance - amount;
          Post(l, accountNumber, acc, newBalance,
               Transaction(TransactionIdAt(millis), accountNumber, txType, amount, newBalance, description, ref, now))
      else Err(InvalidAdminTransactionType)
  }

  /** For an ACTIVE account, an admin deposit or withdrawal has the same
      effect as the customer operation performed by an admin. */
  lemma AdminTransactionAgreesWithCustomerPath(l: Ledger, accountNumber: string, amount: real, description: string,
                                               admin: User, ref: string, millis: nat, now: Instant)
    requires IsAdmin(admin)
    requires accountNumber in l.accounts && l.accounts[accountNumber].status == AccountStatus.ACTIVE
    ensures ProcessAdminTransaction(l, accountNumber, amount, DEPOSIT, description, ref, millis, now)
            == Deposit(l, accountNumber, amount, description, admin, ref, millis, now)
    ensures ProcessAdminTransaction(l, accountNumber, amount, WITHDRAWAL, description, ref, millis, now)
            == Withdraw(l, accountNumber, amount, description, admin, ref, millis, now)
  {
  }
}

=== FILE: loan.dfy ===
/** The Loan entity (model/loan/Loan.java) and its own business methods:
    field defaults, the loan-account-number hook run before the first save,
    `approve` and `reject`. */
module Loans {
  import opened Wrappers
  import opened Dates
  import opened Text
  import Users

  type LoanId = nat

  datatype LoanStatus = PENDING | APPROVED | DISBURSED | REJECTED | CLOSED | DEFAULTED

  /** The five named loan types, plus any other constant of the enum. */
  datatype LoanType =
    | HOME_LOAN | CAR_LOAN | PERSONAL_LOAN | EDUCATION_LOAN | BUSINESS_LOAN
    | OtherLoanType(name: string)

  datatype Loan = Loan(
    id: LoanId,
    loanAccountNumber: Option<string>,
    owner: Users.UserId,
    linkedAccount: Option<string>,
    loanType: LoanType,
    loanAmount: real,
    interestRate: real,
    tenureMonths: int,
    startDate: Option<Date>,
    endDate: Option<Date>,
    status: LoanStatus,
    emiAmount: real,
    totalPayableAmount: real,
    recoveredAmount: real,
    paidAmount: real,
    rejectionReason: Option<string>,
    approvedBy: Option<string>,
    approvedAt: Option<Instant>,
    createdAt: Instant)

  /** The exception thrown by `approve`/`reject` on a loan that is not pending. */
  datatype LoanStateError = IllegalState(message: string)

  /** `new Loan()` followed by the setters of LoanServiceImpl.createLoan:
      the fields with defaults start as PENDING, zero paid and zero recovered,
      and no dates, decision or account number are set yet. */
  function NewLoan(
    id: LoanId, owner: Users.UserId, account: string, loanType: LoanType,
    amount: real, rate: real, tenure: int, emi: real, total: real, now: Instant): (l: Loan)
    ensures l.status == PENDING && l.paidAmount == 0.0 && l.recoveredAmount == 0.0
    ensures l.startDate == None && l.endDate == None && l.loanAccountNumber == None
    ensures l.approvedBy == None && l.approvedAt == None && l.rejectionReason == None
    ensures l.id == id && l.owner == owner && l.linkedAccount == Some(account)
    ensures l.loanAmount == amount && l.tenureMonths == tenure && l.emiAmount == emi
  {
    Loan(id, None, owner, Some(account), loanType, amount, rate, tenure, None, None,
         PENDING, emi, total, 0.0, 0.0, None, None, None, now)
  }

  /** The account number "LN" + currentTimeMillis, as the pre-persist hook writes it. */
  function LoanAccountNumberAt(millis: nat): (s: string)
    ensures |s| >= 3 && s[..2] == "LN"
    ensures forall i :: 2 <= i < |s| ==> '0' <= s[i] <= '9'
    ensures DigitsValue(s[2..]) == millis
  {
    NatToStringRoundTrip(millis);
    assert ("LN" + NatToString(millis))[2..] == NatToString(millis);
    "LN" + NatToString(millis)
  }

  /** The rest of the number is the instant in decimal, so loans numbered
      at different instants get different numbers. */
  lemma LoanAccountNumbersDistinct(m1: nat, m2: nat)
    requires m1 != m2
    ensures LoanAccountNumberAt(m1) != LoanAccountNumberAt(m2)
  {
  }

  /** The pre-persist hook: a number is assigned only while none is set. */
  function GenerateLoanAccountNumber(l: Loan, millis: nat): (r: Loan)
    ensures r.loanAccountNumber.Some?
    ensures l.loanAccountNumber.Some? ==> r == l
    ensures l.loanAccountNumber.None? ==> r == l.(loanAccountNumber := Some(LoanAccountNumberAt(millis)))
  {
    if l.loanAccountNumber.None? then l.(loanAccountNumber := Some(LoanAccountNumberAt(millis))) else l
  }

  /** Loan.approve: only a pending loan can be approved. The loan passes
      through APPROVED and is left DISBURSED in the same call, with the start
      date, the end date `tenureMonths` months later, the approver and the
      decision time recorded. */
  function Approve(l: Loan, startDate: Date, approvedBy: string, now: Instant): (r: Result<Loan, LoanStateError>)
    ensures l.status != PENDING <==> r.Err?
    ensures r.Ok? ==> r.value.status == DISBURSED
    ensures r.Ok? ==> r.value.startDate == Some(startDate)
    ensures r.Ok? ==> r.value.endDate == Some(PlusMonths(startDate, l.tenureMonths))
    ensures r.Ok? ==> r.value.approvedBy == Some(approvedBy) && r.value.approvedAt == Some(now)
    ensures r.Ok? ==> r.value.(status := l.status, startDate := l.startDate, endDate := l.endDate,
                               approvedBy := l.approvedBy, approvedAt := l.approvedAt) == l
  {
    if l.status != PENDING then Err(IllegalState("Only pending loans can be approved"))
    else
      var approved := l.(status := APPROVED, startDate := Some(startDate),
                         endDate := Some(PlusMonths(startDate, l.tenureMonths)),
                         approvedBy := Some(approvedBy), approvedAt := Some(now));
      Ok(approved.(status := DISBURSED))
  }

  /** Loan.reject: only a pending loan can be rejected; the reason (possibly
      null), the deciding admin and the decision time are recorded. */
  function Reject(l: Loan, reason: Option<string>, approvedBy: string, now: Instant): (r: Result<Loan, LoanStateError>)
    ensures l.status != PENDING <==> r.Err?
    ensures r.Ok? ==> r.value.status == REJECTED && r.value.rejectionReason == reason
    ensures r.Ok? ==> r.value.approvedBy == Some(approvedBy) && r.value.approvedAt == Some(now)
    ensures r.Ok? ==> r.value.(status := l.status, rejectionReason := l.rejectionReason,
                               approvedBy := l.approvedBy, approvedAt := l.approvedAt) == l
  {
    if l.status != PENDING then Err(IllegalState("Only pending loans can be rejected"))
    else Ok(l.(status := REJECTED, rejectionReason := reason,
               approvedBy := Some(approvedBy), approvedAt := Some(now)))
  }

  /** A loan that blocks a new application: pending, approved or disbursed. */
  predicate IsActive(l: Loan) {
    l.status == PENDING || l.status == APPROVED || l.status == DISBURSED
  }

  /** Approval and rejection are final: neither can be applied to a loan
      that either of them has already decided. */
  lemma DecisionsAreFinal(l: Loan, d: Date, admin: string, reason: Option<string>, now: Instant)
    ensures Approve(l, d, admin, now).Ok? ==> Approve(Approve(l, d, admin, now).value, d, admin, now).Err?
    ensures Approve(l, d, admin, now).Ok? ==> Reject(Approve(l, d, admin, now).value, reason, admin, now).Err?
    ensures Reject(l, reason, admin, now).Ok? ==> Approve(Reject(l, reason, admin, now).value, d, admin, now).Err?
  {
  }
}

=== FILE: loan_calc.dfy ===
/** The pricing of a loan request in LoanServiceImpl: the interest rate by
    loan type, the EMI by the reducing-balance annuity formula, and the
    total payable amount. */
module LoanCalc {
  import opened Wrappers
  import opened Decimal
  import opened Loans

  /** BigDecimal.pow throws "Invalid operation" for any exponent above this. */
  const MaxPowExponent: int := 999999999

  /** Integer.MAX_VALUE: the largest scale a BigDecimal can carry. */
  const MaxScale: int := 2147483647

  /** The scale of the factor base `ONE.add(monthlyRate)`: the ten places
      the monthly rate is divided to. */
  const FactorScale: int := 10

  /** BigDecimal.pow's own checks on the exponent: it lies in 0..999999999,
      and the result's scale, the base's scale times the exponent, fits in
      an int (a larger one throws "Underflow"). */
  predicate PowAccepts(tenure: int) {
    0 <= tenure <= MaxPowExponent && FactorScale * tenure <= MaxScale
  }

  /** Annual interest rate in percent by loan type, any other type at 10.0. */
  function InterestRate(t: LoanType): (rate: real)
    ensures 7.5 <= rate <= 12.0
  {
    match t
    case HOME_LOAN => 8.5
    case CAR_LOAN => 9.5
    case PERSONAL_LOAN => 12.0
    case EDUCATION_LOAN => 7.5
    case BUSINESS_LOAN => 11.0
    case OtherLoanType(_) => 10.0
  }

  /** `rate.divide(1200, 10, HALF_UP)`: the monthly rate as a fraction,
      rounded to ten decimal places. */
  function MonthlyRate(rate: real): (r: real)
    ensures HasScale(r, 10)
    ensures -0.5 <= (r - rate / 1200.0) * Scale(10) <= 0.5
    ensures IsHalfUp(rate / 1200.0, 10, r)
  {
    RoundHalfUp(rate / 1200.0, 10)
  }

  /** Every rate of the table gives a positive monthly rate. */
  lemma MonthlyRateOfTablePositive(t: LoanType)
    ensures MonthlyRate(InterestRate(t)) > 0.0
  {
    var rate := InterestRate(t);
    var r := MonthlyRate(rate);
    assert Scale(10) == 10000000000.0;
    assert r * 10000000000.0 >= (rate / 1200.0) * 10000000000.0 - 0.5;
  }

  datatype ArithmeticError = PowExponentOutOfRange | ScaleUnderflow | DivisionByZero

  /** The exact annuity payment P·r·(1+r)^n / ((1+r)^n − 1). */
  function Annuity(principal: real, r: real, n: nat): real
    requires Pow(1.0 + r, n) != 1.0
  {
    principal * r * Pow(1.0 + r, n) / (Pow(1.0 + r, n) - 1.0)
  }

  /** LoanServiceImpl.calculateEMI: the annuity payment on the rounded
      monthly rate, rounded half-up to two places. The exponent must lie in
      pow's range and give a scale that fits in an int, and the division
      fails on a zero denominator. */
  function CalculateEMI(principal: real, rate: real, tenure: int): (emi: Result<real, ArithmeticError>)
    ensures (tenure < 0 || tenure > MaxPowExponent) ==> emi == Err(PowExponentOutOfRange)
    ensures 0 <= tenure <= MaxPowExponent && FactorScale * tenure > MaxScale ==> emi == Err(ScaleUnderflow)
    ensures PowAccepts(tenure) && Pow(1.0 + MonthlyRate(rate), tenure) == 1.0 ==> emi == Err(DivisionByZero)
    ensures PowAccepts(tenure) && Pow(1.0 + MonthlyRate(rate), tenure) != 1.0 ==> emi.Ok?
    ensures emi.Ok? ==> PowAccepts(tenure)
    ensures emi.Ok? ==> HasScale(emi.value, 2)
    ensures emi.Ok? ==> -0.5 <= emi.value * 100.0 - Annuity(principal, MonthlyRate(rate), tenure) * 100.0 <= 0.5
    ensures emi.Ok? ==> IsHalfUp(Annuity(principal, MonthlyRate(rate), tenure), 2, emi.value)
  {
    if tenure < 0 || tenure > MaxPowExponent then Err(PowExponentOutOfRange)
    else if FactorScale * tenure > MaxScale then Err(ScaleUnderflow)
    else
      var r := MonthlyRate(rate);
      var factor := Pow(1.0 + r, tenure);
      if factor - 1.0 == 0.0 then Err(DivisionByZero)
      else
        var exact := Annuity(principal, r, tenure);
        assert Scale(2) == 100.0;
        Ok(RoundHalfUp(exact, 2))
  }

  /** The total payable amount: the EMI times the tenure. */
  function TotalPayable(emi: real, tenure: int): real {
    emi * tenure as real
  }

  /** For a table rate and a positive tenure BigDecimal.pow accepts, the
      EMI exists. */
  lemma CalculateEMIDefined(principal: real, t: LoanType, tenure: int)
    requires 1 <= tenure && PowAccepts(tenure)
    ensures CalculateEMI(principal, InterestRate(t), tenure).Ok?
  {
    MonthlyRateOfTablePositive(t);
    PowAboveOne(1.0 + MonthlyRate(InterestRate(t)), tenure);
  }

  /** The balance after `k` months when every month first accrues interest
      at the exact rate `r` and then receives the payment `a`. */
  function ExactBalance(principal: real, r: real, a: real, k: nat): real {
    if k == 0 then principal else ExactBalance(principal, r, a, k - 1) * (1.0 + r) - a
  }

  /** The closed form of the balance: r·b = r·P·f − a·(f − 1), for the
      balance b after the months that grew the principal by the factor f. */
  predicate ClosedForm(principal: real, r: real, a: real, b: real, f: real) {
    r * b == r * principal * f - a * (f - 1.0)
  }

  /** r·B_k = r·P·(1+r)^k − a·((1+r)^k − 1). */
  lemma {:induction false} ExactBalanceClosedForm(principal: real, r: real, a: real, k: nat)
    ensures ClosedForm(principal, r, a, ExactBalance(principal, r, a, k), Pow(1.0 + r, k))
  {
    if k > 0 {
      ExactBalanceClosedForm(principal, r, a, k - 1);
      ClosedFormStep(principal, r, a, ExactBalance(principal, r, a, k - 1), Pow(1.0 + r, k - 1));
    }
  }

  /** One month keeps the closed form: the balance b·(1+r) − a after one
      more month satisfies it with the factor (1+r)·f. */
  lemma ClosedFormStep(principal: real, r: real, a: real, b: real, f: real)
    requires ClosedForm(principal, r, a, b, f)
    ensures ClosedForm(principal, r, a, b * (1.0 + r) - a, (1.0 + r) * f)
  {
    calc {
      r * (b * (1.0 + r) - a);
      (r * b) * (1.0 + r) - r * a;
      (r * principal * f - a * (f - 1.0)) * (1.0 + r) - r * a;
      (r * principal * f) * (1.0 + r) - a * (f - 1.0) * (1.0 + r) - r * a;
      r * principal * ((1.0 + r) * f) - a * ((f - 1.0) * (1.0 + r) + r);
      r * principal * ((1.0 + r) * f) - a * ((1.0 + r) * f - 1.0);
    }
  }

  /** The annuity formula is the level payment that repays the principal
      exactly: paying it for `n` months at the exact rate leaves nothing. */
  lemma AnnuityRepaysPrincipal(principal: real, r: real, n: nat)
    requires r > 0.0 && n >= 1
    ensures Pow(1.0 + r, n) > 1.0
    ensures ExactBalance(principal, r, Annuity(principal, r, n), n) == 0.0
  {
    PowAboveOne(1.0 + r, n);
    var f := Pow(1.0 + r, n);
    var a := Annuity(principal, r, n);
    assert a * (f - 1.0) == principal * r * f;
    ExactBalanceClosedForm(principal, r, a, n);
    assert r * ExactBalance(principal, r, a, n) == 0.0;
  }

  /** Worked example: 120000 as a personal loan over 12 months. */
  lemma PersonalLoanExample()
    ensures MonthlyRate(InterestRate(PERSONAL_LOAN)) == 0.01
    ensures CalculateEMI(120000.0, InterestRate(PERSONAL_LOAN), 12) == Ok(10661.85)
    ensures 10661.85 * 12 as real == 127942.20
  {
    assert Scale(10) == 10000000000.0;
    assert HasScale(0.01, 10);
    RoundHalfUpFixesScaled(0.01, 10);
    assert MonthlyRate(12.0) == 0.01;
    var f := Pow(1.01, 12);
    assert f == 1.126825030131969720661201;
    var exact := Annuity(120000.0, 0.01, 12);
    assert exact == 1200.0 * f / (f - 1.0);
    assert 10661.845 * (f - 1.0) < 1200.0 * f < 10661.855 * (f - 1.0);
    QuotientBetween(1200.0 * f, f - 1.0, 10661.845, 10661.855);
    assert Scale(2) == 100.0;
    assert HasScale(10661.85, 2);
    RoundHalfUpUnique(exact, 2, 10661.85);
  }

  /** The scale check refuses tenures far below pow's own exponent limit:
      from 214748365 months on, whatever the principal and the rate. */
  lemma ScaleLimitExample(principal: real, rate: real)
    ensures CalculateEMI(principal, rate, 214748365) == Err(ScaleUnderflow)
    ensures CalculateEMI(principal, rate, 300000000) == Err(ScaleUnderflow)
    ensures !PowAccepts(214748365) && PowAccepts(214748364)
  {
  }

  lemma QuotientBetween(n: real, d: real, lo: real, hi: real)
    requires d > 0.0 && lo * d < n < hi * d
    ensures lo < n / d < hi
  {
  }
}

=== FILE: loan_service.dfy ===
/** LoanServiceImpl: applying for a loan, the admin's approval (which
    disburses the loan and lays down its EMI schedule) and rejection, and
    the borrower's views of a loan. */
module LoanService {
  import opened Wrappers
  import opened Dates
  import opened Users
  import opened Loans
  import opened LoanCalc
  import opened EmiRecords
  import opened EmiSchedule
  import Ledger
  import Kyc
  import opened BankState
  import EmiService

  /** The request body; every field may be null. */
  datatype LoanRequest = LoanRequest(
    loanType: Option<LoanType>,
    loanAmount: Option<real>,
    tenureMonths: Option<int>,
    accountNumber: Option<string>)

  /** A request that passed validation. */
  datatype ValidRequest = ValidRequest(loanType: LoanType, amount: real, tenure: int, accountNumber: string)

  /** Why an application failed. applyForLoan wraps every one of these in
      a LoanException "Failed to apply for loan: ...". */
  datatype ApplyProblem =
    | RequestMissing
    | AmountNotPositive
    | TenureNotPositive
    | AccountNumberRequired
    | LoanTypeRequired
    | ActiveLoanExists
    | AccountNotOwned
    | KycNotApproved
    | CalculationFailed(cause: ArithmeticError)
    | LoanAccountNumberTaken   // the unique loan account number column refuses the insert

  /** validateLoanRequest, its checks in order. */
  function ValidateLoanRequest(request: Option<LoanRequest>): (r: Result<ValidRequest, ApplyProblem>)
    ensures request.None? <==> r == Err(RequestMissing)
    ensures request.Some? ==>
              var q := request.value;
              && (r == Err(AmountNotPositive) <==> q.loanAmount.None? || q.loanAmount.value <= 0.0)
              && (q.loanAmount.Some? && q.loanAmount.value > 0.0 ==>
                    (r == Err(TenureNotPositive) <==> q.tenureMonths.None? || q.tenureMonths.value <= 0))
              && (q.loanAmount.Some? && q.loanAmount.value > 0.0 && q.tenureMonths.Some? && q.tenureMonths.value > 0 ==>
                    && (r == Err(AccountNumberRequired) <==> q.accountNumber.None? || Text.TrimIsEmpty(q.accountNumber.value))
                    && (q.accountNumber.Some? && !Text.TrimIsEmpty(q.accountNumber.value) ==>
                          (r == Err(LoanTypeRequired) <==> q.loanType.None?)))
    ensures request.Some? ==>
              var q := request.value;
              q.loanAmount.Some? && q.loanAmount.value > 0.0 && q.tenureMonths.Some? && q.tenureMonths.value > 0
              && q.accountNumber.Some? && !Text.TrimIsEmpty(q.accountNumber.value) && q.loanType.Some?
              ==> r.Ok?
    ensures r.Ok? ==>
              && request.Some?
              && r.value == ValidRequest(request.value.loanType.value, request.value.loanAmount.value,
                                         request.value.tenureMonths.value, request.value.accountNumber.value)
              && r.value.amount > 0.0 && r.value.tenure > 0
  {
    if request.None? then Err(RequestMissing)
    else
      var q := request.value;
      if q.loanAmount.None? || q.loanAmount.value <= 0.0 then Err(AmountNotPositive)
      else if q.tenureMonths.None? || q.tenureMonths.value <= 0 then Err(TenureNotPositive)
      else if q.accountNumber.None? || Text.TrimIsEmpty(q.accountNumber.value) then Err(AccountNumberRequired)
      else if q.loanType.None? then Err(LoanTypeRequired)
      else Ok(ValidRequest(q.loanType.value, q.loanAmount.value, q.tenureMonths.value, q.accountNumber.value))
  }

  /** existsByUserAndStatusIn(PENDING, APPROVED, DISBURSED). */
  predicate HasActiveLoan(b: Bank, user: UserId) {
    exists id :: id in b.loans && b.loans[id].owner == user && IsActive(b.loans[id])
  }

  /** findByAccountNumberAndUser finds the account. */
  predicate OwnsAccount(b: Bank, accountNumber: string, user: UserId) {
    accountNumber in b.ledger.accounts && b.ledger.accounts[accountNumber].owner == user
  }

  /** Some stored loan already carries this loan account number. */
  predicate LoanNumberTaken(b: Bank, number: string) {
    exists id :: id in b.loans && b.loans[id].loanAccountNumber == Some(number)
  }

  /** The figures calculateLoanDetails produces. */
  datatype LoanFigures = LoanFigures(interestRate: real, emi: real, totalPayable: real)

  /** calculateLoanDetails: the rate of the loan type, the rounded EMI, and
      the EMI times the tenure as the total payable. */
  function CalculateLoanDetails(v: ValidRequest): (r: Result<LoanFigures, ArithmeticError>)
    ensures CalculateEMI(v.amount, InterestRate(v.loanType), v.tenure).Err? <==> r.Err?
    ensures r.Ok? ==>
              && r.value.interestRate == InterestRate(v.loanType)
              && 7.5 <= r.value.interestRate <= 12.0
              && r.value.emi == CalculateEMI(v.amount, r.value.interestRate, v.tenure).value
              && Decimal.HasScale(r.value.emi, 2)
              && r.value.totalPayable == TotalPayable(r.value.emi, v.tenure)
  {
    var rate := InterestRate(v.loanType);
    var emi := CalculateEMI(v.amount, rate, v.tenure);
    if emi.Err? then Err(emi.error)
    else Ok(LoanFigures(rate, emi.value, TotalPayable(emi.value, v.tenure)))
  }

  /** The checks of applyForLoan after validation, in order: no active loan
      of the user, the account is the user's, the user's KYC is approved,
      the EMI can be computed. Yields the request and its figures. */
  function ApplicationFigures(b: Bank, request: Option<LoanRequest>, user: User)
    : (r: Result<(ValidRequest, LoanFigures), ApplyProblem>)
    ensures ValidateLoanRequest(request).Err? ==> r == Err(ValidateLoanRequest(request).error)
    ensures ValidateLoanRequest(request).Ok? ==>
              var v := ValidateLoanRequest(request).value;
              && (r == Err(ActiveLoanExists) <==> HasActiveLoan(b, user.id))
              && (!HasActiveLoan(b, user.id) ==>
                    && (r == Err(AccountNotOwned) <==> !OwnsAccount(b, v.accountNumber, user.id))
                    && (OwnsAccount(b, v.accountNumber, user.id) ==>
                          && (r == Err(KycNotApproved) <==> !Kyc.IsKycApproved(b.kyc, user.id))
                          && (Kyc.IsKycApproved(b.kyc, user.id) ==>
                                (r.Err? <==> CalculateLoanDetails(v).Err?)
                                && (r.Err? ==> r.error == CalculationFailed(CalculateLoanDetails(v).error)))))
    ensures r.Ok? ==>
              && ValidateLoanRequest(request).Ok?
              && r.value.0 == ValidateLoanRequest(request).value
              && CalculateLoanDetails(r.value.0).Ok?
              && r.value.1 == CalculateLoanDetails(r.value.0).value
              && !HasActiveLoan(b, user.id)
              && OwnsAccount(b, r.value.0.accountNumber, user.id)
              && Kyc.IsKycApproved(b.kyc, user.id)
  {
    var v :- ValidateLoanRequest(request);
    if HasActiveLoan(b, user.id) then Err(ActiveLoanExists)
    else if !OwnsAccount(b, v.accountNumber, user.id) then Err(AccountNotOwned)
    else if !Kyc.IsKycApproved(b.kyc, user.id) then Err(KycNotApproved)
    else
      var f := CalculateLoanDetails(v);
      if f.Err? then Err(CalculationFailed(f.error))
      else Ok((v, f.value))
  }

  /** applyForLoan: the checks, then the loan stored PENDING under the next
      id with the account number "LN" + the clock's milliseconds, unless
      that number is already taken. Nothing else changes. */
  function ApplyForLoan(b: Bank, request: Option<LoanRequest>, user: User, millis: nat, now: Instant)
    : (r: Result<Bank, ApplyProblem>)
    ensures ApplicationFigures(b, request, user).Err? ==> r == Err(ApplicationFigures(b, request, user).error)
    ensures ApplicationFigures(b, request, user).Ok? ==>
              (r == Err(LoanAccountNumberTaken) <==> LoanNumberTaken(b, LoanAccountNumberAt(millis)))
    ensures ApplicationFigures(b, request, user).Ok? && !LoanNumberTaken(b, LoanAccountNumberAt(millis)) ==> r.Ok?
    ensures r.Ok? ==>
              && ApplicationFigures(b, request, user).Ok?
              && r.value.loans.Keys == b.loans.Keys + {b.nextLoanId}
              && (forall id :: id in b.loans && id != b.nextLoanId ==> r.value.loans[id] == b.loans[id])
              && r.value.nextLoanId == b.nextLoanId + 1
              && r.value.emis == b.emis && r.value.ledger == b.ledger && r.value.kyc == b.kyc
    ensures r.Ok? ==>
              var (v, f) := ApplicationFigures(b, request, user).value;
              var loan := r.value.loans[b.nextLoanId];
              && loan.id == b.nextLoanId && loan.owner == user.id && loan.status == LoanStatus.PENDING
              && loan.linkedAccount == Some(v.accountNumber) && loan.loanType == v.loanType
              && loan.loanAmount == v.amount && loan.tenureMonths == v.tenure
              && loan.interestRate == f.interestRate && loan.emiAmount == f.emi
              && loan.totalPayableAmount == f.totalPayable
              && loan.loanAccountNumber == Some(LoanAccountNumberAt(millis))
              && loan.startDate == None && loan.endDate == None
              && loan.paidAmount == 0.0 && loan.recoveredAmount == 0.0 && loan.createdAt == now
  {
    var (v, f) :- ApplicationFigures(b, request, user);
    var loan := NewLoan(b.nextLoanId, user.id, v.accountNumber, v.loanType, v.amount,
                        f.interestRate, v.tenure, f.emi, f.totalPayable, now);
    var stored := GenerateLoanAccountNumber(loan, millis);
    if LoanNumberTaken(b, stored.loanAccountNumber.value) then Err(LoanAccountNumberTaken)
    else Ok(b.(loans := b.loans[b.nextLoanId := stored], nextLoanId := b.nextLoanId + 1))
  }

  /** getLoanDetails: only the borrower sees the loan. */
  function GetLoanDetails(b: Bank, loanId: LoanId, user: User): (r: Result<Loan, LoanError>)
    ensures loanId !in b.loans <==> r == Err(LoanNotFound)
    ensures loanId in b.loans ==> (r == Err(Unauthorized) <==> b.loans[loanId].owner != user.id)
    ensures r.Ok? ==> r.value == b.loans[loanId] && r.value.owner == user.id
    ensures loanId in b.loans && b.loans[loanId].owner == user.id ==> r == Ok(b.loans[loanId])
  {
    if loanId !in b.loans then Err(LoanNotFound)
    else if b.loans[loanId].owner != user.id then Err(Unauthorized)
    else Ok(b.loans[loanId])
  }

  /** The EMI rows approveLoan leaves: after the duplicate cleanup, a loan
      without rows gets its schedule generated and saved; a loan that has
      rows keeps them, each of its installments with more than one row
      being cleaned up once more. */
  function ApprovalRows(emis: EmiStore, loan: Loan, approved: Loan, today: Date): EmiStore {
    var cleaned := CleanupDuplicates(emis, loan);
    var existing := RecordsOfLoan(cleaned.records, loan.id);
    if existing == [] then GenerateAndSave(cleaned, approved, today)
    else cleaned.(records := CleanupEach(cleaned.records, loan.id, InstallmentNumbers(existing)))
  }

  /** approveLoan: a pending loan is approved today by the admin (and so
      disbursed), and its EMI rows are laid down. Only that loan and the EMI
      table change. */
  function ApproveLoan(b: Bank, loanId: LoanId, admin: User, today: Date, now: Instant): (r: Result<Bank, LoanError>)
    ensures loanId !in b.loans <==> r == Err(LoanNotFound)
    ensures loanId in b.loans ==> (r == Err(NotPending) <==> b.loans[loanId].status != LoanStatus.PENDING)
    ensures loanId in b.loans && b.loans[loanId].status == LoanStatus.PENDING ==> r.Ok?
    ensures r.Ok? ==> loanId in b.loans && r.value.loans.Keys == b.loans.Keys
    ensures r.Ok? ==> r.value.loans[loanId] == Approve(b.loans[loanId], today, admin.email, now).value
    ensures r.Ok? ==>
              var loan := b.loans[loanId];
              var a := r.value.loans[loanId];
              && (forall id :: id in b.loans && id != loanId ==> r.value.loans[id] == b.loans[id])
              && r.value.ledger == b.ledger && r.value.kyc == b.kyc && r.value.nextLoanId == b.nextLoanId
              && a.status == DISBURSED && a.startDate == Some(today)
              && a.endDate == Some(PlusMonths(today, loan.tenureMonths))
              && a.approvedBy == Some(admin.email) && a.approvedAt == Some(now)
              && a.id == loan.id && a.owner == loan.owner && a.tenureMonths == loan.tenureMonths
              && r.value.emis == ApprovalRows(b.emis, loan, a, today)
  {
    if loanId !in b.loans then Err(LoanNotFound)
    else
      var loan := b.loans[loanId];
      if loan.status != LoanStatus.PENDING then Err(NotPending)
      else
        var approved := Approve(loan, today, admin.email, now).value;
        Ok(b.(loans := b.loans[loanId := approved], emis := ApprovalRows(b.emis, loan, approved, today)))
  }

  /** rejectLoan: a pending loan is rejected with the (possibly null)
      reason; nothing else changes. */
  function RejectLoan(b: Bank, loanId: LoanId, reason: Option<string>, admin: User, now: Instant): (r: Result<Bank, LoanError>)
    ensures loanId !in b.loans <==> r == Err(LoanNotFound)
    ensures loanId in b.loans ==> (r == Err(NotPending) <==> b.loans[loanId].status != LoanStatus.PENDING)
    ensures loanId in b.loans && b.loans[loanId].status == LoanStatus.PENDING ==> r.Ok?
    ensures r.Ok? ==> loanId in b.loans && r.value.loans.Keys == b.loans.Keys
    ensures r.Ok? ==> r.value.loans[loanId] == Reject(b.loans[loanId], reason, admin.email, now).value
    ensures r.Ok? ==>
              var loan := b.loans[loanId];
              var j := r.value.loans[loanId];
              && (forall id :: id in b.loans && id != loanId ==> r.value.loans[id] == b.loans[id])
              && r.value.emis == b.emis && r.value.ledger == b.ledger && r.value.kyc == b.kyc
              && r.value.nextLoanId == b.nextLoanId
              && j.status == REJECTED && j.rejectionReason == reason
              && j.approvedBy == Some(admin.email) && j.approvedAt == Some(now)
              && j.owner == loan.owner && j.startDate == loan.startDate
  {
    if loanId !in b.loans then Err(LoanNotFound)
    else
      var loan := b.loans[loanId];
      if loan.status != LoanStatus.PENDING then Err(NotPending)
      else Ok(b.(loans := b.loans[loanId := Reject(loan, reason, admin.email, now).value]))
  }

  /** LoanServiceImpl.payEMI: its own ownership check, then the EMI
      service's payment. The outer check never changes the outcome. */
  function PayEmi(b: Bank, loanId: LoanId, n: int, user: User, today: Date, ref: string, millis: nat, now: Instant): (r: Result<Bank, LoanError>)
    ensures r == EmiService.PayEmi(b, loanId, n, user, today, ref, millis, now)
  {
    if loanId !in b.loans then Err(LoanNotFound)
    else if b.loans[loanId].owner != user.id then Err(Unauthorized)
    else EmiService.PayEmi(b, loanId, n, user, today, ref, millis, now)
  }

  /** LoanServiceImpl.getEMISchedule: its own ownership check, then the EMI
      service's listing. The outer check never changes the outcome. */
  function GetEmiSchedule(b: Bank, loanId: LoanId, user: User): (r: Result<seq<EMIRecord>, LoanError>)
    ensures r == EmiService.GetEmiSchedule(b, loanId, user)
  {
    if loanId !in b.loans then Err(LoanNotFound)
    else if b.loans[loanId].owner != user.id then Err(Unauthorized)
    else EmiService.GetEmiSchedule(b, loanId, user)
  }

  /** No user holds two active loans at once. */
  predicate OneActiveLoanPerUser(b: Bank) {
    forall i, j :: i in b.loans && j in b.loans && i != j && b.loans[i].owner == b.loans[j].owner ==>
      !(IsActive(b.loans[i]) && IsActive(b.loans[j]))
  }

  /** A successful application keeps the loans table well formed and stores
      the loan under an id no other loan had. */
  lemma ApplyPreservesWellFormed(b: Bank, request: Option<LoanRequest>, user: User, millis: nat, now: Instant)
    requires LoansWellFormed(b)
    requires ApplyForLoan(b, request, user, millis, now).Ok?
    ensures b.nextLoanId !in b.loans
    ensures LoansWellFormed(ApplyForLoan(b, request, user, millis, now).value)
  {
  }

  /** Applying keeps every user at one active loan at most. */
  lemma ApplyKeepsOneActiveLoan(b: Bank, request: Option<LoanRequest>, user: User, millis: nat, now: Instant)
    requires LoansWellFormed(b) && OneActiveLoanPerUser(b)
    requires ApplyForLoan(b, request, user, millis, now).Ok?
    ensures OneActiveLoanPerUser(ApplyForLoan(b, request, user, millis, now).value)
  {
    var t := ApplyForLoan(b, request, user, millis, now).value;
    var id := b.nextLoanId;
    forall i, j | i in t.loans && j in t.loans && i != j && t.loans[i].owner == t.loans[j].owner
      ensures !(IsActive(t.loans[i]) && IsActive(t.loans[j]))
    {
      if i == id {
        assert t.loans[j] == b.loans[j];
      } else if j == id {
        assert t.loans[i] == b.loans[i];
      }
    }
  }

  /** Once an application succeeds, the same user's next application is
      refused for the active loan, whatever it asks for. */
  lemma SecondApplicationRefused(b: Bank, request: Option<LoanRequest>, user: User, millis: nat, now: Instant,
                                 again: Option<LoanRequest>, millis2: nat, now2: Instant)
    requires ApplyForLoan(b, request, user, millis, now).Ok?
    requires ValidateLoanRequest(again).Ok?
    ensures ApplyForLoan(ApplyForLoan(b, request, user, millis, now).value, again, user, millis2, now2)
            == Err(ActiveLoanExists)
  {
    var t := ApplyForLoan(b, request, user, millis, now).value;
    assert t.loans[b.nextLoanId].owner == user.id && IsActive(t.loans[b.nextLoanId]);
  }

  /** Approving and rejecting keep every user at one active loan at most. */
  lemma DecisionsKeepOneActiveLoan(b: Bank, loanId: LoanId, admin: User, today: Date, reason: Option<string>, now: Instant)
    requires OneActiveLoanPerUser(b)
    ensures ApproveLoan(b, loanId, admin, today, now).Ok? ==>
              OneActiveLoanPerUser(ApproveLoan(b, loanId, admin, today, now).value)
    ensures RejectLoan(b, loanId, reason, admin, now).Ok? ==>
              OneActiveLoanPerUser(RejectLoan(b, loanId, reason, admin, now).value)
  {
    if ApproveLoan(b, loanId, admin, today, now).Ok? {
      var t := ApproveLoan(b, loanId, admin, today, now).value;
      forall i, j | i in t.loans && j in t.loans && i != j && t.loans[i].owner == t.loans[j].owner
        ensures !(IsActive(t.loans[i]) && IsActive(t.loans[j]))
      {
        assert IsActive(t.loans[i]) == IsActive(b.loans[i]) && IsActive(t.loans[j]) == IsActive(b.loans[j]);
      }
    }
  }

  /** A payment keeps every user at one active loan at most. */
  lemma PaymentKeepsOneActiveLoan(b: Bank, loanId: LoanId, n: int, user: User, today: Date, ref: string, millis: nat, now: Instant)
    requires OneActiveLoanPerUser(b)
    requires EmiService.PaymentGoesThrough(b, loanId, n, user, millis)
    ensures var r := PayEmi(b, loanId, n, user, today, ref, millis, now);
            r.Ok? && OneActiveLoanPerUser(r.value)
  {
    EmiService.PayEmiSucceedsExactly(b, loanId, n, user, today, ref, millis, now);
    var t := PayEmi(b, loanId, n, user, today, ref, millis, now).value;
    var row := EmiService.PaymentTarget(b, loanId, n, user).value;
    var w := Ledger.Withdraw(b.ledger, b.loans[loanId].linkedAccount.value, row.amount,
                             EmiService.PaymentDescription(b.loans[loanId], n), user, ref, millis, now);
    assert t == EmiService.Settle(b, loanId, n, row, w.value, today);
    NoNewActiveLoan(b, t);
  }

  /** A change that keeps the loans and their owners and activates no loan
      keeps every user at one active loan at most. */
  lemma NoNewActiveLoan(b: Bank, t: Bank)
    requires OneActiveLoanPerUser(b)
    requires t.loans.Keys == b.loans.Keys
    requires forall i :: i in t.loans ==> t.loans[i].owner == b.loans[i].owner
    requires forall i :: i in t.loans && IsActive(t.loans[i]) ==> IsActive(b.loans[i])
    ensures OneActiveLoanPerUser(t)
  {
  }

  /** After approval no installment of the loan has two rows. */
  lemma ApprovalLeavesNoDuplicates(b: Bank, loanId: LoanId, admin: User, today: Date, now: Instant, m: int)
    requires ApproveLoan(b, loanId, admin, today, now).Ok?
    ensures var loan := b.loans[loanId];
            |RecordsOf(ApproveLoan(b, loanId, admin, today, now).value.emis.records, loan.id, m)| <= 1
  {
    var loan := b.loans[loanId];
    var approved := ApproveLoan(b, loanId, admin, today, now).value.loans[loanId];
    var cleaned := CleanupDuplicates(b.emis, loan);
    if RecordsOfLoan(cleaned.records, loan.id) == [] {
      GenerationLaysDownSchedule(cleaned, loan, approved, today);
      var again := CleanupDuplicates(cleaned, approved).records;
      var rows := ScheduleFor(approved, today, cleaned.nextId);
      CountingRowsAreUnique(rows, loan.id, 1, m);
      RecordsOfAppend(again, rows, loan.id, m);
      NoRowsOfLoan(again, loan.id, m);
    } else {
      NoDuplicatesAfterRecheck(cleaned.records, loan.id, m);
    }
  }

  /** A table holding no row of a loan answers both queries with nothing. */
  lemma {:induction false} NoRowsOfLoan(s: seq<EMIRecord>, loanId: LoanId, m: int)
    requires forall x :: x in s ==> x.loanId != loanId
    ensures RecordsOfLoan(s, loanId) == [] && RecordsOf(s, loanId, m) == []
  {
    if s != [] {
      assert s[0] in s;
      NoRowsOfLoan(s[1..], loanId, m);
    }
  }

  /** When a loan without rows is generated for, the duplicate cleanup
      inside the generation finds no row of it either, so the schedule is
      appended. */
  lemma GenerationLaysDownSchedule(cleaned: EmiStore, loan: Loan, approved: Loan, today: Date)
    requires RecordsOfLoan(cleaned.records, loan.id) == []
    requires approved.id == loan.id && approved.tenureMonths == loan.tenureMonths && approved.startDate == Some(today)
    ensures var again := CleanupDuplicates(cleaned, approved);
            && (forall x :: x in again.records ==> x.loanId != loan.id)
            && GenerateAndSave(cleaned, approved, today).records == again.records + ScheduleFor(approved, today, cleaned.nextId)
  {
    var again := CleanupDuplicates(cleaned, approved);
    var k := KeepFirst(cleaned.records, loan.id, 1, loan.tenureMonths, {});
    assert again.records == k;
    forall x | x in k
      ensures x.loanId != loan.id
    {
      assert x in cleaned.records;
      assert x !in RecordsOfLoan(cleaned.records, loan.id);
    }
    NoRowsOfLoan(k, loan.id, 0);
  }

  /** The schedule of a freshly approved loan that had no rows is exactly the
      generated one: installments 1..tenure in order, as the borrower then
      lists it. */
  lemma ApprovedScheduleIsListed(b: Bank, loanId: LoanId, admin: User, today: Date, now: Instant)
    requires LoansWellFormed(b)
    requires ApproveLoan(b, loanId, admin, today, now).Ok?
    requires RecordsOfLoan(CleanupDuplicates(b.emis, b.loans[loanId]).records, loanId) == []
    ensures var t := ApproveLoan(b, loanId, admin, today, now).value;
            var owner := User(b.loans[loanId].owner, "", {}, UserStatus.ACTIVE, true, None);
            GetEmiSchedule(t, loanId, owner)
            == Ok(ScheduleFor(t.loans[loanId], today, CleanupDuplicates(b.emis, b.loans[loanId]).nextId))
  {
    var loan := b.loans[loanId];
    var t := ApproveLoan(b, loanId, admin, today, now).value;
    var approved := t.loans[loanId];
    var cleaned := CleanupDuplicates(b.emis, loan);
    GenerationLaysDownSchedule(cleaned, loan, approved, today);
    var again := CleanupDuplicates(cleaned, approved);
    var rows := ScheduleFor(approved, today, cleaned.nextId);
    assert t.emis.records == again.records + rows;
    RecordsOfLoanAppend(again.records, rows, loanId);
    NoRowsOfLoan(again.records, loanId, 0);
    OwnRowsAreAll(rows, loanId);
    assert RecordsOfLoan(t.emis.records, loanId) == rows;
    assert EmiService.SortedByInstallment(rows);
    EmiService.SortKeepsSorted(rows);
    var owner := User(loan.owner, "", {}, UserStatus.ACTIVE, true, None);
    assert EmiService.GetEmiSchedule(t, loanId, owner) == Ok(rows);
  }

  /** A list of rows all of one loan is its own per-loan query. */
  lemma {:induction false} OwnRowsAreAll(rows: seq<EMIRecord>, loanId: LoanId)
    requires forall k :: 0 <= k < |rows| ==> rows[k].loanId == loanId
    ensures RecordsOfLoan(rows, loanId) == rows
  {
    if rows != [] {
      OwnRowsAreAll(rows[1..], loanId);
    }
  }

  /** Nobody but the borrower reads a loan, pays its instalments or sees its
      schedule. */
  lemma OnlyTheBorrower(b: Bank, loanId: LoanId, user: User, n: int, today: Date, ref: string, millis: nat, now: Instant)
    requires loanId in b.loans && b.loans[loanId].owner != user.id
    ensures GetLoanDetails(b, loanId, user) == Err(Unauthorized)
    ensures PayEmi(b, loanId, n, user, today, ref, millis, now) == Err(Unauthorized)
    ensures GetEmiSchedule(b, loanId, user) == Err(Unauthorized)
  {
  }
}

=== FILE: seqs.dfy ===
/** The repository lookups the services use (`findByUser`, `findById`,
    `findByIdAndUser`, ...) over a table kept as a sequence in insertion
    order: the first row that matches, if any. */
module Seqs {
  import opened Wrappers

  function FirstIndexFrom<T>(s: seq<T>, p: T -> bool, j: nat): (r: Option<nat>)
    requires j <= |s|
    ensures r.Some? ==> j <= r.value < |s| && p(s[r.value])
                        && forall k :: j <= k < r.value ==> !p(s[k])
    ensures r.None? ==> forall k :: j <= k < |s| ==> !p(s[k])
    decreases |s| - j
  {
    if j == |s| then None
    else if p(s[j]) then Some(j)
    else FirstIndexFrom(s, p, j + 1)
  }

  /** The position of the first element satisfying `p`. */
  function FirstIndex<T>(s: seq<T>, p: T -> bool): (r: Option<nat>)
    ensures r.Some? ==> r.value < |s| && p(s[r.value]) && forall k :: 0 <= k < r.value ==> !p(s[k])
    ensures r.None? <==> forall k :: 0 <= k < |s| ==> !p(s[k])
  {
    FirstIndexFrom(s, p, 0)
  }

  /** A repository's `findByX`: the position of the first row whose key
      is `k`, and none exactly when no row has that key. */
  function FindBy<T, K(==)>(s: seq<T>, key: T -> K, k: K): (r: Option<nat>)
    ensures r.Some? ==> r.value < |s| && key(s[r.value]) == k && forall j :: 0 <= j < r.value ==> key(s[j]) != k
    ensures r.None? <==> forall j :: 0 <= j < |s| ==> key(s[j]) != k
  {
    FirstIndex(s, (x: T) => key(x) == k)
  }

  /** `s` with the element at `i` removed. */
  function RemoveAt<T>(s: seq<T>, i: nat): (r: seq<T>)
    requires i < |s|
    ensures |r| == |s| - 1
    ensures forall k :: 0 <= k < i ==> r[k] == s[k]
    ensures forall k :: i <= k < |r| ==> r[k] == s[k + 1]
  {
    s[..i] + s[i + 1..]
  }
}

=== FILE: text.dfy ===
/** The few java.lang.String operations the services branch on. Case
    mapping is modelled for ASCII letters only. */
module Text {
  import opened Wrappers


  /** `s.trim().isEmpty()`: trim drops every character up to U+0020, so the
      result is empty exactly when no character is above U+0020. */
  predicate TrimIsEmpty(s: string) {
    forall i :: 0 <= i < |s| ==> s[i] <= ' '
  }

  /** Character.isWhitespace: the Unicode space, line and paragraph
      separators other than the no-break ones (U+00A0, U+2007, U+202F),
      plus the ASCII controls TAB through CR and U+001C through U+001F. */
  predicate IsWhitespace(c: char) {
    || c == ' ' || ('\t' <= c <= '\r') || ('\U{1C}' <= c <= '\U{1F}')
    || c == '\U{1680}' || ('\U{2000}' <= c <= '\U{2006}') || ('\U{2008}' <= c <= '\U{200A}')
    || c == '\U{2028}' || c == '\U{2029}' || c == '\U{205F}' || c == '\U{3000}'
  }

  /** `s.isBlank()`: empty or whitespace only. */
  predicate IsBlank(s: string) {
    forall i :: 0 <= i < |s| ==> IsWhitespace(s[i])
  }

  /** The two blank tests of the services differ: `isBlank()` accepts the
      ideographic space, which `trim()` keeps, and `trim()` drops a NUL,
      which `isBlank()` rejects. */
  lemma BlankAndTrimDiffer()
    ensures IsBlank("\U{3000}") && !TrimIsEmpty("\U{3000}")
    ensures TrimIsEmpty("\U{0}") && !IsBlank("\U{0}")
    ensures IsBlank("") && TrimIsEmpty("")
  {
    assert "\U{3000}"[0] == '\U{3000}';
    assert "\U{0}"[0] == '\U{0}';
  }

  /** `s.contains("..")`. */
  predicate ContainsDotDot(s: string) {
    exists i :: 0 <= i < |s| - 1 && s[i] == '.' && s[i + 1] == '.'
  }

  function UpperChar(c: char): (u: char)
    ensures 'a' <= c <= 'z' ==> 'A' <= u <= 'Z'
    ensures !('a' <= c <= 'z') ==> u == c
  {
    if 'a' <= c <= 'z' then (c as int - 32) as char else c
  }

  /** `s.toUpperCase()`. */
  function ToUpper(s: string): (r: string)
    ensures |r| == |s|
    ensures forall i :: 0 <= i < |s| ==> r[i] == UpperChar(s[i])
  {
    if s == [] then [] else [UpperChar(s[0])] + ToUpper(s[1..])
  }

  /** A string without lower-case letters is its own upper case. */
  lemma ToUpperFixesUpper(t: string)
    requires forall i :: 0 <= i < |t| ==> !('a' <= t[i] <= 'z')
    ensures ToUpper(t) == t
  {
  }

  /** `a.equalsIgnoreCase(b)` for a non-null `b`. */
  predicate EqualsIgnoreCase(a: string, b: string) {
    |a| == |b| && forall i :: 0 <= i < |a| ==> UpperChar(a[i]) == UpperChar(b[i])
  }

  lemma EqualsIgnoreCaseIsUpperEquality(a: string, b: string)
    ensures EqualsIgnoreCase(a, b) <==> ToUpper(a) == ToUpper(b)
  {
    if ToUpper(a) == ToUpper(b) {
      assert |a| == |ToUpper(a)|;
      forall i | 0 <= i < |a|
        ensures UpperChar(a[i]) == UpperChar(b[i])
      {
        assert ToUpper(a)[i] == ToUpper(b)[i];
      }
    }
  }

  function DigitChar(d: int): (c: char)
    requires 0 <= d <= 9
    ensures '0' <= c <= '9'
  {
    ('0' as int + d) as char
  }

  /** The decimal digits of `n`, as `Long.toString` writes a non-negative number. */
  function NatToString(n: nat): (s: string)
    ensures |s| >= 1
    ensures forall i :: 0 <= i < |s| ==> '0' <= s[i] <= '9'
  {
    if n < 10 then [DigitChar(n)] else NatToString(n / 10) + [DigitChar(n % 10)]
  }

  /** The number a string of decimal digits denotes. */
  function DigitsValue(s: string): nat
    requires forall i :: 0 <= i < |s| ==> '0' <= s[i] <= '9'
  {
    if s == [] then 0 else 10 * DigitsValue(s[..|s| - 1]) + (s[|s| - 1] as int - '0' as int)
  }

  /** Reading the digits back gives the number, so different numbers are
      written differently. */
  lemma {:induction false} NatToStringRoundTrip(n: nat)
    ensures DigitsValue(NatToString(n)) == n
  {
    if n >= 10 {
      var s := NatToString(n);
      assert s[..|s| - 1] == NatToString(n / 10);
      NatToStringRoundTrip(n / 10);
    }
  }

  /** `Integer.toString`: the digits of the magnitude, with a minus sign
      for a negative number. */
  function IntToString(i: int): (s: string)
    ensures |s| >= 1
    ensures i < 0 <==> s[0] == '-'
  {
    if i < 0 then "-" + NatToString(-i) else NatToString(i)
  }

  /** A nullable string as string concatenation prints it. */
  function Printed(s: Option<string>): string {
    if s.Some? then s.value else "null"
  }
}

=== FILE: users.dfy ===
/** The user identity the services receive from the security layer. Only
    the fields the modelled services read or write are kept. */
module Users {
  import opened Wrappers

  type UserId = nat

  datatype Role = ROLE_CUSTOMER | ROLE_ADMIN

  datatype UserStatus = ACTIVE | INACTIVE | SUSPENDED | PENDING_VERIFICATION

  datatype User = User(
    id: UserId,
    email: string,
    roles: set<Role>,
    status: UserStatus,
    emailVerified: bool,
    suspensionReason: Option<string>)

  /** Some role of the user is named ROLE_ADMIN. */
  predicate IsAdmin(u: User) {
    ROLE_ADMIN in u.roles
  }
}

=== FILE: wrappers.dfy ===
/** Failure-carrying result types shared by every service module.
    A Java method that either returns a value or throws is modelled as a
    function returning `Result<T, E>`, where `E` names the exception. */
module Wrappers {

  /** A nullable Java reference. */
  datatype Option<+T> = None | Some(value: T) {
    function GetOr(default: T): T {
      match this
      case Some(v) => v
      case None => default
    }
  }

  /** The outcome of a service call: its return value, or the exception it throws. */
  datatype Result<+T, +E> = Ok(value: T) | Err(error: E) {
    predicate IsFailure() {
      Err?
    }

    function PropagateFailure<U>(): Result<U, E>
      requires Err?
    {
      Err(error)
    }

    function Extract(): T
      requires Ok?
    {
      value
    }
  }
}
